=== FILE: README.md ===
# TinRoofDefender engine core in Dafny

A functional model of the single-threaded entity–component–event runtime of the
TinRoofDefender JavaScript game engine, together with the small calculations
around it, and proofs of what the code promises.

The model covers:

- the event bus (`Engine.Evented`): per-object listener lists, the reverse
  `binds` records, dispatch over a length fixed at its start, unbinding and
  debinding;
- components and entities: construction with the `extend` merge, destruction,
  `addComponent`, `addComponentList`, `deleteComponent`, idempotent `destroy`,
  and the local-to-world transforms;
- the stage: `insert`, the deferred `remove` queue flushed at the end of `step`,
  `forceRemove`, pause, the depth sort before `draw`, first-hit `collide` with
  `Engine.overlap`, the stage's own `destroy`, and its construction from a scene;
- the scene layer: the scene table, the stage slots, `stageScene`,
  `clearStage(s)` and the per-frame `stageGameLoop`; the camera component;
- the engine object: `_normalizeArg`, `includeModule`, `registerComponent`, the
  frame clock (`setGameLoop`, `pauseGame`, `unpauseGame`) and the singleton
  constructor;
- the animation component (priority-gated `play`, the timer-driven `step`) and
  the animation table;
- sprite sheets (frame to clip-position arithmetic), sprite `initialize` and
  `draw` decisions, the sheet registry and `compileSheets`;
- assets: type classification by extension, `_removeExtension`, `getAsset`,
  `load` (normalisation and the progress and completion bookkeeping) and the
  load queue;
- keyboard and mouse input: key bindings, the keydown and keyup handlers, the
  enable and disable flags, coordinate clamping and the mouse-button flags;
- the physics bridge: world options, the 1/20 s step clamp, contact fan-out,
  picking, and how an actor's body definition is built from its properties and
  written back on each step.

State is immutable: the world of event buses is a `map` from object identities
to buses, stages and entities are records, and every operation is a pure
function returning the new state. Observable actions that the model does not
execute (event emissions, hook calls, log messages, loader starts) are recorded,
in order, in a trace of effects; the few log lines that are not are listed under
"Left out", and an operation that throws part-way returns the effects it
performed before the throw. Callbacks, game code, trigonometry, Box2D and
the browser are parameters: a `Reaction` tells what a listener does to the list
being dispatched, request lists say what game code asks of a stage, and cosines,
sines, body positions and asset sizes are passed in. JavaScript's `undefined`
is `None`, JavaScript truthiness and `||` are written out where the code relies
on them, and times, rates and coordinates are `real`.

Files: `base.dfy` (shared identities, payloads, effects, results),
`evented.dfy`, `components.dfy`, `entity.dfy`, `stage.dfy`, `scenes.dfy`,
`camera.dfy`, `engine.dfy`, `anim.dfy`, `sprites.dfy`, `assets.dfy`,
`input.dfy`, `physics.dfy`.

## Model

| member | source | states |
|---|---|---|
| `Base.IndexOf` | js_engine/components.js:64 | the index found holds the element and no earlier index does; None exactly when the element is absent |
| `Base.RemoveFirst` | js_engine/components.js:64-67 | one occurrence of the element fewer when present, the sequence unchanged otherwise |
| `Evented.BindEvent` | js_engine/evented.js:38-58 | exactly one listener appended to the event's list; with no target the bus is the context and no reverse record is made; with a target one record is appended to its binds; a non-empty callback name is looked up on the target and faults without one; a falsy callback (undefined or the empty name) shifts the arguments, so the bus listens with an undefined callback and no reverse record is made |
| `Evented.BindMethod` | js_engine/evented.js:38-58 | a component binding its own method by a non-empty name: one listener and one reverse record appended, every other list unchanged |
| `Evented.PurgeCount` | js_engine/evented.js:99-105 | unbinding keeps every listener it does not match exactly as many times as it occurred |
| `Evented.PurgeAppend` | js_engine/evented.js:99-105 | removing matches from a concatenation removes them from each part |
| `Evented.SpliceUnbind` | js_engine/evented.js:99-105 | the backwards splice loop removes exactly the matching listeners and keeps the order of the rest |
| `Evented.UnbindEvent` | js_engine/evented.js:89-106 | only listeners with that context (and that callback, when one is given) are removed; all others keep their relative order; no other event or binds list changes |
| `Evented.UnbindAllEvents` | js_engine/evented.js:79-83 | the event is left with no listeners and every other event is untouched; faults when the bus never bound anything |
| `Evented.DebindFrom` | js_engine/evented.js:112-121 | every recorded event loses exactly the listeners with the debinding context; unrecorded events are unchanged |
| `Evented.DebindEvents` | js_engine/evented.js:112-121 | no recorded bus still holds a listener with the debinding context for the recorded event; other listeners keep their counts; binds are unchanged |
| `Evented.DebindIdempotent` | js_engine/evented.js:112-121 | debinding a second time changes nothing |
| `Evented.BindKeepsMirrored` | js_engine/evented.js:52-58 | binding keeps the invariant that every listener with a foreign context is recorded in that context's binds |
| `Evented.UnbindKeepsMirrored` | js_engine/evented.js:89-106 | unbinding keeps the same invariant |
| `Evented.DebindLeavesNoDanglingListener` | js_engine/evented.js:112-121 | once the invariant holds, after debinding no other bus holds a listener whose context is the debound object |
| `Evented.DispatchSnapshot` | js_engine/evented.js:66-74 | with callbacks that only append, the loop from any position calls exactly the listeners present at its start from there on |
| `Evented.TriggerCallsSnapshot` | js_engine/evented.js:65-75 | every listener registered when dispatch starts is called once, in registration order, with the payload; listeners added during dispatch are not called |
| `Evented.DuplicateBindingFiresTwice` | js_engine/evented.js:52 | binding the same context and callback twice makes dispatch call it twice |
| `Evented.SelfUnbindDuringDispatchFaults` | js_engine/evented.js:67-72 | a listener that unbinds itself during a two-listener dispatch makes the loop read a slot that no longer exists |
| `Components.Construct` | js_engine/components.js:33-47 | the component refers to its entity, the `extend` keys are merged onto the entity and all other slots are kept, and the `added` hook runs with the properties (only when defined) |
| `Components.Destroy` | js_engine/components.js:51-76 | every `extend` key and the registered type name are deleted from the entity and nothing else; the active list loses one entry with that name, or is unchanged without one; bindings are released before the `destroyed` hook |
| `Entities.AddComponent` | js_engine/entity.js:96-118 | an existing alias or an unregistered type changes nothing; otherwise the built component is stored under the alias, pushed as an object, and announced after its `added` hook |
| `Entities.AddListFrom` | js_engine/entity.js:73-88 | the active list keeps its prefix and grows only by names that are listed and registered; identity, destroyed flag and stage are kept |
| `Entities.AddComponentList` | js_engine/entity.js:67-90 | the active list grows only by names, never component objects, each one listed in the normalised argument and registered |
| `Entities.AddListAddsFresh` | js_engine/entity.js:76-86 | a single registered name the entity lacks is built, stored under the name, pushed as a name and announced after its `added` hook |
| `Entities.AddListSkips` | js_engine/entity.js:76 | a name already present, or not registered, changes nothing |
| `Entities.AddListAppendsFresh` | js_engine/entity.js:67-90 | the active list grows by exactly the fresh names in list order: each listed string that is registered, that the entity lacked, and that no earlier item names |
| `Entities.AddListPair` | js_engine/entity.js:67-90 | "a,b" with both registered and absent appends the names a then b |
| `Entities.AddListTwiceOnce` | js_engine/entity.js:67-90 | "a,a" with a registered and absent appends a once |
| `Entities.DeleteItem` | js_engine/entity.js:127-132 | a name the entity lacks, or an empty one, changes nothing; a component found is announced with `delComponent` before its destruction releases its bindings and deletes its type and `extend` keys, keeping every other property; a truthy property that is not a component is announced with `delComponent` and then faults, with the entity unchanged |
| `Entities.DeleteFrom` | js_engine/entity.js:126-133 | the first item's effects always lead the result, and a throw by the first item ends the call with exactly that item's outcome |
| `Entities.DeletePairThenThrow` | js_engine/entity.js:126-133 | the items a, b with a component a and a truthy non-component b: a is announced and destroyed, b is announced, then the call faults with a's destruction kept |
| `Entities.DeleteThenThrow` | js_engine/entity.js:122-135 | the comma-joined "a,b" is deleted as those two items |
| `Entities.DeleteOneName` | js_engine/entity.js:122-135 | deleting a single name is exactly that item's deletion |
| `Entities.AliasSurvivesDelete` | js_engine/components.js:61 | deleting an aliased component removes the property named after its type, so the alias stays truthy |
| `Entities.ActiveListGoesStale` | js_engine/entity.js:109 | a component pushed as an object is never found by name on destruction and stays in the active list |
| `Entities.Destroy` | js_engine/entity.js:139-159 | the first call debinds, queues the entity with its parent stage, emits `removed` and sets the flag, in that order; later calls do nothing |
| `Entities.DestroyIdempotent` | js_engine/entity.js:142-144 | destroying twice is the same as destroying once |
| `Entities.TransformLocalDirection` | js_engine/entity.js:50-56 | for a true cosine and sine pair the rotated direction keeps the length of the given one |
| `Entities.TransformLocalPosition` | js_engine/entity.js:34-45 | the world position is the world direction of the same vector placed at the entity's position |
| `Entities.TransformUnrotated` | js_engine/entity.js:34-56 | with cosine 1 and sine 0 the direction is unchanged and the position is a translation |
| `Stages.Remove` | js_engine/module_scenes.js:240-242 | only the removal queue grows, by the entity; items and index are unchanged |
| `Stages.Insert` | js_engine/module_scenes.js:222-234 | the entity is appended to the items, adopted, indexed under its id, and announced on the stage and then on the entity |
| `Stages.ForceRemove` | js_engine/module_scenes.js:248-260 | an unlisted entity changes nothing; otherwise the items lose exactly one occurrence of it and the rest keep their order; the removal queue only grows |
| `Stages.ForceRemoveEffects` | js_engine/module_scenes.js:252-258 | the entity is destroyed, its truthy id unindexed, it is queued again only through its parent, and the stage's `removed` follows the entity's own effects |
| `Stages.ForceRemoveOthers` | js_engine/module_scenes.js:248-260 | no other stage changes beyond queueing the entity with its parent |
| `Stages.StepPass` | js_engine/module_scenes.js:201-207 | the items present when the pass starts are stepped, in order, reading the live list |
| `Stages.FlushItems` | js_engine/module_scenes.js:297-301 | each entity loses one occurrence per time it was queued, down to none, and the survivors keep their order |
| `Stages.FlushQueue` | js_engine/module_scenes.js:297-302 | the same count and order result, and the queue ends empty |
| `Stages.StepStage` | js_engine/module_scenes.js:290-303 | a paused stage does nothing; otherwise `prestep` comes first, every item present before the step is stepped in order ahead of any inserted during it, and the removal queue ends empty |
| `Stages.QuietStep` | js_engine/module_scenes.js:290-303 | with game code asking for nothing, every item is stepped in order, removals take effect by count, survivors keep their order, and the queue ends empty |
| `Stages.QuietStepOthers` | js_engine/module_scenes.js:290-303 | such a step leaves every other stage as it was, except for entities queued with their parents |
| `Stages.PausedStepInert` | js_engine/module_scenes.js:291 | a paused stage's step is inert whatever game code would do |
| `Stages.SetPaused` | js_engine/module_scenes.js:277-285 | pausing and unpausing set the flag and change nothing else |
| `Stages.InsertByDepth` | js_engine/module_scenes.js:183 | inserting into a depth-ordered list keeps it ordered and adds exactly that entry |
| `Stages.SortByDepth` | js_engine/module_scenes.js:309-311 | the sorted items are a permutation of the items in non-decreasing depth |
| `Stages.SortByDepthOrdered` | js_engine/module_scenes.js:309-311 | sorting an already ordered list leaves it as it is |
| `Stages.DrawTrace` | js_engine/module_scenes.js:312-323 | `predraw` and `postdraw` always, the item draws and `draw` only when visible |
| `Stages.Draw` | js_engine/module_scenes.js:308-324 | only the order of the items changes; with sorting on they end in depth order |
| `Stages.DrawOthers` | js_engine/module_scenes.js:308-324 | a draw leaves every other stage as it was |
| `Stages.RemovedNotDrawn` | js_engine/module_scenes.js:297-302 | an entity queued at least as often as it is listed is gone by the end of the step, so the same frame's draw never reaches it |
| `Stages.OverlapSymmetric` | js_engine/module_scenes.js:354-376 | overlap does not depend on the order of its arguments |
| `Stages.OverlapExamples` | js_engine/module_scenes.js:354-376 | touching and overlapping boxes overlap: width-20 boxes 10 apart do, 21 apart do not |
| `Stages.Collide` | js_engine/module_scenes.js:211-218 | the first item in list order that is not the object, passes the type mask and overlaps it; `false` when none does |
| `Stages.DestroyStage` | js_engine/module_scenes.js:265-273 | every item present is marked destroyed and so is the stage itself, which emits `removed` last; items and index are kept and other stages change only in their removal queues |
| `Stages.DestroyStageTwice` | js_engine/module_scenes.js:265-273 | destroying a stage a second time does nothing |
| `Stages.SortModeOf` | js_engine/module_scenes.js:182-184 | a function is kept, another truthy value becomes the depth comparator, a falsy one disables sorting |
| `Stages.NewStage` | js_engine/module_scenes.js:160-189 | paused, visible and sort come from the scene's options over the defaults (sort normalised), the centre is mid-screen, and without a scene the stage starts empty and nothing else changes |
| `SceneLoop.AddScene` | js_engine/module_scenes.js:380-383 | the scene is stored under its name, replacing any earlier one, and returned |
| `SceneLoop.AddThenGet` | js_engine/module_scenes.js:380-389 | a scene added under a name is found under it, and other names keep their scenes |
| `SceneLoop.GetStage` | js_engine/module_scenes.js:393-397 | a stage is found exactly when the given slot (the active one when none is given) is in range and occupied, and it is the slot's stage; `SceneLoop.StageThenGet` and `SceneLoop.ClearStageDestroys` relate it to staging and clearing |
| `SceneLoop.PutSlot` | js_engine/module_scenes.js:424 | the slot holds the stage, earlier slots are kept and any gap is filled with holes |
| `SceneLoop.StageScene` | js_engine/module_scenes.js:404-431 | the slot (default 0) then holds the new stage, with holes filling any gap; scenes and the active slot are kept; when no loop handle is stored a frame is requested for the loop wrapper, and the handle still stays unset, as `setGameLoop` leaves it |
| `SceneLoop.StageSceneIntended` | js_engine/module_scenes.js:427-430 | the same staging with the loop started by the cancelling `setGameLoop`: the handle is stored, and a clock with at most one frame chain keeps at most one |
| `SceneLoop.StageTwiceTwoChains` | js_engine/module_scenes.js:404-431 | from a fresh clock, staging twice requests two frames for the loop and pausing leaves both; with the intended start one frame is requested and pausing cancels it |
| `SceneLoop.StageSceneReplaces` | js_engine/module_scenes.js:404-431 | the replaced stage ends destroyed, the new one carries the scene's options, and every occupied slot still names a stage |
| `SceneLoop.StageThenGet` | js_engine/module_scenes.js:393-431 | the stage staged into a slot is the one then found there; the loop handle is unchanged, and with none stored a frame for the loop is pending |
| `SceneLoop.ClearStage` | js_engine/module_scenes.js:456-461 | an occupied slot has its stage destroyed and is emptied; any other slot number changes nothing |
| `SceneLoop.ClearStageDestroys` | js_engine/module_scenes.js:456-461 | the stage cleared is destroyed and the other occupied slots still name stages |
| `SceneLoop.DestroySlotsMarks` | js_engine/module_scenes.js:466-468 | destroying the slots from a position marks each of their stages destroyed and unmarks none |
| `SceneLoop.ClearStages` | js_engine/module_scenes.js:465-470 | every occupied slot's stage is destroyed, in slot order, and no slot remains |
| `SceneLoop.ClearStagesThenClear` | js_engine/module_scenes.js:456-470 | after clearing every stage, clearing any slot does nothing |
| `SceneLoop.StageGameLoop` | js_engine/module_scenes.js:435-452 | one turn per occupied slot below the starting length, in slot order; nothing is drawn without a canvas; the active slot ends at 0 and nothing else of the game changes but the stages |
| `SceneLoop.RunSlotsSkipsRemoved` | js_engine/module_scenes.js:440-449 | in a quiet frame an entity removed from a running stage is drawn in none of that stage's turns |
| `SceneLoop.FrameSkipsRemoved` | js_engine/module_scenes.js:435-452 | the same for the whole frame, however the slots are laid out |
| `Camera.Added` | js_engine/module_scenes.js:64-74 | the camera defaults overridden by the given options are put on the stage, whose centre stays, and the camera listens to `predraw` then `postdraw` |
| `Camera.CenterViewportOn` | js_engine/module_scenes.js:108-114 | the view's centre becomes the point, and its angle and scale stay |
| `Camera.CenteredOnScreen` | js_engine/module_scenes.js:108-127 | after centring, the point is drawn mid-screen and the view's corner at the screen's corner |
| `Camera.UpdateViewport` | js_engine/module_scenes.js:99-103 | a following camera centres on the followed entity at its scale; otherwise nothing changes |
| `Camera.FollowEntity` | js_engine/module_scenes.js:80-86 | the entity is followed, the view centres on it, and the camera listens to its `removed` |
| `Camera.Unfollow` | js_engine/module_scenes.js:91-94 | the camera's `removed` listener on the followed entity is dropped and nothing is followed; faults when nothing is followed |
| `Camera.FollowThenUnfollow` | js_engine/module_scenes.js:80-94 | following then unfollowing restores the entity's `removed` listeners |
| `Camera.UnfollowTwiceFaults` | js_engine/module_scenes.js:91-94 | the second unfollow faults |
| `EngineCore.Split` | js_engine/engine.js:32 | at least one part, and no part contains a comma |
| `EngineCore.JoinSplit` | js_engine/engine.js:32 | joining the parts with commas gives back the string |
| `EngineCore.SplitJoin` | js_engine/engine.js:32 | splitting a comma-joined list of comma-free parts gives back the parts |
| `EngineCore.NormalizeArg` | js_engine/engine.js:30-38 | a string loses its whitespace and is split on commas; an array is returned as it is; anything else is wrapped |
| `EngineCore.NormalizeJoin` | js_engine/engine.js:30-38 | the joined names of a normalised string are the string with its whitespace removed |
| `EngineCore.NormalizeNames` | js_engine/engine.js:30-38 | a comma-joined list of clean names normalises back to exactly those names, in order |
| `EngineCore.IncludeModule` | js_engine/engine.js:53-64 | one action per normalised item in list order: a resolved function is applied, anything else logged |
| `EngineCore.IncludeNamedModules` | js_engine/engine.js:53-64 | including a comma-separated list of registered names applies exactly those modules in the order written |
| `EngineCore.RegisterComponent` | js_engine/engine.js:116-125 | a new name gets a class carrying that name and nothing is logged; an existing name leaves the registry unchanged and logs exactly the duplicate-registration message |
| `EngineCore.RegisterTwice` | js_engine/engine.js:118-121 | a second registration under a name changes nothing, whatever its methods, and logs the duplicate-registration message |
| `EngineCore.SetGameLoop` | js_engine/engine.js:75-93 | as written: the clock restarts at 0 and a new frame is requested, without cancelling or storing the earlier one |
| `EngineCore.SetGameLoopCancelling` | js_engine/engine.js:75-93 | the corrected loop start: the clock restarts at 0, the new request is pending and its handle stored, and the frame held before is no longer pending |
| `EngineCore.FrameDt` | js_engine/engine.js:86-88 | the callback's step in seconds never exceeds 0.1 and is the elapsed time below 100 ms |
| `EngineCore.Fire` | js_engine/engine.js:82-90 | a frame requests the next, calls its callback with the clamped step, and records its time |
| `EngineCore.Pause` | js_engine/engine.js:97-103 | the frame held is cancelled and the handle is null afterwards |
| `EngineCore.Unpause` | js_engine/engine.js:107-113 | only a null handle restarts the clock at 0 and requests the installed wrapper again, faulting when none was ever installed; otherwise nothing changes |
| `EngineCore.SingleChainPreserved` | js_engine/engine.js:75-113 | with the corrected loop start every clock operation keeps at most one chain, and a paused clock has none |
| `EngineCore.PauseMissesSecondChain` | js_engine/engine.js:75-103 | as written, starting the loop twice before a frame leaves two chains and pausing cancels only one |
| `EngineCore.PauseBeforeFirstFrameIgnored` | js_engine/engine.js:92-102 | as written, pausing before the first frame cancels nothing and the frame sets the handle again |
| `EngineCore.FirstFrameClamped` | js_engine/engine.js:76-110 | the first frame after starting or resuming is measured from 0 and gets the full 0.1 s past 100 ms |
| `EngineCore.PauseResumeIdempotent` | js_engine/engine.js:97-113 | resuming a running clock or pausing a paused one changes nothing |
| `EngineCore.NewEngine` | js_engine/engine.js:129-164 | an existing instance is returned and the configuration ignored; otherwise each option keeps its default when the key is absent, becomes undefined when the key is given as undefined, and takes the given value otherwise; the registry starts empty |
| `EngineCore.EmptyConfigIsDefault` | js_engine/engine.js:142-150 | an empty configuration object gives the same engine as none |
| `EngineCore.SingletonStable` | js_engine/engine.js:132-134 | constructing again, with any configuration, yields the first instance |
| `Animation.AddAnimationData` | js_engine/module_anim.js:184-190 | the set's table gains the given animations, later keys overriding earlier ones, and every other set is unchanged |
| `Animation.GetAnimationData` | js_engine/module_anim.js:195-197 | nothing for an unknown set or name, otherwise the stored data |
| `Animation.AddThenGet` | js_engine/module_anim.js:184-197 | registered animations are retrievable under the set's name and every other lookup is unchanged |
| `Animation.Added` | js_engine/module_anim.js:60-66 | the defaults (nothing playing, priority -1, frame 0, time 0) are merged over the properties and the component listens to `step` |
| `Animation.Play` | js_engine/module_anim.js:149-169 | a different name at a priority (default 0) at least the current one restarts at frame 0 with the changed flag and emits `anim` then `anim.<name>`; otherwise nothing happens |
| `Animation.PlaySameIgnored` | js_engine/module_anim.js:156 | asking again for the playing animation is ignored at any priority |
| `Animation.PriorityGate` | js_engine/module_anim.js:156 | a lower priority never interrupts, and an equal or higher one for another name always does |
| `Animation.Advance` | js_engine/module_anim.js:89-98 | the first step after `play` only clears the flag; later ones add the time and, strictly past the rate, move on by the whole frames that fit and keep the remainder |
| `Animation.RemainderBound` | js_engine/module_anim.js:95-96 | what is left after taking whole frames lies in [0, rate) |
| `Animation.AdvanceKeepsTimeBound` | js_engine/module_anim.js:92-98 | with a positive rate and non-negative step the timer stays in [0, rate] |
| `Animation.ShowFrame` | js_engine/module_anim.js:143-144 | the data's sheet name wins when given, and the frame shown is the data's frame at the current index |
| `Animation.Step` | js_engine/module_anim.js:71-145 | nothing playing changes nothing; missing data unbinds the step listener; otherwise the timer, wrap, end and chain rules apply |
| `Animation.MissingDataUnbinds` | js_engine/module_anim.js:80-84 | after `added`, a step that finds no data leaves no step listener for the component |
| `Animation.PlayKeepsInRange` | js_engine/module_anim.js:149-169 | starting an animation keeps the frame index within the frames |
| `Animation.StepKeepsInRange` | js_engine/module_anim.js:101-144 | a step keeps the frame index within the frames, and a continuing animation shows the data's frame at that index |
| `Animation.FirstStepAfterPlay` | js_engine/module_anim.js:89-90 | the first step after `play` consumes the flag only: time and frame stay 0 and no event fires |
| `Animation.LoopWraps` | js_engine/module_anim.js:128-139 | a looping animation past its end wraps into range and emits `animLoop`, `animLoop.<name>`, then `animFrame` |
| `Animation.EndThenChain` | js_engine/module_anim.js:103-127 | an ending animation stops on its last frame, emits `animEnd` and `animEnd.<name>`, then its trigger, then starts the chained one |
| `Sprites.NewSheet` | js_engine/module_sprites.js:58-72 | 64 x 64 tiles at 0, 0 and the asset's size unless the options say otherwise; columns from the options when truthy, NaN otherwise; a missing asset, or one stored as null, faults |
| `Sprites.Clip` | js_engine/module_sprites.js:76-84 | the clip origin of a frame, undefined when the columns are NaN or not positive |
| `Sprites.FrameXBounds` | js_engine/module_sprites.js:76-78 | the column start lies within the first row's span |
| `Sprites.FrameDecomposes` | js_engine/module_sprites.js:76-84 | the frame is recovered from its clip position as row times columns plus column |
| `Sprites.FrameUnique` | js_engine/module_sprites.js:76-84 | two frames with the same clip position are equal |
| `Sprites.Initialize` | js_engine/module_sprites.js:145-178 | a truthy id is kept and any other replaced; a missing size comes from the asset when named, else from the sheet's tile; a missing or null asset, or a missing sheet, faults, after the assertion's log exactly when the lookup gave undefined |
| `Sprites.NullAssetFaults` | js_engine/module_sprites.js:62-63 | an asset stored as null makes a sheet built on it fault, and a sprite sizing itself from it fault without a log |
| `Sprites.InitializeSizeSource` | js_engine/module_sprites.js:151-158 | where the missing size comes from: the asset first, the sheet's tile next |
| `Sprites.InitializeIdempotent` | js_engine/module_sprites.js:145-160 | initialising again changes nothing, whatever the new generated id |
| `Sprites.Draw` | js_engine/module_sprites.js:185-205 | nothing when invisible; a sheet before an image; the size drawn is width and height times the scale; a missing sheet logs `getSheet`'s assertion message and then faults, and every other path logs nothing |
| `Sprites.ZeroArgumentFallsBack` | js_engine/module_sprites.js:190-192 | a 0 position or angle argument is the same as none |
| `Sprites.SheetBeatsAsset` | js_engine/module_sprites.js:196-200 | with both names set the sheet's frame is drawn |
| `Sprites.LoadSpriteSheet` | js_engine/module_sprites.js:324-326 | faults exactly when the asset is missing or null; otherwise the sheet is stored under its name and every other name is unchanged |
| `Sprites.LoadOverwrites` | js_engine/module_sprites.js:324-332 | loading twice under one name keeps only the second |
| `Sprites.CompileSheets` | js_engine/module_sprites.js:338-345 | one sheet per data key, all on the image; a missing data asset logs and compiles nothing; a missing or null image faults when there is a sheet to build |
| `Assets.LastSegment` | js_engine/assets.js:44 | the text after the last dot, containing no dot; the whole name without one |
| `Assets.LastSegmentAfterDot` | js_engine/assets.js:44 | a name ending in a dot and a dot-free extension yields that extension |
| `Assets.AssetType` | js_engine/assets.js:42-48 | the table's type for the lower-cased last extension, "Other" when it has none |
| `Assets.AssetTypeOfFile` | js_engine/assets.js:42-48 | a file's type depends only on its last extension, in any letter case |
| `Assets.RemoveExtension` | js_engine/assets.js:51-53 | a trailing dot and three or four word characters are removed, and nothing else |
| `Assets.StripsExtension` | js_engine/assets.js:51-53 | such an extension is stripped back to the base name |
| `Assets.KeepsOtherNames` | js_engine/assets.js:51-53 | a name without such a tail is returned unchanged |
| `Assets.GetAsset` | js_engine/assets.js:142-148 | nothing, with a log, while no table exists; otherwise the stored asset |
| `Assets.Normalize` | js_engine/assets.js:186-201 | the entries have distinct keys, and a string gives the single entry loading itself |
| `Assets.NormalizeKeys` | js_engine/assets.js:186-201 | the keys to load are exactly the names and object keys listed, each once |
| `Assets.NamesMapToThemselves` | js_engine/assets.js:188-193 | every entry from an array of plain names loads a file under its own name |
| `Assets.AssetLoaded` | js_engine/assets.js:209-228 | after an error nothing happens; otherwise the asset is stored, the count drops by one, progress reports done out of total, and the finished callback runs at 0 |
| `Assets.AssetFailed` | js_engine/assets.js:177-181 | an error is reported and every later success is ignored |
| `Assets.Pass` | js_engine/assets.js:231-247 | at most one loader per entry, and the outstanding count drops by one for each entry counted at once because it was already loaded; the loads started are those of the entries not yet loaded, in list order |
| `Assets.Load` | js_engine/assets.js:157-249 | the total is the number of normalised entries, no error is set, the outstanding count equals the loaders started, and a load starts for each normalised entry not already loaded, in order, with the loader its file name selects |
| `Assets.EmptyListNeverFinishes` | js_engine/assets.js:204-227 | an empty load reports nothing and starts nothing, so the finished callback never runs |
| `Assets.SilentAfterError` | js_engine/assets.js:210 | once an error is reported nothing is stored or reported again |
| `Assets.FinishesOnce` | js_engine/assets.js:209-228 | when every outstanding load succeeds the finished callback runs once, on the last success |
| `Assets.ProgressCounts` | js_engine/assets.js:216-221 | each success reports the number done so far out of the total |
| `Assets.PassSkipsLoaded` | js_engine/assets.js:238-246 | an entry is started exactly when it is listed and its key holds no truthy asset, in list order |
| `Assets.PassStartsAllFresh` | js_engine/assets.js:231-247 | when no listed key is loaded yet every entry is started, in list order, and none is counted as done |
| `Assets.QueueLoad` | js_engine/assets.js:255-262 | the queue is created when missing and extended by the items |
| `Assets.Uniq` | js_engine/assets.js:272 | first occurrences, in order: the same elements, no duplicates, a subsequence of the input, and ordered by each element's first index in the input |
| `Assets.LoadQueuedFiles` | js_engine/assets.js:270-275 | with a queue its distinct items are loaded and it is emptied; without one nothing happens |
| `Assets.QueuedLoadedOnce` | js_engine/assets.js:255-275 | a name queued twice is loaded once: the keys loaded are the names queued |
| `Input.Decimal` | js_engine/module_input.js:283 | the decimal text of a key code: digits only, ending in the last digit, two or more digits exactly from 10 |
| `Input.DecimalInjective` | js_engine/module_input.js:283 | distinct codes name distinct key slots |
| `Input.Slot` | js_engine/module_input.js:212 | a listed key name resolves to its code, anything else to itself |
| `Input.BindKey` | js_engine/module_input.js:211-213 | the named slot holds the action and no other slot changes |
| `Input.UnbindKey` | js_engine/module_input.js:218-220 | the named slot is cleared and no other slot changes |
| `Input.BindAllLast` | js_engine/module_input.js:226-229 | an entry whose slot no later entry names is in force after applying the bindings |
| `Input.BindAllOutside` | js_engine/module_input.js:226-229 | a slot no entry names keeps its content |
| `Input.SetKeyboardControls` | js_engine/module_input.js:225-231 | only the bindings and the flag change, and the keyboard ends enabled exactly when it was already or is supported |
| `Input.ControlsInForce` | js_engine/module_input.js:225-231 | controls naming distinct codes with non-empty actions are all in force afterwards |
| `Input.DefaultControls` | js_engine/module_input.js:129-139 | after setting the default controls, every default key code maps to its default action |
| `Input.DefaultFire` | js_engine/module_input.js:129-139 | after setting the default controls, codes 32 and 90 both mean "fire" |
| `Input.EnableKeyboard` | js_engine/module_input.js:260-307 | returns false and changes nothing exactly when unsupported or already enabled; otherwise returns undefined and sets the flag, keeping the bindings |
| `Input.EnableTwice` | js_engine/module_input.js:268-270 | enabling twice: the second call returns false and changes nothing |
| `Input.DisableKeyboard` | js_engine/module_input.js:237-254 | nothing when already disabled; otherwise faults without a global `engine`, else empties the bindings and clears the flag |
| `Input.DisabledIsQuiet` | js_engine/module_input.js:251-253 | after disabling, no code triggers anything until keys are bound again |
| `Input.Keydown` | js_engine/module_input.js:278-291 | a mapped code sets its action and emits the action then `keydown` with the code; an unmapped code changes nothing |
| `Input.Keyup` | js_engine/module_input.js:293-303 | a mapped code clears its action and emits the action plus `Up` then `keyup` with the code |
| `Input.BindThenPress` | js_engine/module_input.js:211-303 | a bound code pressed sets its action and emits; released clears it and emits |
| `Input.UnbindThenQuiet` | js_engine/module_input.js:218-303 | after unbinding, pressing or releasing the code changes nothing |
| `Input.BindLeavesOtherCodes` | js_engine/module_input.js:211-213 | binding one code leaves what every other code does unchanged |
| `Input.ClampAxis` | js_engine/module_input.js:346-366 | the offset coordinate, clamped to 0 at or below zero and to size - 1 at or past the size |
| `Input.ClampOnScreen` | js_engine/module_input.js:354-364 | with a size of at least 1 the clamped coordinate lies in [0, size) |
| `Input.ClampIdempotent` | js_engine/module_input.js:354-364 | clamping a clamped coordinate keeps it |
| `Input.ButtonOf` | js_engine/module_input.js:146-148 | the button whose number the event carries, under either numbering |
| `Input.MouseMove` | js_engine/module_input.js:370-374 | the position is the clamped one and `mousemove` is emitted with it |
| `Input.MouseButton` | js_engine/module_input.js:377-416 | the position is updated, `mousedown`/`mouseup` is emitted, then the button's own event; only that button's flag is set or cleared |
| `Input.ClickRestoresFlags` | js_engine/module_input.js:377-416 | pressing and releasing one button restores every flag and leaves the mouse on screen |
| `Input.ButtonsDistinct` | js_engine/module_input.js:145-148 | the three buttons have distinct numbers under either numbering |
| `Physics.WorldAdded` | js_engine/module_physics.js:99-133 | no options give the defaults, a given scale or gravity is taken over, and the component listens to the stage's `step` with `boxStep` |
| `Physics.BoxStep` | js_engine/module_physics.js:201-206 | the world advances by the frame time but never by more than 1/20 s |
| `Physics.BoxStepMonotone` | js_engine/module_physics.js:201-206 | a longer frame never steps less, and a step within the clamp passes unchanged |
| `Physics.Contact` | js_engine/module_physics.js:141-165 | A is told about B, B about A, then the stage gets the record with no impulse and no sprite; a missing participant faults |
| `Physics.ContactOncePerParticipant` | js_engine/module_physics.js:151-165 | each of two distinct participants gets the contact once naming the other, and the stage once |
| `Physics.PostSolve` | js_engine/module_physics.js:167-177 | the record carries the impulse; A's `impulse` names B as sprite, B's names A, and the stage gets the record as B's left it |
| `Physics.ImpulseNamesOther` | js_engine/module_physics.js:170-174 | every participant's impulse record names the other participant |
| `Physics.QueryBox` | js_engine/module_physics.js:214-217 | the query box is the point in world units widened by 0.001 on each side |
| `Physics.PickIndex` | js_engine/module_physics.js:220-230 | the first fixture that is not static and contains the point |
| `Physics.EntityAtPosition` | js_engine/module_physics.js:213-238 | the owner of the first non-static hit in query order, or null when no reported fixture is non-static and contains the point |
| `Physics.PickIgnoresStatic` | js_engine/module_physics.js:222 | dropping static bodies from what the query reports changes nothing |
| `Physics.BodyTypeRule` | js_engine/module_physics.js:439-453 | static exactly when massless or asked to be, kinematic exactly when it has mass and asks to be, dynamic otherwise |
| `Physics.DefaultDensityIsNotMassless` | js_engine/module_physics.js:77 | with the default density left in place a body is never static for lack of mass |
| `Physics.ShapeOf` | js_engine/module_physics.js:473-495 | a block's half extents from its shape size or size, a circle's radius from its radius or larger side, a polygon's points scaled; logs where a size is undefined; a polygon without points faults |
| `Physics.Insert` | js_engine/module_physics.js:423-517 | without a world the assertion logs and the call faults; otherwise a body at the position over the scale, of the type rule's kind, with the shape, the given mass or density mass, and the angle only when truthy |
| `Physics.ShapeFallbacks` | js_engine/module_physics.js:476-483 | a block with only a size takes half of it as half extents, a circle takes the larger side as radius |
| `Physics.ActorAdd` | js_engine/module_physics.js:344-351 | in a stage the body is built at once, otherwise the actor waits for `inserted`; then it listens to `step` and `removed`; a build that faults binds nothing |
| `Physics.ActorListens` | js_engine/module_physics.js:344-351 | either way the actor listens to `step` and `removed` once each, and only the deferred path to `inserted` |
| `Physics.ActorStep` | js_engine/module_physics.js:531-540 | the body's position times the world scale and its angle are written back to the entity |
| `Physics.PositionRoundTrip` | js_engine/module_physics.js:454 | a body that has not moved writes back the pixel position it was created from, in exact real arithmetic |

## Left out

- Image, audio and data loaders, the DOM, canvas drawing and SVG: only their outcomes are modelled, as loader events, a canvas flag, and draw records. `Sprites.Draw` with a truthy context but no canvas throws inside the canvas code; that fault is not modelled.
- The gamepad, touch input, `getNormalizedMousePosition`, `enableMouse`/`disableMouse` and the DOM handler registration and removal in `enableKeyboard`/`disableKeyboard`: browser plumbing. Disabling the keyboard is taken to remove its handlers; in the source `keydown(undefined)` removes nothing, so disabling then enabling again stacks a second pair of handlers and each press fires twice, which the model does not show.
- `mouseMiddleDown` starts undefined in the source and is read as false here.
- JavaScript objects list integer-like keys first: the key tables of `setKeyboardControls` and the asset object of `load` are taken in written order.
- `_.uniq` compares by value here; the source compares objects by identity.
- Lower-casing covers ASCII letters only; inherited `Object.prototype` keys are not modelled.
- Box2D internals (`createBody`, `destroyBody`, joints, debug draw), the actor's `removed`, `setPosition`, velocity and forces: the physics solver is out of scope.
- Body flags passed straight through to Box2D (sleep, damping, bullet, fixed rotation, friction, restitution, sensor) are not carried in the body record.
- The shared `contactData` object is modelled as a fresh record per event; listeners that keep it and see it change are not modelled.
- World options given explicitly as undefined are treated as absent.
- Physics.Insert: requires a non-zero world scale, because division by zero gives infinities that real arithmetic cannot represent.
- Physics.ActorAdd: requires a non-zero world scale, for the same reason.
- Physics.QueryBox: requires a non-zero world scale, for the same reason.
- Animation.Step: requires, for a playing animation whose data exists, non-empty frames and a positive rate when one is defined; zero or negative rates and empty frame lists are not modelled.
- NaN or non-positive sheet columns give no clip position rather than NaN arithmetic.
- Negative frame numbers, drawing with a missing image asset, and the sprite entity's own draw and step and the sprite component's transforms are not modelled.
- Camera.CenterViewportOn: requires a non-zero scale, because the source divides by it.
- Camera.UpdateViewport: requires a non-zero scale, for the same reason.
- Camera.FollowEntity: requires a non-zero scale, for the same reason.
- The camera's `predraw`/`postdraw` canvas transforms and the `following` default merged onto the stage are not modelled.
- Negative or fractional stage slot numbers, and `stageScene` called by game code while the loop runs, are not modelled.
- An item whose `z` is undefined makes the depth comparator return NaN; depths are always numbers here.
- Physics.Insert: a shape kind other than block, circle or polygon makes Box2D's `CreateFixture` throw; the model returns a body with no shape instead.
- The `console.log` lines of `pauseGame`, `unpauseGame`, the `Engine` constructor ("New Engine instance") and `addAnimationData` ("Adding animation data for sprite:") are not recorded as effects.
- Every stage item is taken to have `step` and `draw` methods: `eachInvoke` calls them unguarded, so an item without one throws in the source, which the model does not show.
- Sheet options cannot override `name` or `assetName`, and cannot supply `w`, which the source would use for the column count; only the tile, origin, columns and size options are modelled.
- Entities.AddListAppendsFresh: requires that no listed class's `extend` values name another listed component; otherwise an earlier component's properties make a later name count as present, which the lemma does not cover.
- Game code run by the draw events is recorded as emissions and not executed; the depth sort keeps equal depths in their order, as a stable JavaScript sort does.
- A stage that is itself an item of another stage and queues its own removal is not modelled.
- `Engine.extend`, `GetCurrentInstance` and the `requestAnimationFrame` polyfill are trivial or browser plumbing.
- The bodies of component hooks (`added`, `destroyed`) and of listeners are game code: they appear as recorded calls.
- Entities.DeleteComponent: its own contract states only that the entity's identity, flag and stage are kept; what deleting does is stated per item by `Entities.DeleteItem`, `Entities.DeleteFrom`, `Entities.DeleteOneName` and `Entities.DeletePairThenThrow`.

## Findings

| source | as written | input that shows it | evidently intended | confidence | as-written member | corrected member |
|---|---|---|---|---|---|---|
| js_engine/engine.js:75-103 | `setGameLoop` requests a frame without cancelling an earlier request or storing the handle, so `pauseGame` cancels only the handle the newest frame stored | `stageScene` starts the loop, then game code calls `setGameLoop` again before the first frame: two frame chains run, and `pauseGame` stops only one | starting the loop cancels the frame already held and stores the new handle, so exactly one chain runs and pausing stops it | not executed | `EngineCore.PauseMissesSecondChain` | `EngineCore.SetGameLoopCancelling` |
| js_engine/module_scenes.js:427-430 | `stageScene` starts the loop only while `this.loop` is unset, but `setGameLoop` never sets it; the handle first appears when a frame runs | two `stageScene` calls into slots 0 and 1 on a fresh engine, before any frame: both request a frame for the loop, and `pauseGame` then cancels neither | the first call stores the loop handle, so the second sees a running loop and pausing cancels the one request | not executed | `SceneLoop.StageTwiceTwoChains` | `SceneLoop.StageSceneIntended` |

=== FILE: anim.dfy ===
/** The animation component (js_engine/module_anim.js): named animations
    registered per sprite set, a priority gate on `play`, and a per-frame
    `step` that advances a timer, wraps or ends the frame sequence, and
    writes the current sheet frame into the entity's properties. */
module Animation {
  import opened Base
  import opened Evented

  /** One animation as registered with `addAnimationData`; None where the key
      is absent. `rate` and `nextPriority` are read through `||`, so a zero
      counts as absent; `next` and `trigger` are read by truthiness, so an
      empty name counts as absent. */
  datatype AnimData = AnimData(frames: seq<nat>, rate: Option<real>, loop: Option<bool>,
                               next: Option<string>, nextPriority: Option<int>,
                               trigger: Option<string>, triggerData: Payload,
                               sheetName: Option<string>)

  /** `engine._animations`: sprite-set name to animation name to data. */
  type AnimTable = map<string, map<string, AnimData>>

  /** The entity properties the component reads and writes. `animationName`
      is None for null; `animSetName`, `rate`, `sheetName` and `frame` are
      None while undefined. */
  datatype AnimProps = AnimProps(animationName: Option<string>, animationPriority: int,
                                 animationFrame: int, animationTime: real, animationChanged: bool,
                                 animSetName: Option<string>, rate: Option<real>,
                                 sheetName: Option<string>, frame: Option<nat>)

  /** What a call leaves behind: the properties, the events triggered on the
      entity in order, and the entity's listener tables. */
  datatype AnimOut = AnimOut(p: AnimProps, effects: seq<Effect>, w: World)

  // ---------------------------------------------------------------------
  // Animation data

  /** `addAnimationData(spriteName, animations)`: the set's table is created
      when missing and extended, later keys overriding earlier ones. */
  function AddAnimationData(t: AnimTable, sprite: string, anims: map<string, AnimData>): (r: AnimTable)
    ensures r.Keys == t.Keys + {sprite}
    ensures forall s :: s in t && s != sprite ==> r[s] == t[s]
    ensures r[sprite].Keys == anims.Keys + (if sprite in t then t[sprite].Keys else {})
    ensures forall n :: n in anims ==> r[sprite][n] == anims[n]
    ensures forall n :: n !in anims && sprite in t && n in t[sprite] ==> r[sprite][n] == t[sprite][n]
  {
    var prev := if sprite in t then t[sprite] else map[];
    t[sprite := prev + anims]
  }

  /** The property key an undefined set name turns into. */
  function SetKey(sprite: Option<string>): string
  {
    sprite.GetOr("undefined")
  }

  /** `getAnimationData(spriteName, animName)`. */
  function GetAnimationData(t: AnimTable, sprite: Option<string>, name: string): (r: Option<AnimData>)
    ensures r.Some? <==> SetKey(sprite) in t && name in t[SetKey(sprite)]
    ensures r.Some? ==> r.value == t[SetKey(sprite)][name]
  {
    var k := SetKey(sprite);
    if k in t && name in t[k] then Some(t[k][name]) else None
  }

  /** Registering animations makes exactly those retrievable under the set's
      name and leaves every other lookup as it was. */
  lemma AddThenGet(t: AnimTable, sprite: string, anims: map<string, AnimData>, s: Option<string>, n: string)
    ensures var g := GetAnimationData(AddAnimationData(t, sprite, anims), s, n);
            if SetKey(s) == sprite && n in anims then g == Some(anims[n])
            else g == GetAnimationData(t, s, n)
  {
  }

  // ---------------------------------------------------------------------
  // added / play

  /** `added()`: the component's defaults are merged over the entity's
      properties (nothing playing, priority -1, frame 0, time 0), and the
      component listens to the entity's `step` with its `step` method. */
  function Added(p: AnimProps, w: World, entity: ObjId, comp: ObjId, methods: Methods): (r: (AnimProps, World))
    ensures r.0 == p.(animationName := None, animationPriority := -1, animationFrame := 0,
                      animationTime := 0.0, animationChanged := false)
    ensures ListenersOf(r.1, entity, "step") ==
              ListenersOf(w, entity, "step") + [Listener(comp, methods(comp, "step"))]
    ensures BindsOf(r.1, comp) == BindsOf(w, comp) + [BindRec(entity, "step", methods(comp, "step"))]
  {
    var b := BindEvent(w, entity, "step", Some(comp), Named("step"), methods);
    var l0 := ListenersOf(w, entity, "step");
    assert ListenersOf(b.value, entity, "step") == l0 + [Listener(comp, methods(comp, "step"))] by {
      assert ListenersOf(b.value, entity, "step")[..|l0|] == l0;
    }
    (p.(animationName := None, animationPriority := -1, animationFrame := 0,
        animationTime := 0.0, animationChanged := false), b.value)
  }

  /** Whether `play(name, priority)` takes effect: the name differs from the
      one playing and the priority (a missing one is 0) is not below the
      current priority. */
  predicate Plays(p: AnimProps, name: string, priority: Option<int>)
  {
    Some(name) != p.animationName && priority.GetOr(0) >= p.animationPriority
  }

  /** `play(animName, priority)`: when it takes effect the animation restarts
      from frame 0 with the changed flag set, and `anim` then `anim.<name>`
      are triggered; otherwise nothing happens. */
  function Play(p: AnimProps, name: string, priority: Option<int>, entity: ObjId): (r: (AnimProps, seq<Effect>))
    ensures Plays(p, name, priority) ==>
              r.0 == p.(animationName := Some(name), animationChanged := true, animationTime := 0.0,
                        animationFrame := 0, animationPriority := priority.GetOr(0)) &&
              r.1 == [Emit(entity, "anim", NoData), Emit(entity, "anim." + name, NoData)]
    ensures !Plays(p, name, priority) ==> r == (p, [])
  {
    if Plays(p, name, priority) then
      var p1 := p.(animationName := Some(name), animationChanged := true, animationTime := 0.0,
                   animationFrame := 0, animationPriority := priority.GetOr(0));
      (p1, [Emit(entity, "anim", NoData), Emit(entity, "anim." + name, NoData)])
    else (p, [])
  }

  /** Asking again for the animation that is playing is ignored, whatever the priority. */
  lemma PlaySameIgnored(p: AnimProps, name: string, priority: Option<int>, again: Option<int>, entity: ObjId)
    requires Plays(p, name, priority)
    ensures var q := Play(p, name, priority, entity).0;
            Play(q, name, again, entity) == (q, [])
  {
  }

  /** A lower-priority request never interrupts the playing animation, and
      one of equal or higher priority for another name always does. */
  lemma PriorityGate(p: AnimProps, name: string, priority: Option<int>, entity: ObjId)
    requires p.animationName.Some? && name != p.animationName.value
    ensures Play(p, name, priority, entity).0.animationName == Some(name) <==>
            priority.GetOr(0) >= p.animationPriority
  {
  }

  // ---------------------------------------------------------------------
  // step

  /** `!p.animationName`: null or the empty name. */
  predicate Playing(p: AnimProps)
  {
    p.animationName.Some? && p.animationName.value != ""
  }

  /** `animData.rate || p.rate`: a zero rate in the data falls back to the entity's. */
  function RateOf(d: AnimData, p: AnimProps): Option<real>
  {
    if d.rate.Some? && d.rate.value != 0.0 then d.rate else p.rate
  }

  /** Data the step can handle: at least one frame, and a positive rate
      whenever one is in force. */
  predicate Usable(d: AnimData, p: AnimProps)
  {
    |d.frames| > 0 && (RateOf(d, p).Some? ==> RateOf(d, p).value > 0.0)
  }

  /** The timer part of a step: the first step after `play` only clears the
      changed flag; later ones add `dt` and, once the time passes the rate,
      move on by as many whole frames as fit and keep the remainder. Returns
      the properties and the number of frames stepped. An undefined rate
      never compares greater, so the time only accumulates. */
  function Advance(p: AnimProps, dt: real, rate: Option<real>): (r: (AnimProps, nat))
    requires rate.Some? ==> rate.value > 0.0
    ensures p.animationChanged ==> r == (p.(animationChanged := false), 0)
    ensures !p.animationChanged ==>
              && r.0 == p.(animationTime := r.0.animationTime, animationFrame := r.0.animationFrame)
              && r.0.animationFrame == p.animationFrame + r.1
              && r.0.animationTime + r.1 as real * rate.GetOr(0.0) == p.animationTime + dt
    ensures r.1 > 0 <==> !p.animationChanged && rate.Some? && p.animationTime + dt > rate.value
  {
    if p.animationChanged then (p.(animationChanged := false), 0)
    else
      var t := p.animationTime + dt;
      if rate.Some? && t > rate.value then
        var k := (t / rate.value).Floor;
        FloorAtLeastOne(t, rate.value);
        (p.(animationTime := t - k as real * rate.value, animationFrame := p.animationFrame + k), k)
      else (p.(animationTime := t), 0)
  }

  lemma FloorAtLeastOne(t: real, rate: real)
    requires rate > 0.0 && t > rate
    ensures (t / rate).Floor >= 1
  {
    MulStrict(1.0, t / rate, rate);
  }

  /** Scaling by a positive factor keeps a strict order, and conversely. */
  lemma MulStrict(a: real, b: real, c: real)
    requires c > 0.0
    ensures a < b <==> a * c < b * c
  {
  }

  /** What is left of the timer after whole frames are taken out lies in [0, rate). */
  lemma RemainderBound(t: real, rate: real)
    requires rate > 0.0 && t > rate
    ensures var k := (t / rate).Floor;
            0.0 <= t - k as real * rate < rate
  {
    var q := t / rate;
    var k := q.Floor;
    assert q * rate == t;
    MulStrict(q, k as real, rate);
    MulStrict(q, k as real + 1.0, rate);
  }

  /** The timer stays within [0, rate] from one step to the next, for a
      non-negative `dt` and a fixed rate. */
  lemma {:induction false} AdvanceKeepsTimeBound(p: AnimProps, dt: real, rate: real)
    requires rate > 0.0 && dt >= 0.0
    requires 0.0 <= p.animationTime <= rate
    ensures var a := Advance(p, dt, Some(rate)).0;
            0.0 <= a.animationTime <= rate
  {
    var t := p.animationTime + dt;
    if !p.animationChanged && t > rate {
      RemainderBound(t, rate);
    }
  }

  /** The `animEnd` branch: clamp to the last frame, trigger `animEnd` and
      `animEnd.<name>`, forget the animation, trigger the data's own event
      when it names one, and play `next` when there is one. The sheet frame
      is not rewritten. */
  function EndAnimation(p: AnimProps, d: AnimData, name: string, entity: ObjId): (r: (AnimProps, seq<Effect>))
    requires |d.frames| > 0
  {
    var p1 := p.(animationFrame := |d.frames| - 1, animationName := None, animationPriority := -1);
    var ends := [Emit(entity, "animEnd", NoData), Emit(entity, "animEnd." + name, NoData)];
    var trig := if d.trigger.Some? && d.trigger.value != "" then [Emit(entity, d.trigger.value, d.triggerData)] else [];
    if d.next.Some? && d.next.value != "" then
      var n := Play(p1, d.next.value, d.nextPriority, entity);
      (n.0, ends + trig + n.1)
    else (p1, ends + trig)
  }

  /** Whether the data ends rather than loops: `loop === false || next`. */
  predicate Ends(d: AnimData)
  {
    d.loop == Some(false) || (d.next.Some? && d.next.value != "")
  }

  /** The sheet update at the end of a step: the data's sheet name wins when
      given, and the sheet frame is the data's frame at the current index
      (undefined off the end). */
  function ShowFrame(p: AnimProps, d: AnimData): (r: AnimProps)
    ensures r.animationName == p.animationName && r.animationFrame == p.animationFrame
    ensures 0 <= p.animationFrame < |d.frames| ==> r.frame == Some(d.frames[p.animationFrame])
  {
    p.(sheetName := if d.sheetName.Some? && d.sheetName.value != "" then d.sheetName else p.sheetName,
       frame := if 0 <= p.animationFrame < |d.frames| then Some(d.frames[p.animationFrame]) else None)
  }

  /** `step(dt)` of the component on `entity`, reading the animation table
      `t`; `comp` is the component and `methods` resolves its `step` method. */
  function Step(p: AnimProps, dt: real, t: AnimTable, w: World, entity: ObjId, comp: ObjId, methods: Methods): (r: AnimOut)
    requires Playing(p) && GetAnimationData(t, p.animSetName, p.animationName.value).Some? ==>
               Usable(GetAnimationData(t, p.animSetName, p.animationName.value).value, p)
    ensures !Playing(p) ==> r == AnimOut(p, [], w)
    ensures Playing(p) && GetAnimationData(t, p.animSetName, p.animationName.value).None? ==>
              && r.p == p
              && r.effects == [Logged("Cannot find animation: " + p.animationName.value +
                                      " under animSetName name: " + SetKey(p.animSetName))]
              && r.w == UnbindEvent(w, entity, "step", comp, Some(Named("step")), methods)
    ensures Playing(p) && GetAnimationData(t, p.animSetName, p.animationName.value).Some? ==> r.w == w
  {
    if !Playing(p) then AnimOut(p, [], w)
    else
      var name := p.animationName.value;
      match GetAnimationData(t, p.animSetName, name)
      case None =>
        AnimOut(p, [Logged("Cannot find animation: " + name + " under animSetName name: " + SetKey(p.animSetName))],
                UnbindEvent(w, entity, "step", comp, Some(Named("step")), methods))
      case Some(d) =>
        var a := Advance(p, dt, RateOf(d, p));
        var p1 := a.0;
        if a.1 > 0 && p1.animationFrame >= |d.frames| then
          if Ends(d) then
            var e := EndAnimation(p1, d, name, entity);
            AnimOut(e.0, e.1, w)
          else
            var p2 := p1.(animationFrame := p1.animationFrame % |d.frames|);
            AnimOut(ShowFrame(p2, d),
                    [Emit(entity, "animLoop", NoData), Emit(entity, "animLoop." + name, NoData),
                     Emit(entity, "animFrame", NoData)], w)
        else
          AnimOut(ShowFrame(p1, d), if a.1 > 0 then [Emit(entity, "animFrame", NoData)] else [], w)
  }

  /** A missing animation takes the component's `step` listener off the
      entity: after `added`, a step that finds no data leaves no such listener. */
  lemma MissingDataUnbinds(p: AnimProps, dt: real, t: AnimTable, w: World, entity: ObjId, comp: ObjId, methods: Methods)
    requires methods(comp, "step").Fn?
    requires Playing(p) && GetAnimationData(t, p.animSetName, p.animationName.value).None?
    ensures var r := Step(p, dt, t, w, entity, comp, methods);
            Listener(comp, methods(comp, "step")) !in ListenersOf(r.w, entity, "step")
  {
  }

  /** The frame index of a playing animation stays a valid index into its
      frames. */
  predicate InRange(p: AnimProps, t: AnimTable)
  {
    Playing(p) && GetAnimationData(t, p.animSetName, p.animationName.value).Some? ==>
      0 <= p.animationFrame < |GetAnimationData(t, p.animSetName, p.animationName.value).value.frames|
  }

  /** Every registered animation has frames and only positive rates. */
  predicate TableUsable(t: AnimTable, p: AnimProps)
  {
    forall s, n :: s in t && n in t[s] ==> Usable(t[s][n], p)
  }

  /** Starting an animation keeps the frame index valid. */
  lemma PlayKeepsInRange(p: AnimProps, name: string, priority: Option<int>, entity: ObjId, t: AnimTable)
    requires InRange(p, t) && TableUsable(t, p)
    ensures InRange(Play(p, name, priority, entity).0, t)
  {
  }

  /** A step keeps the frame index valid: a loop wraps it with `%`, an end
      clamps it and then stops or starts the next animation at frame 0. When
      the same animation goes on playing, the sheet frame shown is the data's
      frame at that index. */
  lemma StepKeepsInRange(p: AnimProps, dt: real, t: AnimTable, w: World, entity: ObjId, comp: ObjId, methods: Methods)
    requires InRange(p, t) && TableUsable(t, p)
    ensures var r := Step(p, dt, t, w, entity, comp, methods);
            InRange(r.p, t)
    ensures var r := Step(p, dt, t, w, entity, comp, methods);
            var d := GetAnimationData(t, r.p.animSetName, r.p.animationName.GetOr(""));
            Playing(p) && r.p.animationName == p.animationName && !r.p.animationChanged && d.Some? ==>
              r.p.frame == Some(d.value.frames[r.p.animationFrame])
  {
    if Playing(p) {
      var name := p.animationName.value;
      var g := GetAnimationData(t, p.animSetName, name);
      if g.Some? {
        var d := g.value;
        assert Usable(d, p);
        var a := Advance(p, dt, RateOf(d, p));
        if a.1 > 0 && a.0.animationFrame >= |d.frames| && Ends(d) {
          var p1 := a.0.(animationFrame := |d.frames| - 1, animationName := None, animationPriority := -1);
          assert InRange(p1, t);
          assert TableUsable(t, p1);
          if d.next.Some? && d.next.value != "" {
            PlayKeepsInRange(p1, d.next.value, d.nextPriority, entity, t);
          }
        }
      }
    }
  }

  /** The first step after a successful `play` consumes the changed flag and
      nothing else: time and frame stay 0, only the sheet frame is written,
      and no event fires. */
  lemma FirstStepAfterPlay(p: AnimProps, name: string, priority: Option<int>, dt: real, t: AnimTable,
                           w: World, entity: ObjId, comp: ObjId, methods: Methods)
    requires Plays(p, name, priority) && name != ""
    requires GetAnimationData(t, p.animSetName, name).Some?
    requires Usable(GetAnimationData(t, p.animSetName, name).value, p)
    ensures var q := Play(p, name, priority, entity).0;
            var r := Step(q, dt, t, w, entity, comp, methods);
            var d := GetAnimationData(t, p.animSetName, name).value;
            && r.effects == []
            && r.p.animationChanged == false
            && r.p.animationTime == 0.0 && r.p.animationFrame == 0
            && r.p.animationName == Some(name)
            && r.p.frame == Some(d.frames[0])
  {
  }

  /** A looping animation that runs past its last frame wraps back into
      range and triggers `animLoop`, `animLoop.<name>`, then `animFrame`. */
  lemma LoopWraps(p: AnimProps, dt: real, t: AnimTable, w: World, entity: ObjId, comp: ObjId, methods: Methods)
    requires Playing(p) && !p.animationChanged
    requires GetAnimationData(t, p.animSetName, p.animationName.value).Some?
    requires var d := GetAnimationData(t, p.animSetName, p.animationName.value).value;
             Usable(d, p) && !Ends(d) && RateOf(d, p).Some? &&
             p.animationTime + dt > RateOf(d, p).value &&
             p.animationFrame + Advance(p, dt, RateOf(d, p)).1 >= |d.frames|
    ensures var r := Step(p, dt, t, w, entity, comp, methods);
            var d := GetAnimationData(t, p.animSetName, p.animationName.value).value;
            var name := p.animationName.value;
            && r.p.animationName == p.animationName
            && 0 <= r.p.animationFrame < |d.frames|
            && r.p.animationFrame == (p.animationFrame + Advance(p, dt, RateOf(d, p)).1) % |d.frames|
            && r.effects == [Emit(entity, "animLoop", NoData), Emit(entity, "animLoop." + name, NoData),
                             Emit(entity, "animFrame", NoData)]
  {
  }

  /** An animation that does not loop, or that chains into `next`, ends on
      its last frame: `animEnd` and `animEnd.<name>` fire first, then the
      data's own trigger, then the chained animation starts (the priority
      having dropped to -1, any `nextPriority` from -1 up is accepted). */
  lemma EndThenChain(p: AnimProps, dt: real, t: AnimTable, w: World, entity: ObjId, comp: ObjId, methods: Methods)
    requires Playing(p)
    requires GetAnimationData(t, p.animSetName, p.animationName.value).Some?
    requires var d := GetAnimationData(t, p.animSetName, p.animationName.value).value;
             Usable(d, p) && Ends(d) && Advance(p, dt, RateOf(d, p)).1 > 0 &&
             Advance(p, dt, RateOf(d, p)).0.animationFrame >= |d.frames|
    ensures var r := Step(p, dt, t, w, entity, comp, methods);
            var d := GetAnimationData(t, p.animSetName, p.animationName.value).value;
            var name := p.animationName.value;
            var trig := if d.trigger.Some? && d.trigger.value != "" then [Emit(entity, d.trigger.value, d.triggerData)] else [];
            && r.effects[..2 + |trig|] == [Emit(entity, "animEnd", NoData), Emit(entity, "animEnd." + name, NoData)] + trig
            && r.p.frame == p.frame && r.p.sheetName == p.sheetName
            && (d.next.Some? && d.next.value != "" && d.nextPriority.GetOr(0) >= -1 ==>
                  r.p.animationName == Some(d.next.value) && r.p.animationFrame == 0 && r.p.animationChanged &&
                  r.effects[2 + |trig|..] == [Emit(entity, "anim", NoData), Emit(entity, "anim." + d.next.value, NoData)])
            && (!(d.next.Some? && d.next.value != "") ==>
                  r.p.animationName == None && r.p.animationPriority == -1 &&
                  r.p.animationFrame == |d.frames| - 1 && |r.effects| == 2 + |trig|)
  {
  }
}

=== FILE: assets.dfy ===
/** Asset bookkeeping (js_engine/assets.js): classifying files by extension,
    stripping extensions, normalising the list given to `load`, and the
    counters that report progress and completion as loads come back. The
    loaders themselves (images, audio, AJAX) are outside the model: each
    started load ends, later, in a success or an error event. */
module Assets {
  import opened Base

  /** A loaded asset as stored in `engine.assets`: an image with its pixel
      size, an audio element, parsed data, or the `null` the audio loader
      stores when sound is unsupported. */
  datatype AssetObj = Image(width: real, height: real) | Sound(id: nat) | Data(id: nat) | NullObj

  predicate Truthy(o: AssetObj)
  {
    !o.NullObj?
  }

  // ---------------------------------------------------------------------
  // assetType / _removeExtension

  /** The text after the last `.` (the whole name when it has none), as
      `_(name.split(".")).last()` gives it. */
  function LastSegment(s: string): (r: string)
    ensures '.' !in r
    ensures |r| <= |s| && r == s[|s| - |r|..]
    ensures |r| < |s| ==> s[|s| - |r| - 1] == '.'
  {
    if s == [] then []
    else if s[|s| - 1] == '.' then []
    else
      var r0 := LastSegment(s[..|s| - 1]);
      assert s[..|s| - 1][|s| - 1 - |r0|..] == s[|s| - 1 - |r0|..|s| - 1];
      r0 + [s[|s| - 1]]
  }

  /** What follows the last dot is exactly the extension written after it. */
  lemma {:induction false} LastSegmentAfterDot(base: string, ext: string)
    requires '.' !in ext
    ensures LastSegment(base + "." + ext) == ext
    decreases |ext|
  {
    var s := base + "." + ext;
    if ext == [] {
    } else {
      var e0 := ext[..|ext| - 1];
      assert s[..|s| - 1] == base + "." + e0;
      assert '.' !in e0 by {
        assert forall i :: 0 <= i < |e0| ==> e0[i] == ext[i];
      }
      LastSegmentAfterDot(base, e0);
      assert e0 + [ext[|ext| - 1]] == ext;
    }
  }

  function LowerChar(c: char): char
  {
    if 'A' <= c <= 'Z' then (c as int + 32) as char else c
  }

  /** `toLowerCase` on ASCII letters. */
  function Lower(s: string): (r: string)
    ensures |r| == |s| && forall i :: 0 <= i < |s| ==> r[i] == LowerChar(s[i])
  {
    seq(|s|, i requires 0 <= i < |s| => LowerChar(s[i]))
  }

  /** `Engine.assetTypes`, as shipped. */
  const DefaultTypes: map<string, string> :=
    map["png" := "Image", "jpg" := "Image", "gif" := "Image", "jpeg" := "Image",
        "ogg" := "Audio", "wav" := "Audio", "m4a" := "Audio", "mp3" := "Audio"]

  /** `Engine.assetType(name)` against the type table `types`. */
  function AssetType(name: string, types: map<string, string>): (r: string)
    ensures var ext := Lower(LastSegment(name));
            if ext in types && types[ext] != "" then r == types[ext] else r == "Other"
  {
    var ext := Lower(LastSegment(name));
    if ext in types && types[ext] != "" then types[ext] else "Other"
  }

  /** A file's type is decided by its last extension alone, in any letter
      case; unknown extensions are "Other". */
  lemma AssetTypeOfFile(base: string, ext: string, types: map<string, string>)
    requires '.' !in ext
    ensures AssetType(base + "." + ext, types) ==
              if Lower(ext) in types && types[Lower(ext)] != "" then types[Lower(ext)] else "Other"
  {
    LastSegmentAfterDot(base, ext);
  }

  predicate WordChar(c: char)
  {
    'a' <= c <= 'z' || 'A' <= c <= 'Z' || '0' <= c <= '9' || c == '_'
  }

  /** `/\.(\w{3,4})$/` matches at position `i` of `f`. */
  predicate ExtAt(f: string, i: int)
  {
    0 <= i < |f| && (|f| - i == 4 || |f| - i == 5) && f[i] == '.' &&
    forall j :: i < j < |f| ==> WordChar(f[j])
  }

  /** `Engine._removeExtension(filename)`: the leftmost match of the pattern
      is replaced by nothing. */
  function RemoveExtension(f: string): (r: string)
    ensures (exists i :: ExtAt(f, i)) ==> ExtAt(f, |r|) && r == f[..|r|]
    ensures (forall i :: !ExtAt(f, i)) ==> r == f
  {
    if ExtAt(f, |f| - 5) then f[..|f| - 5]
    else if ExtAt(f, |f| - 4) then f[..|f| - 4]
    else
      assert forall i :: !ExtAt(f, i);
      f
  }

  /** A three- or four-character word extension is stripped back to the base name. */
  lemma StripsExtension(base: string, ext: string)
    requires 3 <= |ext| <= 4 && forall j :: 0 <= j < |ext| ==> WordChar(ext[j])
    ensures RemoveExtension(base + "." + ext) == base
  {
    var f := base + "." + ext;
    assert f[|base|] == '.';
    assert forall j :: |base| < j < |f| ==> f[j] == ext[j - |base| - 1];
    assert ExtAt(f, |base|);
    if |ext| == 3 {
      assert !ExtAt(f, |f| - 5) by {
        if |f| >= 5 {
          assert f[|f| - 4] == '.';
        }
      }
    }
    assert f[..|base|] == base;
  }

  /** Names whose tail is not a dot and three or four word characters are kept. */
  lemma KeepsOtherNames(f: string)
    requires forall i :: !ExtAt(f, i)
    ensures RemoveExtension(f) == f
  {
  }

  // ---------------------------------------------------------------------
  // getAsset

  /** `getAsset(name)`: undefined (after logging) while no asset table exists. */
  function GetAsset(store: Option<map<string, AssetObj>>, name: string): (r: (Option<AssetObj>, seq<Effect>))
    ensures store.None? ==> r.0.None? && |r.1| == 1
    ensures store.Some? ==> r.1 == [] && (r.0.Some? <==> name in store.value)
    ensures store.Some? && name in store.value ==> r.0 == Some(store.value[name])
  {
    if store.None? then (None, [Logged("No Assets loaded! Error looking for asset name " + name)])
    else if name in store.value then (Some(store.value[name]), [])
    else (None, [])
  }

  // ---------------------------------------------------------------------
  // Normalising the list given to `load`

  /** A plain object as an ordered list of (key, value) pairs, in insertion order. */
  type Entries = seq<(string, string)>

  function Keys(e: Entries): set<string>
  {
    set p | p in e :: p.0
  }

  predicate DistinctKeys(e: Entries)
  {
    forall i, j :: 0 <= i < j < |e| ==> e[i].0 != e[j].0
  }

  /** Position of the entry for `k`, when there is one. */
  function KeyIndex(e: Entries, k: string): (r: Option<nat>)
    ensures r.None? <==> k !in Keys(e)
    ensures r.Some? ==> r.value < |e| && e[r.value].0 == k
  {
    if e == [] then None
    else if e[0].0 == k then Some(0)
    else
      assert Keys(e) == {e[0].0} + Keys(e[1..]) by {
        assert e == [e[0]] + e[1..];
      }
      var i := KeyIndex(e[1..], k);
      if i.None? then None else Some(i.value + 1)
  }

  /** `obj[k] = v`: an existing key keeps its place, a new one goes last. */
  function Put(e: Entries, k: string, v: string): (r: Entries)
    ensures Keys(r) == Keys(e) + {k}
    ensures DistinctKeys(e) ==> DistinctKeys(r)
    ensures k !in Keys(e) ==> r == e + [(k, v)]
    ensures k in Keys(e) ==> |r| == |e| && (k, v) in r
    ensures forall p :: p in r ==> p in e || p == (k, v)
  {
    match KeyIndex(e, k)
    case None =>
      assert Keys(e + [(k, v)]) == Keys(e) + {k} by {
        assert forall p :: p in e + [(k, v)] <==> p in e || p == (k, v);
      }
      e + [(k, v)]
    case Some(i) =>
      var r := e[i := (k, v)];
      assert Keys(r) == Keys(e) by {
        forall p | p in e
          ensures p.0 in Keys(r)
        {
          var j :| 0 <= j < |e| && e[j] == p;
          assert r[j].0 == p.0;
        }
      }
      assert r[i] == (k, v);
      r
  }

  /** `_.extend(obj, src)`: each pair of `src` in turn. */
  function Extend(e: Entries, src: Entries): (r: Entries)
    ensures Keys(r) == Keys(e) + Keys(src)
    ensures DistinctKeys(e) ==> DistinctKeys(r)
    decreases |src|
  {
    if src == [] then e
    else
      assert Keys(src) == {src[0].0} + Keys(src[1..]) by {
        assert src == [src[0]] + src[1..];
      }
      Extend(Put(e, src[0].0, src[0].1), src[1..])
  }

  /** One element of an asset list: a file name, or an object of key -> file. */
  datatype ListItem = Name(name: string) | Group(entries: Entries)

  /** What `load` accepts: an array, a single name, or an object used as given. */
  datatype AssetList = Items(items: seq<ListItem>) | Single(name: string) | Given(entries: Entries)

  function NormItems(acc: Entries, items: seq<ListItem>): (r: Entries)
    ensures DistinctKeys(acc) ==> DistinctKeys(r)
    decreases |items|
  {
    if items == [] then acc
    else
      match items[0]
      case Name(n) => NormItems(Put(acc, n, n), items[1..])
      case Group(g) => NormItems(Extend(acc, g), items[1..])
  }

  /** The keys an asset list contributes: its names and its objects' keys. */
  function ItemKeys(items: seq<ListItem>): set<string>
    decreases |items|
  {
    if items == [] then {}
    else (match items[0] case Name(n) => {n} case Group(g) => Keys(g)) + ItemKeys(items[1..])
  }

  lemma {:induction false} NormItemsKeys(acc: Entries, items: seq<ListItem>)
    ensures Keys(NormItems(acc, items)) == Keys(acc) + ItemKeys(items)
    decreases |items|
  {
    if items != [] {
      match items[0]
      case Name(n) => NormItemsKeys(Put(acc, n, n), items[1..]);
      case Group(g) => NormItemsKeys(Extend(acc, g), items[1..]);
    }
  }

  /** The `assetObj` built by `load`: an array becomes name -> name with
      objects merged in, a string a single entry, and an object stays as it is. */
  function Normalize(list: AssetList): (r: Entries)
    ensures DistinctKeys(r)
    ensures list.Single? ==> r == [(list.name, list.name)]
  {
    match list
    case Items(items) => NormItems([], items)
    case Single(n) => [(n, n)]
    case Given(e) => Extend([], e)
  }

  /** The keys to load are exactly the names and object keys listed, each
      once; a bare name is loaded from itself unless a later object reuses it. */
  lemma NormalizeKeys(items: seq<ListItem>)
    ensures Keys(Normalize(Items(items))) == ItemKeys(items)
  {
    NormItemsKeys([], items);
  }

  /** Every entry an array of plain names produces loads a file under its own name. */
  lemma {:induction false} NamesMapToThemselves(acc: Entries, items: seq<ListItem>)
    requires forall p :: p in acc ==> p.0 == p.1
    requires forall i :: 0 <= i < |items| ==> items[i].Name?
    ensures forall p :: p in NormItems(acc, items) ==> p.0 == p.1
    decreases |items|
  {
    if items != [] {
      var n := items[0].name;
      NamesMapToThemselves(Put(acc, n, n), items[1..]);
    }
  }

  /** An object with distinct keys is used as given. */
  lemma {:induction false} ExtendFresh(e: Entries, src: Entries)
    requires DistinctKeys(e + src)
    ensures Extend(e, src) == e + src
    decreases |src|
  {
    if src != [] {
      assert src[0].0 !in Keys(e) by {
        forall p | p in e
          ensures p.0 != src[0].0
        {
          var i :| 0 <= i < |e| && e[i] == p;
          assert (e + src)[i] == p && (e + src)[|e|] == src[0];
        }
      }
      assert e + src == (e + [src[0]]) + src[1..];
      ExtendFresh(e + [src[0]], src[1..]);
    }
  }

  lemma GivenAsIs(e: Entries)
    requires DistinctKeys(e)
    ensures Normalize(Given(e)) == e
  {
    assert [] + e == e;
    ExtendFresh([], e);
  }

  // ---------------------------------------------------------------------
  // Progress bookkeeping

  /** What `load` reports: `onProgressCallback(done, total)`, the finished
      callback, and the error callback (or the default alert) for a file. */
  datatype Note = Progress(done: int, total: nat) | Finished | ErrorReported(item: string)

  /** Which optional callbacks the caller passed. */
  datatype LoadCfg = LoadCfg(hasProgress: bool, hasFinished: bool)

  /** The closure state of one `load` call and the engine's asset table. */
  datatype LoadState = LoadState(assets: map<string, AssetObj>, total: nat, remaining: int,
                                 errors: bool, notes: seq<Note>)

  /** A load that was started, by key, file name and loader type. */
  datatype Pending = Pending(key: string, item: string, kind: string)

  /** A loader coming back: success for a key with its object, or an error for a file. */
  datatype LoadEvent = Done(key: string, obj: AssetObj) | Failed(item: string)

  /** `assetLoadedCallback(key, obj)`. */
  function AssetLoaded(st: LoadState, cfg: LoadCfg, key: string, obj: AssetObj): (r: LoadState)
    ensures st.errors ==> r == st
    ensures !st.errors ==>
              && r.assets == st.assets[key := obj] && r.remaining == st.remaining - 1
              && r.total == st.total && !r.errors
              && r.notes == st.notes + (if cfg.hasProgress then [Progress(st.total - r.remaining, st.total)] else [])
                                     + (if r.remaining == 0 && cfg.hasFinished then [Finished] else [])
  {
    if st.errors then st
    else
      var rem := st.remaining - 1;
      var n1 := if cfg.hasProgress then [Progress(st.total - rem, st.total)] else [];
      var n2 := if rem == 0 && cfg.hasFinished then [Finished] else [];
      st.(assets := st.assets[key := obj], remaining := rem, notes := st.notes + n1 + n2)
  }

  /** `errorCallback(itemName)`: every later success is ignored. */
  function AssetFailed(st: LoadState, item: string): (r: LoadState)
    ensures r.errors && r.notes == st.notes + [ErrorReported(item)]
    ensures r.assets == st.assets && r.remaining == st.remaining
  {
    st.(errors := true, notes := st.notes + [ErrorReported(item)])
  }

  function Deliver(st: LoadState, cfg: LoadCfg, ev: LoadEvent): LoadState
  {
    match ev
    case Done(k, o) => AssetLoaded(st, cfg, k, o)
    case Failed(i) => AssetFailed(st, i)
  }

  /** Loader events delivered in order. */
  function Run(st: LoadState, cfg: LoadCfg, evs: seq<LoadEvent>): (r: LoadState)
    ensures r.total == st.total
    decreases |evs|
  {
    if evs == [] then st else Run(Deliver(st, cfg, evs[0]), cfg, evs[1..])
  }

  /** `engine.assets[key]` is truthy. */
  predicate Loaded(assets: map<string, AssetObj>, key: string)
  {
    key in assets && Truthy(assets[key])
  }

  /** The entries a pass over `e` should start, in list order: those whose
      key does not already hold a truthy asset. */
  function Unloaded(assets: map<string, AssetObj>, e: Entries): (r: Entries)
    ensures |r| <= |e|
    decreases |e|
  {
    if e == [] then []
    else if Loaded(assets, e[0].0) then Unloaded(assets, e[1..])
    else [e[0]] + Unloaded(assets, e[1..])
  }

  /** `Engine.assetType` under a type table, as the function from file name
      to loader type that a pass uses. */
  function Kinds(types: map<string, string>): string -> string
  {
    name => AssetType(name, types)
  }

  /** The load started for an entry: its key, its file name and the loader
      `kind` selects for the file name. */
  function PendingOf(en: (string, string), kind: string -> string): Pending
  {
    Pending(en.0, en.1, kind(en.1))
  }

  /** One started load per entry, in order. */
  function Starts(en: Entries, kind: string -> string): (r: seq<Pending>)
    ensures |r| == |en|
    ensures forall i :: 0 <= i < |en| ==> r[i] == PendingOf(en[i], kind)
  {
    if en == [] then [] else [PendingOf(en[0], kind)] + Starts(en[1..], kind)
  }

  /** The pass of `load` over `assetObj`, with `kind` giving each file's
      loader type: an already-loaded (truthy) key is counted at once without
      reloading; any other starts its loader. */
  function Pass(st: LoadState, cfg: LoadCfg, e: Entries, kind: string -> string): (r: (LoadState, seq<Pending>))
    requires !st.errors
    ensures !r.0.errors && r.0.total == st.total && r.0.assets == st.assets
    ensures r.0.remaining == st.remaining - (|e| - |r.1|)
    ensures |r.1| <= |e|
    ensures r.1 == Starts(Unloaded(st.assets, e), kind)
    decreases |e|
  {
    if e == [] then (st, [])
    else
      var k := e[0].0;
      if k in st.assets && Truthy(st.assets[k]) then
        assert st.assets[k := st.assets[k]] == st.assets;
        Pass(AssetLoaded(st, cfg, k, st.assets[k]), cfg, e[1..], kind)
      else
        var r := Pass(st, cfg, e[1..], kind);
        (r.0, [Pending(k, e[0].1, kind(e[0].1))] + r.1)
  }

  /** `engine.load(assetList, onFinished, options)`, up to the point where
      every loader has been started. */
  function Load(store: Option<map<string, AssetObj>>, list: AssetList, cfg: LoadCfg,
                types: map<string, string>): (r: (LoadState, seq<Pending>))
    ensures r.0.total == |Normalize(list)| && !r.0.errors
    ensures r.0.remaining == |r.1|
    ensures r.1 == Starts(Unloaded(store.GetOr(map[]), Normalize(list)), Kinds(types))
  {
    var e := Normalize(list);
    Pass(LoadState(store.GetOr(map[]), |e|, |e|, false, []), cfg, e, Kinds(types))
  }

  function CountNote(ns: seq<Note>, n: Note): nat
  {
    multiset(ns)[n]
  }

  /** A load of an empty list reports nothing and starts nothing, so its
      finished callback never runs. */
  lemma EmptyListNeverFinishes(store: Option<map<string, AssetObj>>, cfg: LoadCfg, types: map<string, string>)
    ensures var r := Load(store, Items([]), cfg, types);
            r.0.notes == [] && r.1 == [] && r.0.remaining == 0
  {
  }

  /** Once an error has been reported, nothing else is stored or reported
      as progress or completion. */
  lemma {:induction false} SilentAfterError(st: LoadState, cfg: LoadCfg, evs: seq<LoadEvent>)
    requires st.errors
    ensures var r := Run(st, cfg, evs);
            r.assets == st.assets && r.remaining == st.remaining &&
            CountNote(r.notes, Finished) == CountNote(st.notes, Finished) &&
            forall d, t :: CountNote(r.notes, Progress(d, t)) == CountNote(st.notes, Progress(d, t))
    decreases |evs|
  {
    if evs != [] {
      var s1 := Deliver(st, cfg, evs[0]);
      assert s1.assets == st.assets && s1.remaining == st.remaining && s1.errors;
      assert CountNote(s1.notes, Finished) == CountNote(st.notes, Finished);
      assert forall d, t :: CountNote(s1.notes, Progress(d, t)) == CountNote(st.notes, Progress(d, t));
      SilentAfterError(s1, cfg, evs[1..]);
    }
  }

  /** The successes for a list of started loads. */
  predicate AllDone(evs: seq<LoadEvent>)
  {
    forall i :: 0 <= i < |evs| ==> evs[i].Done?
  }

  /** A success that leaves loads outstanding does not finish. */
  lemma DoneBeforeLast(st: LoadState, cfg: LoadCfg, ev: LoadEvent)
    requires !st.errors && ev.Done? && st.remaining > 1
    ensures var s1 := Deliver(st, cfg, ev);
            !s1.errors && s1.remaining == st.remaining - 1 &&
            CountNote(s1.notes, Finished) == CountNote(st.notes, Finished)
  {
  }

  /** The success of the last outstanding load finishes, once. */
  lemma DoneLast(st: LoadState, cfg: LoadCfg, ev: LoadEvent)
    requires !st.errors && ev.Done? && st.remaining == 1
    ensures var s1 := Deliver(st, cfg, ev);
            && s1.remaining == 0 && !s1.errors
            && CountNote(s1.notes, Finished) == CountNote(st.notes, Finished) + (if cfg.hasFinished then 1 else 0)
            && (cfg.hasFinished ==> s1.notes[|s1.notes| - 1] == Finished)
  {
  }

  /** When every outstanding load succeeds, the finished callback runs once,
      on the last success, and each success reports one more file done. */
  lemma {:induction false} FinishesOnce(st: LoadState, cfg: LoadCfg, evs: seq<LoadEvent>)
    requires !st.errors && st.remaining == |evs| && AllDone(evs) && |evs| > 0
    ensures var r := Run(st, cfg, evs);
            && r.remaining == 0 && !r.errors
            && CountNote(r.notes, Finished) == CountNote(st.notes, Finished) + (if cfg.hasFinished then 1 else 0)
            && (cfg.hasFinished ==> r.notes[|r.notes| - 1] == Finished)
    decreases |evs|
  {
    var s1 := Deliver(st, cfg, evs[0]);
    assert Run(st, cfg, evs) == Run(s1, cfg, evs[1..]);
    assert evs[0].Done?;
    if |evs| == 1 {
      DoneLast(st, cfg, evs[0]);
      assert Run(s1, cfg, evs[1..]) == s1;
    } else {
      DoneBeforeLast(st, cfg, evs[0]);
      assert AllDone(evs[1..]) by {
        assert forall i :: 0 <= i < |evs[1..]| ==> evs[1..][i] == evs[i + 1];
      }
      FinishesOnce(s1, cfg, evs[1..]);
    }
  }

  /** Each success reports the number of files done so far out of the total. */
  lemma ProgressCounts(st: LoadState, cfg: LoadCfg, key: string, obj: AssetObj)
    requires !st.errors && cfg.hasProgress && st.remaining == st.total - |st.notes|
    ensures var r := AssetLoaded(st, cfg, key, obj);
            r.notes[|st.notes|] == Progress(st.total - st.remaining + 1, st.total)
  {
  }

  /** The pass starts, in list order, a load for exactly the entries whose
      key does not already hold a truthy asset, each with the loader its file
      name selects. */
  lemma PassSkipsLoaded(st: LoadState, cfg: LoadCfg, e: Entries, kind: string -> string)
    requires !st.errors
    ensures Pass(st, cfg, e, kind).1 == Starts(Unloaded(st.assets, e), kind)
    ensures forall x :: x in Unloaded(st.assets, e) <==> x in e && !Loaded(st.assets, x.0)
  {
    UnloadedSound(st.assets, e);
    UnloadedComplete(st.assets, e);
  }

  /** Every entry left to start is listed, with a key holding no truthy asset. */
  lemma {:induction false} UnloadedSound(assets: map<string, AssetObj>, e: Entries)
    ensures forall x :: x in Unloaded(assets, e) ==> x in e && !Loaded(assets, x.0)
    decreases |e|
  {
    if e != [] {
      UnloadedSound(assets, e[1..]);
      assert forall x :: x in e[1..] ==> x in e;
    }
  }

  /** Every listed entry whose key holds no truthy asset is left to start. */
  lemma {:induction false} UnloadedComplete(assets: map<string, AssetObj>, e: Entries)
    ensures forall x :: x in e && !Loaded(assets, x.0) ==> x in Unloaded(assets, e)
    decreases |e|
  {
    if e != [] {
      UnloadedComplete(assets, e[1..]);
      assert forall x :: x in e ==> x == e[0] || x in e[1..];
    }
  }

  /** When nothing listed is loaded yet, the pass starts every entry, in list
      order, and counts none as done. */
  lemma {:induction false} PassStartsAllFresh(st: LoadState, cfg: LoadCfg, e: Entries, kind: string -> string)
    requires !st.errors
    requires forall i :: 0 <= i < |e| ==> !Loaded(st.assets, e[i].0)
    ensures var r := Pass(st, cfg, e, kind);
            r.1 == Starts(e, kind) && r.0.remaining == st.remaining
  {
    UnloadedNone(st.assets, e);
  }

  lemma {:induction false} UnloadedNone(assets: map<string, AssetObj>, e: Entries)
    requires forall i :: 0 <= i < |e| ==> !Loaded(assets, e[i].0)
    ensures Unloaded(assets, e) == e
    decreases |e|
  {
    if e != [] {
      assert forall i :: 0 <= i < |e[1..]| ==> e[1..][i] == e[i + 1];
      UnloadedNone(assets, e[1..]);
      assert e == [e[0]] + e[1..];
    }
  }

  // ---------------------------------------------------------------------
  // queueLoad / loadQueuedFiles

  /** What `concat` appends for each kind of argument. */
  function AsItems(list: AssetList): seq<ListItem>
  {
    match list
    case Items(items) => items
    case Single(n) => [Name(n)]
    case Given(e) => [Group(e)]
  }

  /** `queueLoad(assetList)`: the queue is created when missing and extended. */
  function QueueLoad(preloads: Option<seq<ListItem>>, list: AssetList): (r: Option<seq<ListItem>>)
    ensures r.Some? && |r.value| == |preloads.GetOr([])| + |AsItems(list)|
    ensures r.Some? && r.value[..|preloads.GetOr([])|] == preloads.GetOr([])
    ensures r.Some? && r.value[|preloads.GetOr([])|..] == AsItems(list)
  {
    var q := preloads.GetOr([]) + AsItems(list);
    assert q[..|preloads.GetOr([])|] == preloads.GetOr([]);
    Some(q)
  }

  /** `_.uniq`: first occurrences, in order. */
  function Uniq<T(==,!new)>(s: seq<T>): (r: seq<T>)
    ensures forall x :: x in r <==> x in s
    ensures forall i, j :: 0 <= i < j < |r| ==> r[i] != r[j]
    ensures Subsequence(r, s)
    ensures forall i, j :: 0 <= i < j < |r| ==> r[i] in s && r[j] in s && IndexOf(s, r[i]).value < IndexOf(s, r[j]).value
  {
    if s == [] then []
    else
      var init := s[..|s| - 1];
      var rest := Uniq(init);
      var last := s[|s| - 1];
      assert s == init + [last];
      UniqKeepsFirstOrder(init, last, rest);
      if last in rest then
        SubsequencePrefix(rest, init, last);
        rest
      else
        SubsequenceAppend(rest, init, last);
        rest + [last]
  }

  /** The inductive step of Uniq's order: the first occurrences in `init`
      keep their positions in `init + [last]`, and a new `last` comes after them all. */
  lemma UniqKeepsFirstOrder<T>(init: seq<T>, last: T, rest: seq<T>)
    requires forall x :: x in rest <==> x in init
    requires forall i, j :: 0 <= i < j < |rest| ==> rest[i] in init && rest[j] in init && IndexOf(init, rest[i]).value < IndexOf(init, rest[j]).value
    ensures forall i, j :: 0 <= i < j < |rest| ==> IndexOf(init + [last], rest[i]).value < IndexOf(init + [last], rest[j]).value
    ensures last !in rest ==>
              forall i, j :: 0 <= i < j < |rest + [last]| ==>
                IndexOf(init + [last], (rest + [last])[i]).value < IndexOf(init + [last], (rest + [last])[j]).value
  {
    forall x | x in init
      ensures IndexOf(init + [last], x) == IndexOf(init, x)
    {
      IndexOfSnoc(init, last, x);
    }
    if last !in rest {
      IndexOfSnoc(init, last, last);
      forall i, j | 0 <= i < j < |rest + [last]|
        ensures IndexOf(init + [last], (rest + [last])[i]).value < IndexOf(init + [last], (rest + [last])[j]).value
      {
        if j == |rest| {
          assert (rest + [last])[i] == rest[i];
        } else {
          assert (rest + [last])[i] == rest[i] && (rest + [last])[j] == rest[j];
        }
      }
    }
  }

  lemma {:induction false} SubsequencePrefix<T>(a: seq<T>, b: seq<T>, x: T)
    requires Subsequence(a, b)
    ensures Subsequence(a, b + [x])
    decreases |b|
  {
    if a != [] {
      assert (b + [x])[1..] == b[1..] + [x];
      if a[0] == b[0] {
        SubsequencePrefix(a[1..], b[1..], x);
      } else {
        SubsequencePrefix(a, b[1..], x);
      }
    }
  }

  lemma {:induction false} SubsequenceAppend<T>(a: seq<T>, b: seq<T>, x: T)
    requires Subsequence(a, b)
    ensures Subsequence(a + [x], b + [x])
    decreases |b|
  {
    if a == [] {
      assert a + [x] == [x];
      SubsequenceSuffix(b, x);
    } else {
      assert (a + [x])[1..] == a[1..] + [x];
      assert (b + [x])[1..] == b[1..] + [x];
      if a[0] == b[0] {
        SubsequenceAppend(a[1..], b[1..], x);
      } else {
        SubsequenceAppend(a, b[1..], x);
      }
    }
  }

  lemma {:induction false} SubsequenceSuffix<T>(b: seq<T>, x: T)
    ensures Subsequence([x], b + [x])
    decreases |b|
  {
    if b != [] {
      assert (b + [x])[1..] == b[1..] + [x];
      SubsequenceSuffix(b[1..], x);
      if b[0] == x {
        assert Subsequence([x][1..], (b + [x])[1..]);
      }
    }
  }

  /** `loadQueuedFiles(...)`: with a queue, its distinct items are loaded and
      the queue is emptied; without one nothing happens. */
  function LoadQueuedFiles(preloads: Option<seq<ListItem>>, store: Option<map<string, AssetObj>>, cfg: LoadCfg,
                           types: map<string, string>): (r: (Option<seq<ListItem>>, Option<(LoadState, seq<Pending>)>))
    ensures preloads.None? ==> r == (None, None)
    ensures preloads.Some? ==> r.0 == Some([]) && r.1 == Some(Load(store, Items(Uniq(preloads.value)), cfg, types))
  {
    if preloads.None? then (None, None)
    else (Some([]), Some(Load(store, Items(Uniq(preloads.value)), cfg, types)))
  }

  /** Queuing a name twice loads it once: the keys loaded are those queued. */
  lemma QueuedLoadedOnce(preloads: Option<seq<ListItem>>, list: AssetList, store: Option<map<string, AssetObj>>,
                         cfg: LoadCfg, types: map<string, string>)
    ensures var q := QueueLoad(preloads, list);
            var r := LoadQueuedFiles(q, store, cfg, types);
            r.0 == Some([]) &&
            Keys(Normalize(Items(Uniq(q.value)))) == ItemKeys(Uniq(preloads.GetOr([]) + AsItems(list)))
  {
    var q := QueueLoad(preloads, list);
    assert q.value == preloads.GetOr([]) + AsItems(list);
    NormalizeKeys(Uniq(q.value));
  }
}

=== FILE: base.dfy ===
/** Shared vocabulary of the runtime model: object identities, optional and
    failing results, event payloads, the ordered trace of observable effects,
    and a few sequence helpers used by several modules. */
module Base {

  /** Identity of any engine object: entity, stage, component, input system. */
  type ObjId = nat

  datatype Option<T> = None | Some(value: T) {
    function GetOr(default: T): T {
      match this
      case Some(v) => v
      case None => default
    }
  }

  /** The ways a call into the engine ends with a JavaScript exception. */
  datatype Fault =
    | UndefinedSlot(index: nat)          // a listener slot read past the live list
    | NotCallable(index: nat)            // a listener whose callback is not a function
    | NullTarget                         // property read on null / undefined
    | NoListenerTable                    // `this.listeners[event]` with no table yet
    | UndeclaredVariable(name: string)   // ReferenceError
    | NotAComponent(name: string)        // `this[name].destroy` is not a function
    | MissingAsset(name: string)         // `getAsset(name).width` on undefined
    | MissingSheet(name: string)         // `getSheet().draw` on undefined
    | MissingShapePoints                 // polygon shape without `shape_points`
    | NoFrameCallback                    // `requestAnimationFrame(undefined)`

  datatype Result<T> = Ok(value: T) | Err(fault: Fault)

  /** A callback value; `Undefined` is what a missing method name resolves to. */
  datatype Callback = Fn(id: nat) | Undefined

  /** What an event carries to its listeners. */
  datatype Payload =
    | NoData
    | Obj(id: ObjId)
    | Num(r: real)
    | KeyCode(code: int)
    | Point(x: real, y: real)
    | ContactRecord(entityA: Option<ObjId>, entityB: Option<ObjId>, impulse: Option<nat>, sprite: Option<ObjId>)
    | Opaque(tag: nat)
    | Prop(owner: ObjId, name: string)   // the value of property `name` of object `owner`

  /** Observable effects in the order the source performs them. Callbacks and
      hooks are not executed by the model; they are recorded here. */
  datatype Effect =
    | Emit(on: ObjId, event: string, payload: Payload)
    | Debind(obj: ObjId)
    | Hook(comp: ObjId, hook: string, payload: Payload)
    | StepEntity(ent: ObjId, dt: real)
    | DrawEntity(ent: ObjId)
    | QueueRemoval(stage: ObjId, ent: ObjId)
    | Logged(msg: string)

  /** The effects that are event emissions on object `o`, as (event, payload). */
  function EmitsOn(t: seq<Effect>, o: ObjId): seq<(string, Payload)>
  {
    if t == [] then []
    else (if t[0].Emit? && t[0].on == o then [(t[0].event, t[0].payload)] else []) + EmitsOn(t[1..], o)
  }

  lemma {:induction false} EmitsOnAppend(a: seq<Effect>, b: seq<Effect>, o: ObjId)
    ensures EmitsOn(a + b, o) == EmitsOn(a, o) + EmitsOn(b, o)
  {
    if a == [] {
      assert a + b == b;
    } else {
      assert (a + b)[0] == a[0];
      assert (a + b)[1..] == a[1..] + b;
      EmitsOnAppend(a[1..], b, o);
    }
  }

  /** Number of occurrences of `x` in `s`. */
  function Count<T(==)>(s: seq<T>, x: T): nat
  {
    multiset(s)[x]
  }

  /** `a` is obtained from `b` by deleting elements, keeping relative order
      (greedy matching, which is complete for subsequences). */
  predicate Subsequence<T(==)>(a: seq<T>, b: seq<T>)
    decreases |b|
  {
    if a == [] then true
    else if b == [] then false
    else if a[0] == b[0] then Subsequence(a[1..], b[1..])
    else Subsequence(a, b[1..])
  }

  lemma {:induction false} SubsequenceRefl<T>(a: seq<T>)
    ensures Subsequence(a, a)
  {
    if a != [] {
      SubsequenceRefl(a[1..]);
    }
  }

  /** A subsequence of the tail is a subsequence of the whole. */
  lemma {:induction false} SubsequenceSkip<T>(a: seq<T>, b: seq<T>)
    requires b != [] && Subsequence(a, b[1..])
    ensures Subsequence(a, b)
    decreases |b|, 1
  {
    if a != [] && a[0] == b[0] {
      SubsequenceTail(a, b[1..]);
    }
  }

  /** Dropping the head of a subsequence keeps it a subsequence. */
  lemma {:induction false} SubsequenceTail<T>(a: seq<T>, c: seq<T>)
    requires a != [] && Subsequence(a, c)
    ensures Subsequence(a[1..], c)
    decreases |c|, 2
  {
    if a[0] == c[0] {
      if |c| > 1 {
        SubsequenceSkip(a[1..], c);
      }
    } else {
      SubsequenceTail(a, c[1..]);
      SubsequenceSkip(a[1..], c);
    }
  }

  lemma {:induction false} SubsequenceTrans<T>(a: seq<T>, b: seq<T>, c: seq<T>)
    requires Subsequence(a, b) && Subsequence(b, c)
    ensures Subsequence(a, c)
    decreases |c|
  {
    if a != [] && c != [] {
      if b[0] == c[0] {
        if a[0] == b[0] {
          SubsequenceTrans(a[1..], b[1..], c[1..]);
        } else {
          SubsequenceTrans(a, b[1..], c[1..]);
          SubsequenceSkip(a, c);
        }
      } else {
        SubsequenceTrans(a, b, c[1..]);
        SubsequenceSkip(a, c);
      }
    }
  }

  /** Splicing out one element leaves a subsequence. */
  lemma {:induction false} SubsequenceSplice<T>(s: seq<T>, k: nat)
    requires k < |s|
    ensures Subsequence(s[..k] + s[k + 1..], s)
  {
    var t := s[..k] + s[k + 1..];
    if k == 0 {
      assert t == s[1..];
      SubsequenceRefl(s[1..]);
      SubsequenceSkip(s[1..], s);
    } else {
      SubsequenceSplice(s[1..], k - 1);
      assert t[0] == s[0];
      assert t[1..] == s[1..][..k - 1] + s[1..][k..];
    }
  }

  /** A key of an options object passed to `_.extend`: absent (the default
      applies), present but undefined (it overrides the default with
      undefined), or a value. */
  datatype Field<T> = Absent | Undef | Val(v: T)

  /** The property after `extend` copies the field over the default;
      None is undefined. */
  function Merged<T>(f: Field<T>, default: Option<T>): Option<T>
  {
    match f
    case Absent => default
    case Undef => None
    case Val(v) => Some(v)
  }

  /** Index of the first occurrence of `x` in `s`, as `indexOf` returns it (None for -1). */
  function IndexOf<T(==)>(s: seq<T>, x: T): (r: Option<nat>)
    ensures r.None? <==> x !in s
    ensures r.Some? ==> r.value < |s| && s[r.value] == x && x !in s[..r.value]
  {
    if s == [] then None
    else if s[0] == x then Some(0)
    else
      var k := IndexOf(s[1..], x);
      assert s == [s[0]] + s[1..];
      if k.None? then None
      else
        assert s[..k.value + 1] == [s[0]] + s[1..][..k.value];
        Some(k.value + 1)
  }

  /** The first occurrence is the only index holding `x` with no `x` before it. */
  lemma IndexOfUnique<T>(s: seq<T>, x: T, k: nat)
    requires k < |s| && s[k] == x && x !in s[..k]
    ensures IndexOf(s, x) == Some(k)
  {
  }

  /** Appending does not move the first occurrence of an element already present,
      and an element new to `s` first occurs at the appended position. */
  lemma IndexOfSnoc<T>(s: seq<T>, y: T, x: T)
    ensures x in s ==> IndexOf(s + [y], x) == IndexOf(s, x)
    ensures x !in s && x == y ==> IndexOf(s + [y], x) == Some(|s|)
  {
    if x in s {
      var k := IndexOf(s, x).value;
      assert (s + [y])[..k] == s[..k];
      IndexOfUnique(s + [y], x, k);
    } else if x == y {
      assert (s + [y])[..|s|] == s;
      IndexOfUnique(s + [y], x, |s|);
    }
  }

  /** `s` with its first occurrence of `x` spliced out; unchanged without one. */
  function RemoveFirst<T(==)>(s: seq<T>, x: T): (r: seq<T>)
    ensures x !in s ==> r == s
    ensures x in s ==> |r| == |s| - 1 && multiset(r) == multiset(s) - multiset{x}
    ensures x in s ==> var k := IndexOf(s, x).value; r == s[..k] + s[k + 1..]
  {
    match IndexOf(s, x)
    case None => s
    case Some(k) =>
      assert s == s[..k] + [s[k]] + s[k + 1..];
      s[..k] + s[k + 1..]
  }

  lemma RemoveFirstCount<T>(s: seq<T>, x: T, y: T)
    ensures Count(RemoveFirst(s, x), y) == if y == x && x in s then Count(s, y) - 1 else Count(s, y)
  {
  }
}

=== FILE: camera.dfy ===
/** The camera component a stage may carry (js_engine/module_scenes.js:55-137):
    its view properties, merged onto the stage, and the entity it follows.
    The canvas transforms of `predraw` and `postdraw` are drawing plumbing;
    only the arithmetic they rely on is stated here. */
module Camera {
  import opened Base
  import opened Evented

  /** The camera-related properties of the stage: the top-left corner of the
      view in world coordinates, the angle, the zoom, and the world point at
      the middle of the screen. */
  datatype View = View(x: real, y: real, angle: real, scale: real, centerX: real, centerY: real)

  /** The `props` given to `added`, None where a key is absent. */
  datatype CamOpts = CamOpts(x: Option<real>, y: Option<real>, angle: Option<real>, scale: Option<real>)

  /** A camera component: its identity, its stage, and the entity it follows
      (`this.following`, None when null or never set). */
  datatype Cam = Cam(id: ObjId, stage: ObjId, following: Option<ObjId>)

  /** The camera's own methods, as callback values. */
  datatype CamMethods = CamMethods(predraw: nat, postdraw: nat, unfollow: nat)

  /** `added(props)`: the defaults (x 0, y 0, angle 0, scale 1) overridden by
      `props` are merged onto the stage, whose centre stays, and the camera
      listens to the stage's `predraw` and then `postdraw`. */
  function Added(cam: Cam, stageView: View, opts: CamOpts, w: World, ms: CamMethods, methods: Methods): (r: (View, World))
    ensures r.0 == View(opts.x.GetOr(0.0), opts.y.GetOr(0.0), opts.angle.GetOr(0.0), opts.scale.GetOr(1.0),
                        stageView.centerX, stageView.centerY)
    ensures ListenersOf(r.1, cam.stage, "predraw") == ListenersOf(w, cam.stage, "predraw") + [Listener(cam.id, Fn(ms.predraw))]
    ensures ListenersOf(r.1, cam.stage, "postdraw") == ListenersOf(w, cam.stage, "postdraw") + [Listener(cam.id, Fn(ms.postdraw))]
    ensures BindsOf(r.1, cam.id) == BindsOf(w, cam.id) + [BindRec(cam.stage, "predraw", Fn(ms.predraw)),
                                                          BindRec(cam.stage, "postdraw", Fn(ms.postdraw))]
  {
    var v := View(opts.x.GetOr(0.0), opts.y.GetOr(0.0), opts.angle.GetOr(0.0), opts.scale.GetOr(1.0),
                  stageView.centerX, stageView.centerY);
    var w1 := BindTo(w, cam.stage, "predraw", cam.id, Fn(ms.predraw), methods);
    var w2 := BindTo(w1, cam.stage, "postdraw", cam.id, Fn(ms.postdraw), methods);
    (v, w2)
  }

  /** `source.bindEvent(event, ctx, f)` with a function value: one listener at
      the end of the list and one reverse record at the end of the context's binds. */
  function BindTo(w: World, source: ObjId, event: string, ctx: ObjId, f: Callback, methods: Methods): (r: World)
    requires f.Fn?
    ensures ListenersOf(r, source, event) == ListenersOf(w, source, event) + [Listener(ctx, f)]
    ensures forall o, e :: !(o == source && e == event) ==> ListenersOf(r, o, e) == ListenersOf(w, o, e)
    ensures BindsOf(r, ctx) == BindsOf(w, ctx) + [BindRec(source, event, f)]
  {
    var b := BindEvent(w, source, event, Some(ctx), Direct(f), methods);
    var l0 := ListenersOf(w, source, event);
    var l1 := ListenersOf(b.value, source, event);
    assert l1 == l0 + [Listener(ctx, f)] by {
      assert l1[..|l0|] == l0;
    }
    b.value
  }

  /** `centerViewportOn(x, y)` on an engine `width` x `height`: the centre
      becomes (x, y) and the corner is put half a screen (in world units) to
      its upper left. */
  function CenterViewportOn(v: View, x: real, y: real, width: real, height: real): (r: View)
    requires v.scale != 0.0
    ensures r.centerX == x && r.centerY == y
    ensures r.angle == v.angle && r.scale == v.scale
  {
    v.(centerX := x, centerY := y, x := x - width / 2.0 / v.scale, y := y - height / 2.0 / v.scale)
  }

  /** Where `predraw`'s transform (translate by half the screen, scale, then
      translate by minus the centre) puts a world coordinate on the screen. */
  function ScreenX(v: View, width: real, px: real): real
  {
    width / 2.0 + v.scale * (px - v.centerX)
  }

  function ScreenY(v: View, height: real, py: real): real
  {
    height / 2.0 + v.scale * (py - v.centerY)
  }

  /** After centring, the followed point is drawn mid-screen and the view's
      corner (x, y) is drawn at the screen's top-left corner, so the view and
      the draw transform agree. */
  lemma CenteredOnScreen(v: View, x: real, y: real, width: real, height: real)
    requires v.scale != 0.0
    ensures var r := CenterViewportOn(v, x, y, width, height);
            ScreenX(r, width, x) == width / 2.0 && ScreenY(r, height, y) == height / 2.0 &&
            ScreenX(r, width, r.x) == 0.0 && ScreenY(r, height, r.y) == 0.0 &&
            ScreenX(r, width, r.x + width / r.scale) == width
  {
    var r := CenterViewportOn(v, x, y, width, height);
    assert r.scale * (width / 2.0 / r.scale) == width / 2.0;
    assert r.scale * (height / 2.0 / r.scale) == height / 2.0;
    assert r.scale * (width / r.scale) == width;
  }

  /** `updateViewport()`: when following, centre on the followed entity's
      position `pos`; otherwise nothing changes. */
  function UpdateViewport(cam: Cam, v: View, pos: (real, real), width: real, height: real): (r: View)
    requires v.scale != 0.0
    ensures cam.following.None? ==> r == v
    ensures cam.following.Some? ==> r.centerX == pos.0 && r.centerY == pos.1 && r.scale == v.scale
  {
    if cam.following.Some? then CenterViewportOn(v, pos.0, pos.1, width, height) else v
  }

  /** `followEntity(entity)` for an entity at `pos`: it becomes the followed
      entity, the view centres on it, and the camera listens to its `removed`
      with `unfollow`. */
  function FollowEntity(cam: Cam, v: View, ent: ObjId, pos: (real, real), w: World, width: real, height: real,
                        ms: CamMethods, methods: Methods): (r: (Cam, View, World))
    requires v.scale != 0.0
    ensures r.0 == cam.(following := Some(ent))
    ensures r.1.centerX == pos.0 && r.1.centerY == pos.1
    ensures ListenersOf(r.2, ent, "removed") == ListenersOf(w, ent, "removed") + [Listener(cam.id, Fn(ms.unfollow))]
    ensures forall o, e :: !(o == ent && e == "removed") ==> ListenersOf(r.2, o, e) == ListenersOf(w, o, e)
  {
    var c := cam.(following := Some(ent));
    (c, UpdateViewport(c, v, pos, width, height), BindTo(w, ent, "removed", cam.id, Fn(ms.unfollow), methods))
  }

  /** `unfollow()`: the camera's `removed` listener on the followed entity is
      dropped and nothing is followed. With nothing followed, reading
      `this.following.unbindEvent` throws. */
  function Unfollow(cam: Cam, w: World, ms: CamMethods, methods: Methods): (r: Result<(Cam, World)>)
    ensures r.Err? <==> cam.following.None?
    ensures r.Ok? ==> r.value.0 == cam.(following := None)
    ensures r.Ok? ==> ListenersOf(r.value.1, cam.following.value, "removed") ==
                        Purge(ListenersOf(w, cam.following.value, "removed"), cam.id, Some(Fn(ms.unfollow)))
    ensures r.Ok? ==> forall o, e :: !(o == cam.following.value && e == "removed") ==>
                        ListenersOf(r.value.1, o, e) == ListenersOf(w, o, e)
  {
    if cam.following.None? then Err(NullTarget)
    else
      var w1 := UnbindEvent(w, cam.following.value, "removed", cam.id, Some(Direct(Fn(ms.unfollow))), methods);
      assert ListenersOf(w1, cam.following.value, "removed") ==
               Purge(ListenersOf(w, cam.following.value, "removed"), cam.id, Some(Fn(ms.unfollow)));
      Ok((cam.(following := None), w1))
  }

  /** Following an entity and then unfollowing it restores its `removed`
      listeners, when the camera did not already listen there with `unfollow`. */
  lemma FollowThenUnfollow(cam: Cam, v: View, ent: ObjId, pos: (real, real), w: World, width: real, height: real,
                           ms: CamMethods, methods: Methods)
    requires v.scale != 0.0
    requires Listener(cam.id, Fn(ms.unfollow)) !in ListenersOf(w, ent, "removed")
    ensures var f := FollowEntity(cam, v, ent, pos, w, width, height, ms, methods);
            var u := Unfollow(f.0, f.2, ms, methods);
            u.Ok? && u.value.0 == cam.(following := None) &&
            ListenersOf(u.value.1, ent, "removed") == ListenersOf(w, ent, "removed")
  {
    var l := ListenersOf(w, ent, "removed");
    var me := Listener(cam.id, Fn(ms.unfollow));
    forall x | x in l
      ensures Survives(x, cam.id, Some(Fn(ms.unfollow)))
    {
    }
    PurgeKeepsAll(l, cam.id, Some(Fn(ms.unfollow)));
    PurgeAppend(l, [me], cam.id, Some(Fn(ms.unfollow)));
    assert Purge([me], cam.id, Some(Fn(ms.unfollow))) == [];
  }

  /** Unfollowing twice: the second call throws. */
  lemma UnfollowTwiceFaults(cam: Cam, w: World, ms: CamMethods, methods: Methods)
    requires cam.following.Some?
    ensures var u := Unfollow(cam, w, ms, methods);
            u.Ok? && Unfollow(u.value.0, u.value.1, ms, methods) == Err(NullTarget)
  {
  }
}

=== FILE: components.dfy ===
/** Components (js_engine/components.js): units of behaviour attached to one
    entity. Construction merges the type's `extend` values onto the entity
    object and runs the `added` hook; destruction undoes the merge, deletes
    the property named after the registered type, prunes the active list,
    releases the component's bindings and runs the `destroyed` hook. The
    entity object is seen here as its own-property table and its active list. */
module Components {
  import opened Base

  /** A plain property value, with the JavaScript truthiness it has. */
  datatype Value = Value(id: nat, truthy: bool)

  /** What an own property of an entity object holds. */
  datatype Slot = CompSlot(comp: Component) | ValueSlot(v: Value)

  predicate Truthy(s: Slot)
  {
    s.CompSlot? || s.v.truthy
  }

  /** The methods object a component type is registered with: the `extend`
      values and whether `added` / `destroyed` hooks are defined. */
  datatype ComponentSpec = ComponentSpec(extend: map<string, Value>, hasAdded: bool, hasDestroyed: bool)

  /** A registered component class; `typeName` is the `name` stamped on it at registration. */
  datatype ComponentClass = ComponentClass(typeName: string, spec: ComponentSpec)

  type Registry = map<string, ComponentClass>

  /** A live component: its identity, the registered type name it carries as
      `this.name`, its owning entity and its class's methods. */
  datatype Component = Component(id: ObjId, typeName: string, entity: ObjId, spec: ComponentSpec)

  /** The entity's active-component list holds component objects (from
      addComponent) or names (from addComponentList). */
  datatype ActiveEntry = ByObject(comp: ObjId) | ByName(name: string)

  /** The result of constructing a component on an entity. */
  datatype Built = Built(comp: Component, slots: map<string, Slot>, effects: seq<Effect>)

  /** `new compClass(entity, properties)`: sets the back-reference, merges
      `extend` over the entity's properties, then runs `added(properties)`. */
  function Construct(cls: ComponentClass, id: ObjId, entity: ObjId, slots: map<string, Slot>, props: Payload): (r: Built)
    ensures r.comp.entity == entity && r.comp.id == id && r.comp.typeName == cls.typeName
    ensures forall k :: k in cls.spec.extend ==> k in r.slots && r.slots[k] == ValueSlot(cls.spec.extend[k])
    ensures forall k :: k !in cls.spec.extend ==> (k in r.slots <==> k in slots) && (k in slots ==> r.slots[k] == slots[k])
    ensures r.effects == if cls.spec.hasAdded then [Hook(id, "added", props)] else []
  {
    var merged := map k | k in slots.Keys + cls.spec.extend.Keys ::
      if k in cls.spec.extend then ValueSlot(cls.spec.extend[k]) else slots[k];
    Built(Component(id, cls.typeName, entity, cls.spec), merged,
          if cls.spec.hasAdded then [Hook(id, "added", props)] else [])
  }

  /** The entity-side state a component destruction touches. */
  datatype Detached = Detached(slots: map<string, Slot>, active: seq<ActiveEntry>, effects: seq<Effect>)

  /** `component.destroy()`. The property deleted is `this.name`, the registered
      type name, whatever alias the component was stored under; the active list
      loses the first entry equal to that name, and is untouched when only the
      component object was pushed. */
  function Destroy(c: Component, slots: map<string, Slot>, active: seq<ActiveEntry>): (r: Detached)
    ensures forall k :: k in c.spec.extend ==> k !in r.slots
    ensures c.typeName !in r.slots
    ensures forall k :: k !in c.spec.extend && k != c.typeName ==>
              (k in r.slots <==> k in slots) && (k in slots ==> r.slots[k] == slots[k])
    ensures ByName(c.typeName) !in active ==> r.active == active
    ensures ByName(c.typeName) in active ==>
              |r.active| == |active| - 1 && multiset(r.active) == multiset(active) - multiset{ByName(c.typeName)}
    ensures r.effects == [Debind(c.id)] + (if c.spec.hasDestroyed then [Hook(c.id, "destroyed", NoData)] else [])
  {
    var slots1 := slots - c.spec.extend.Keys - {c.typeName};
    Detached(slots1, RemoveFirst(active, ByName(c.typeName)),
             [Debind(c.id)] + (if c.spec.hasDestroyed then [Hook(c.id, "destroyed", NoData)] else []))
  }
}

=== FILE: engine.dfy ===
/** The engine container (js_engine/engine.js): argument normalisation,
    module inclusion, the component registry, the frame clock that feeds the
    game loop its `dt`, pause / unpause, and the singleton constructor. */
module EngineCore {
  import opened Base
  import opened Components

  // ---------------------------------------------------------------------
  // `_normalizeArg`

  /** The characters JavaScript's `\s` class matches. */
  predicate IsWhitespace(c: char)
  {
    c == '\t' || c == '\n' || c == '\U{B}' || c == '\U{C}' || c == '\r' || c == ' ' ||
    c == '\U{A0}' || c == '\U{1680}' || ('\U{2000}' <= c <= '\U{200A}') ||
    c == '\U{2028}' || c == '\U{2029}' || c == '\U{202F}' || c == '\U{205F}' ||
    c == '\U{3000}' || c == '\U{FEFF}'
  }

  /** `s.replace(/\s+/g, '')`. */
  function StripWhitespace(s: string): (r: string)
    ensures forall i :: 0 <= i < |r| ==> !IsWhitespace(r[i])
    ensures forall c :: !IsWhitespace(c) ==> multiset(r)[c] == multiset(s)[c]
    ensures forall c :: IsWhitespace(c) ==> multiset(r)[c] == 0
    ensures Subsequence(r, s)
  {
    if s == [] then []
    else if IsWhitespace(s[0]) then
      var t := StripWhitespace(s[1..]);
      assert s == [s[0]] + s[1..];
      SubsequenceSkip(t, s);
      t
    else
      var t := StripWhitespace(s[1..]);
      assert s == [s[0]] + s[1..];
      assert ([s[0]] + t)[1..] == t;
      [s[0]] + t
  }

  /** `s.split(",")`: a string with no comma is one part, and the empty string is `[""]`. */
  function Split(s: string): (r: seq<string>)
    ensures |r| >= 1
    ensures forall i :: 0 <= i < |r| ==> ',' !in r[i]
  {
    if s == [] then [""]
    else if s[0] == ',' then [""] + Split(s[1..])
    else
      var rest := Split(s[1..]);
      [[s[0]] + rest[0]] + rest[1..]
  }

  /** `parts.join(",")`, the partner of `Split`. */
  function Join(parts: seq<string>): string
    requires |parts| >= 1
  {
    if |parts| == 1 then parts[0] else parts[0] + "," + Join(parts[1..])
  }

  lemma {:induction false} JoinSplit(s: string)
    ensures Join(Split(s)) == s
  {
    if s == [] {
    } else if s[0] == ',' {
      JoinSplit(s[1..]);
      assert ([""] + Split(s[1..]))[1..] == Split(s[1..]);
      assert s == "," + s[1..];
    } else {
      var rest := Split(s[1..]);
      JoinSplit(s[1..]);
      var r := [[s[0]] + rest[0]] + rest[1..];
      if |rest| == 1 {
        assert Join(r) == [s[0]] + rest[0];
        assert s == [s[0]] + s[1..];
      } else {
        assert r[1..] == rest[1..];
        assert Join(r) == [s[0]] + (rest[0] + "," + Join(rest[1..]));
        assert s == [s[0]] + s[1..];
      }
    }
  }

  lemma {:induction false} SplitNoComma(a: string, rest: string)
    requires ',' !in a
    ensures Split(a + rest) == [a + Split(rest)[0]] + Split(rest)[1..]
  {
    if a != [] {
      SplitNoComma(a[1..], rest);
      assert (a + rest)[0] == a[0];
      assert (a + rest)[1..] == a[1..] + rest;
      assert [a[0]] + (a[1..] + Split(rest)[0]) == a + Split(rest)[0];
    } else {
      assert a + rest == rest;
      assert a + Split(rest)[0] == Split(rest)[0];
      assert Split(rest) == [Split(rest)[0]] + Split(rest)[1..];
    }
  }

  /** Splitting what `Join` produced gives back the parts, when no part holds a comma. */
  lemma {:induction false} SplitJoin(parts: seq<string>)
    requires |parts| >= 1
    requires forall i :: 0 <= i < |parts| ==> ',' !in parts[i]
    ensures Split(Join(parts)) == parts
  {
    if |parts| == 1 {
      SplitNoComma(parts[0], "");
      assert parts[0] + "" == parts[0];
      assert Split("") == [""];
      assert [parts[0] + ""] + [""][1..] == parts;
    } else {
      var tail := Join(parts[1..]);
      SplitJoin(parts[1..]);
      assert parts[0] + "," + tail == parts[0] + ("," + tail);
      SplitNoComma(parts[0], "," + tail);
      assert ("," + tail)[0] == ',';
      assert ("," + tail)[1..] == tail;
      assert Split("," + tail) == [""] + parts[1..];
      assert parts[0] + "" == parts[0];
      assert ([""] + parts[1..])[1..] == parts[1..];
      assert parts == [parts[0]] + parts[1..];
    }
  }

  /** The values `_normalizeArg` is applied to. */
  datatype Arg = Text(s: string) | List(items: seq<Arg>) | FnValue(fnId: nat) | ObjValue(tag: nat)

  function Texts(names: seq<string>): (r: seq<Arg>)
    ensures |r| == |names| && forall i :: 0 <= i < |r| ==> r[i] == Text(names[i])
  {
    if names == [] then [] else [Text(names[0])] + Texts(names[1..])
  }

  /** `_normalizeArg(arg)`: a string loses every whitespace character and is
      split on commas; an array is returned as it is; anything else is wrapped. */
  function NormalizeArg(a: Arg): (r: seq<Arg>)
    ensures a.List? ==> r == a.items
    ensures !a.Text? && !a.List? ==> r == [a]
    ensures a.Text? ==> |r| >= 1 && forall i :: 0 <= i < |r| ==>
              r[i].Text? && ',' !in r[i].s && forall c :: c in r[i].s ==> !IsWhitespace(c)
  {
    match a
    case Text(s) =>
      var parts := Split(StripWhitespace(s));
      SplitClean(StripWhitespace(s));
      Texts(parts)
    case List(items) => items
    case _ => [a]
  }

  /** Every character of a part of `Split(s)` is a character of `s`. */
  lemma {:induction false} SplitChars(s: string, i: nat)
    requires i < |Split(s)|
    ensures forall c :: c in Split(s)[i] ==> c in s
  {
    if s == [] {
    } else if s[0] == ',' {
      if i > 0 {
        SplitChars(s[1..], i - 1);
      }
    } else {
      SplitChars(s[1..], i);
    }
  }

  lemma SplitClean(s: string)
    requires forall c :: c in s ==> !IsWhitespace(c)
    ensures forall i :: 0 <= i < |Split(s)| ==> forall c :: c in Split(s)[i] ==> !IsWhitespace(c)
  {
    forall i | 0 <= i < |Split(s)|
      ensures forall c :: c in Split(s)[i] ==> !IsWhitespace(c)
    {
      SplitChars(s, i);
    }
  }

  /** The joined names of a normalised string are the string with its whitespace removed. */
  lemma NormalizeJoin(s: string)
    ensures var r := NormalizeArg(Text(s));
            exists names :: |names| >= 1 && r == Texts(names) && Join(names) == StripWhitespace(s)
  {
    var names := Split(StripWhitespace(s));
    JoinSplit(StripWhitespace(s));
    assert NormalizeArg(Text(s)) == Texts(names);
  }

  /** A comma-joined list of clean names normalises back to exactly those names, in order. */
  lemma NormalizeNames(names: seq<string>)
    requires |names| >= 1
    requires forall i :: 0 <= i < |names| ==> ',' !in names[i] && forall c :: c in names[i] ==> !IsWhitespace(c)
    ensures NormalizeArg(Text(Join(names))) == Texts(names)
  {
    JoinClean(names);
    StripClean(Join(names));
    SplitJoin(names);
  }

  lemma {:induction false} JoinClean(names: seq<string>)
    requires |names| >= 1
    requires forall i :: 0 <= i < |names| ==> forall c :: c in names[i] ==> !IsWhitespace(c)
    ensures forall c :: c in Join(names) ==> !IsWhitespace(c)
  {
    if |names| > 1 {
      JoinClean(names[1..]);
    }
  }

  lemma {:induction false} StripClean(s: string)
    requires forall c :: c in s ==> !IsWhitespace(c)
    ensures StripWhitespace(s) == s
  {
    if s != [] {
      StripClean(s[1..]);
      assert s == [s[0]] + s[1..];
    }
  }

  // ---------------------------------------------------------------------
  // `includeModule`

  /** What the `Engine` namespace holds under a name. */
  datatype NsValue = NsFn(fnId: nat) | NsData(truthy: bool)

  type Namespace = map<string, NsValue>

  /** Per item: the module function applied to the engine, or the error logged. */
  datatype ModAction = Apply(fnId: nat) | LogMissing

  /** `m = Engine[m] || m`, then whether the result is a function. */
  function ResolveModule(ns: Namespace, m: Arg): (r: ModAction)
    ensures r.Apply? <==> m.FnValue? || (m.Text? && m.s in ns && ns[m.s].NsFn?)
    ensures m.FnValue? ==> r == Apply(m.fnId)
    ensures m.Text? && m.s in ns && ns[m.s].NsFn? ==> r == Apply(ns[m.s].fnId)
  {
    match m
    case Text(name) => if name in ns && ns[name].NsFn? then Apply(ns[name].fnId) else LogMissing
    case FnValue(f) => Apply(f)
    case _ => LogMissing
  }

  /** `includeModule(mod)`: one action per normalised item, in list order. */
  function IncludeModule(ns: Namespace, mod: Arg): (r: seq<ModAction>)
    ensures |r| == |NormalizeArg(mod)|
    ensures forall i :: 0 <= i < |r| ==> r[i] == ResolveModule(ns, NormalizeArg(mod)[i])
  {
    var items := NormalizeArg(mod);
    seq(|items|, i requires 0 <= i < |items| => ResolveModule(ns, items[i]))
  }

  /** Including a comma-separated list of registered module names applies
      exactly those modules, in the order written. */
  lemma IncludeNamedModules(ns: Namespace, names: seq<string>)
    requires |names| >= 1
    requires forall i :: 0 <= i < |names| ==> ',' !in names[i] && forall c :: c in names[i] ==> !IsWhitespace(c)
    requires forall i :: 0 <= i < |names| ==> names[i] in ns && ns[names[i]].NsFn?
    ensures var r := IncludeModule(ns, Text(Join(names)));
            |r| == |names| && forall i :: 0 <= i < |names| ==> r[i] == Apply(ns[names[i]].fnId)
  {
    NormalizeNames(names);
  }

  // ---------------------------------------------------------------------
  // `registerComponent`

  /** Every registered class carries the name it is registered under. */
  ghost predicate WellNamed(reg: Registry)
  {
    forall k :: k in reg ==> reg[k].typeName == k
  }

  /** The message `registerComponent` logs with `console.error` for a name taken. */
  const DuplicateComponentMessage := "Engine registering a component that already registered."

  /** `registerComponent(name, methods)`: an already-registered name is left
      alone and the duplicate is logged; a new one gets a class carrying its name. */
  function RegisterComponent(reg: Registry, name: string, spec: ComponentSpec): (r: (Registry, seq<Effect>))
    ensures name in reg ==> r.0 == reg
    ensures name !in reg ==> r.0.Keys == reg.Keys + {name} && r.0[name] == ComponentClass(name, spec)
    ensures forall k :: k in reg ==> k in r.0 && r.0[k] == reg[k]
    ensures r.1 != [] <==> name in reg
    ensures r.1 != [] ==> r.1 == [Logged(DuplicateComponentMessage)]
  {
    if name in reg then (reg, [Logged(DuplicateComponentMessage)])
    else (reg[name := ComponentClass(name, spec)], [])
  }

  lemma RegisterKeepsWellNamed(reg: Registry, name: string, spec: ComponentSpec)
    requires WellNamed(reg)
    ensures WellNamed(RegisterComponent(reg, name, spec).0)
  {
  }

  /** A second registration under the same name, whatever its methods, changes
      nothing but logs the duplicate. */
  lemma RegisterTwice(reg: Registry, name: string, a: ComponentSpec, b: ComponentSpec)
    ensures var first := RegisterComponent(reg, name, a).0;
            RegisterComponent(first, name, b) == (first, [Logged(DuplicateComponentMessage)])
  {
  }

  // ---------------------------------------------------------------------
  // The frame clock: `setGameLoop`, the loop wrapper, `pauseGame`, `unpauseGame`

  /** A frame requested from the browser: its handle, and the game callback
      of the wrapper closure that was requested. */
  datatype FrameRequest = FrameRequest(handle: nat, callback: nat)

  /** `lastGameLoopFrame` (milliseconds), the stored handle `loop` (None when
      null or never set), the game callback of the installed wrapper, and the
      frames currently requested and not yet run or cancelled. */
  datatype Clock = Clock(last: real, loop: Option<nat>, wrapper: Option<nat>, pending: seq<FrameRequest>)

  const InitialClock := Clock(0.0, None, None, [])

  /** `cancelAnimationFrame(loop)` when `loop` is set. */
  function Cancel(pending: seq<FrameRequest>, loop: Option<nat>): (r: seq<FrameRequest>)
    ensures loop.None? ==> r == pending
    ensures loop.Some? ==> forall q :: q in r <==> q in pending && q.handle != loop.value
    ensures |r| <= |pending|
  {
    if loop.None? || pending == [] then pending
    else if pending[0].handle == loop.value then Cancel(pending[1..], loop)
    else [pending[0]] + Cancel(pending[1..], loop)
  }

  /** `setGameLoop(callback)` as written: the clock restarts at 0 and a new
      wrapper is installed and requested, but the handle is not stored in
      `loop` and no earlier request is cancelled. */
  function SetGameLoop(c: Clock, callback: nat, handle: nat): (r: Clock)
    ensures r.last == 0.0 && r.wrapper == Some(callback) && r.loop == c.loop
    ensures r.pending == c.pending + [FrameRequest(handle, callback)]
  {
    Clock(0.0, c.loop, Some(callback), c.pending + [FrameRequest(handle, callback)])
  }

  /** `setGameLoop` storing the handle it requests and cancelling the frame
      `loop` holds, so that exactly one frame chain runs. */
  function SetGameLoopCancelling(c: Clock, callback: nat, handle: nat): (r: Clock)
    ensures r.last == 0.0 && r.wrapper == Some(callback) && r.loop == Some(handle)
    ensures FrameRequest(handle, callback) in r.pending
    ensures c.loop.Some? ==> forall q :: q in r.pending && q.handle == c.loop.value ==> q.handle == handle
  {
    Clock(0.0, Some(handle), Some(callback), Cancel(c.pending, c.loop) + [FrameRequest(handle, callback)])
  }

  /** The `dt`, in seconds, the loop callback is given for a frame at `now`. */
  function FrameDt(last: real, now: real): (dt: real)
    ensures dt <= 0.1
    ensures now - last <= 100.0 ==> dt * 1000.0 == now - last
    ensures now - last > 100.0 ==> dt == 0.1
  {
    var ms := now - last;
    (if ms > 100.0 then 100.0 else ms) / 1000.0
  }

  /** What a frame does: the game callback it calls and the `dt` it passes. */
  datatype FrameCall = FrameCall(callback: nat, dt: real)

  /** The browser runs the oldest requested frame at time `now`: its wrapper
      requests the next frame (through the wrapper installed now, storing the
      handle), calls its own game callback with the clamped `dt`, and records `now`. */
  function Fire(c: Clock, now: real, handle: nat): (r: (Clock, FrameCall))
    requires c.pending != [] && c.wrapper.Some?
    ensures r.0.last == now && r.0.loop == Some(handle) && r.0.wrapper == c.wrapper
    ensures r.0.pending == c.pending[1..] + [FrameRequest(handle, c.wrapper.value)]
    ensures r.1.callback == c.pending[0].callback
    ensures r.1.dt <= 0.1 && r.1.dt == FrameDt(c.last, now)
  {
    (Clock(now, Some(handle), c.wrapper, c.pending[1..] + [FrameRequest(handle, c.wrapper.value)]),
     FrameCall(c.pending[0].callback, FrameDt(c.last, now)))
  }

  /** `pauseGame()`: cancels the frame `loop` names; `loop` is null afterwards. */
  function Pause(c: Clock): (r: Clock)
    ensures r.loop.None? && r.last == c.last && r.wrapper == c.wrapper
    ensures c.loop.Some? ==> forall q :: q in r.pending ==> q in c.pending && q.handle != c.loop.value
    ensures c.loop.None? ==> r.pending == c.pending
  {
    Clock(c.last, None, c.wrapper, Cancel(c.pending, c.loop))
  }

  /** `unpauseGame()`: only when `loop` is null, the clock restarts at 0 and
      the installed wrapper is requested again. Before any `setGameLoop` that
      passes `undefined` to `requestAnimationFrame`, which throws. */
  function Unpause(c: Clock, handle: nat): (r: Result<Clock>)
    ensures c.loop.Some? ==> r == Ok(c)
    ensures c.loop.None? && c.wrapper.None? ==> r == Err(NoFrameCallback)
    ensures c.loop.None? && c.wrapper.Some? ==>
              r == Ok(Clock(0.0, Some(handle), c.wrapper, c.pending + [FrameRequest(handle, c.wrapper.value)]))
  {
    if c.loop.Some? then Ok(c)
    else if c.wrapper.None? then Err(NoFrameCallback)
    else Ok(Clock(0.0, Some(handle), c.wrapper, c.pending + [FrameRequest(handle, c.wrapper.value)]))
  }

  /** One frame chain at most, and `loop` names its pending frame. */
  ghost predicate SingleChain(c: Clock)
  {
    (c.loop.None? && c.pending == []) ||
    (c.loop.Some? && c.wrapper.Some? && c.pending == [FrameRequest(c.loop.value, c.wrapper.value)])
  }

  /** With the cancelling `setGameLoop`, every clock operation keeps a single
      chain, and a paused clock has no frame left to run. */
  lemma {:induction false} SingleChainPreserved(c: Clock, callback: nat, now: real, handle: nat)
    requires SingleChain(c)
    ensures SingleChain(SetGameLoopCancelling(c, callback, handle))
    ensures c.pending != [] ==> SingleChain(Fire(c, now, handle).0)
    ensures SingleChain(Pause(c)) && Pause(c).pending == []
    ensures Unpause(c, handle).Ok? ==> SingleChain(Unpause(c, handle).value)
  {
    if c.loop.Some? {
      assert Cancel(c.pending[1..], c.loop) == [];
    }
  }

  /** As written, starting a loop twice before the first frame (as a scene
      change followed by `setGameLoop` does) leaves two frame chains running
      the second callback, and `pauseGame` cancels only one of them. */
  lemma PauseMissesSecondChain()
    ensures var c1 := SetGameLoop(SetGameLoop(InitialClock, 1, 10), 2, 11);
            var f1 := Fire(c1, 16.0, 12);
            var f2 := Fire(f1.0, 16.0, 13);
            f1.1 == FrameCall(1, 0.016) && f2.1 == FrameCall(2, 0.0) &&
            f2.0.pending == [FrameRequest(12, 2), FrameRequest(13, 2)] &&
            Pause(f2.0).pending == [FrameRequest(12, 2)]
  {
    var c1 := SetGameLoop(SetGameLoop(InitialClock, 1, 10), 2, 11);
    var f1 := Fire(c1, 16.0, 12);
    var f2 := Fire(f1.0, 16.0, 13);
    assert f2.0.pending == [FrameRequest(12, 2), FrameRequest(13, 2)];
    assert Cancel([FrameRequest(13, 2)], Some(13)) == [];
  }

  /** As written, pausing before the first frame cancels nothing: the frame
      still runs and sets `loop` again. */
  lemma PauseBeforeFirstFrameIgnored(callback: nat, handle: nat)
    ensures Pause(SetGameLoop(InitialClock, callback, handle)).pending == [FrameRequest(handle, callback)]
  {
  }

  /** The first frame after a (cancelling) `setGameLoop`, or after a pause and
      resume, is measured from 0 and so, at any page time past 100 ms, gets the full 0.1 s. */
  lemma FirstFrameClamped(c: Clock, callback: nat, now: real, h1: nat, h2: nat)
    requires now >= 100.0
    ensures Fire(SetGameLoopCancelling(c, callback, h1), now, h2).1.dt == 0.1
    ensures c.wrapper.Some? ==> var u := Unpause(Pause(c), h1);
              u.Ok? && Fire(u.value, now, h2).1.dt == 0.1
  {
    var s := SetGameLoopCancelling(c, callback, h1);
    assert s.pending != [];
  }

  /** Resuming a running clock, or pausing a paused one, changes nothing. */
  lemma PauseResumeIdempotent(c: Clock, h1: nat, h2: nat)
    ensures Pause(Pause(c)) == Pause(c)
    ensures c.wrapper.Some? ==> var u := Unpause(c, h1);
              u.Ok? && Unpause(u.value, h2) == u
  {
  }

  // ---------------------------------------------------------------------
  // The singleton constructor

  /** The engine options; None is a key the configuration set to undefined. */
  datatype Options = Options(imagePath: Option<string>, audioPath: Option<string>, dataPath: Option<string>,
                             audioSupported: Option<seq<string>>, sound: Option<bool>)

  /** The configuration a caller passes: each key absent, explicitly undefined, or a value. */
  datatype Config = Config(imagePath: Field<string>, audioPath: Field<string>, dataPath: Field<string>,
                           audioSupported: Field<seq<string>>, sound: Field<bool>)

  datatype Instance = Instance(id: ObjId, options: Options, components: Registry)

  const DefaultOptions := Options(Some("images/"), Some("audio/"), Some("data/"), Some(["mp3", "ogg"]), Some(true))

  /** `Engine(config)`: with a current instance that one is returned and the
      configuration ignored; otherwise a fresh engine with default options
      shallow-extended by the configuration and an empty registry. `extend`
      copies every own key, so a key given as undefined replaces its default. */
  function NewEngine(current: Option<Instance>, config: Option<Config>, newId: ObjId): (r: Instance)
    ensures current.Some? ==> r == current.value
    ensures current.None? ==> r.id == newId && r.components == map[]
    ensures current.None? && config.None? ==> r.options == DefaultOptions
    ensures current.None? && config.Some? ==>
              var cf := config.value;
              && (cf.imagePath.Absent? ==> r.options.imagePath == Some("images/"))
              && (cf.audioPath.Absent? ==> r.options.audioPath == Some("audio/"))
              && (cf.dataPath.Absent? ==> r.options.dataPath == Some("data/"))
              && (cf.audioSupported.Absent? ==> r.options.audioSupported == Some(["mp3", "ogg"]))
              && (cf.sound.Absent? ==> r.options.sound == Some(true))
              && (r.options.imagePath.None? <==> cf.imagePath.Undef?)
              && (r.options.audioPath.None? <==> cf.audioPath.Undef?)
              && (r.options.dataPath.None? <==> cf.dataPath.Undef?)
              && (r.options.audioSupported.None? <==> cf.audioSupported.Undef?)
              && (r.options.sound.None? <==> cf.sound.Undef?)
              && (cf.imagePath.Val? ==> r.options.imagePath == Some(cf.imagePath.v))
              && (cf.audioPath.Val? ==> r.options.audioPath == Some(cf.audioPath.v))
              && (cf.dataPath.Val? ==> r.options.dataPath == Some(cf.dataPath.v))
              && (cf.audioSupported.Val? ==> r.options.audioSupported == Some(cf.audioSupported.v))
              && (cf.sound.Val? ==> r.options.sound == Some(cf.sound.v))
  {
    if current.Some? then current.value
    else
      var o := match config
        case None => DefaultOptions
        case Some(cf) => Options(Merged(cf.imagePath, DefaultOptions.imagePath),
                                 Merged(cf.audioPath, DefaultOptions.audioPath),
                                 Merged(cf.dataPath, DefaultOptions.dataPath),
                                 Merged(cf.audioSupported, DefaultOptions.audioSupported),
                                 Merged(cf.sound, DefaultOptions.sound));
      Instance(newId, o, map[])
  }

  /** An empty configuration object is the same as none. */
  lemma EmptyConfigIsDefault(newId: ObjId)
    ensures NewEngine(None, Some(Config(Absent, Absent, Absent, Absent, Absent)), newId) ==
            NewEngine(None, None, newId)
  {
  }

  /** Constructing again, with any configuration, yields the first instance. */
  lemma SingletonStable(c1: Option<Config>, c2: Option<Config>, id1: ObjId, id2: ObjId)
    ensures var first := NewEngine(None, c1, id1);
            NewEngine(Some(first), c2, id2) == first
  {
  }
}

=== FILE: entity.dfy ===
/** Entities (js_engine/entity.js): game objects that own components under
    names, announce component changes as events, destroy themselves once,
    and transform local vectors by their angle. */
module Entities {
  import opened Base
  import opened Components
  import opened EngineCore

  /** The `id` property: absent, or a string (truthy unless empty). */
  datatype PropId = NoId | Id(key: string)

  /** The key `index[properties.id]` stores under: an absent id stringifies to "undefined". */
  function IndexKey(p: PropId): string
  {
    match p
    case NoId => "undefined"
    case Id(k) => k
  }

  predicate IdTruthy(p: PropId)
  {
    p.Id? && p.key != ""
  }

  /** The `properties` object the stage code reads: position, size, depth,
      angle, id, and the `type` bit mask (0 when undefined). */
  datatype Props = Props(x: real, y: real, z: real, width: real, height: real,
                         angle: real, pid: PropId, kind: bv32)

  /** An entity object. `slots` are its own properties that component code
      touches; `inherited` names the truthy properties its prototype chain
      supplies (methods such as `destroy`, the class `name`). */
  datatype Entity = Entity(id: ObjId, slots: map<string, Slot>, inherited: set<string>,
                           active: seq<ActiveEntry>, parentStage: Option<ObjId>,
                           destroyed: bool, props: Props)

  /** An entity after an operation, with the effects it performed in order. */
  datatype Step = Step(e: Entity, effects: seq<Effect>)

  /** `hasComponent(name)`: `this[name]` is truthy, own or inherited. */
  predicate HasComponent(e: Entity, name: string)
  {
    if name in e.slots then Truthy(e.slots[name]) else name in e.inherited
  }

  /** `componentName || componentType`. */
  function AliasOf(ctype: string, alias: Option<string>): (k: string)
    ensures alias.Some? && alias.value != "" ==> k == alias.value
    ensures alias.None? || alias.value == "" ==> k == ctype
  {
    if alias.Some? && alias.value != "" then alias.value else ctype
  }

  /** `addComponent(type, properties, name)`. The component is constructed
      (running its `added` hook), pushed as an object onto the active list,
      stored under the alias, and announced. `returned` says whether `this`
      is returned: the early exit for an existing alias returns nothing. */
  function AddComponent(reg: Registry, e: Entity, ctype: string, props: Payload,
                        alias: Option<string>, cid: ObjId): (r: (Step, bool))
    ensures var key := AliasOf(ctype, alias);
            HasComponent(e, key) ==> r == (Step(e, []), false)
    ensures var key := AliasOf(ctype, alias);
            !HasComponent(e, key) && ctype !in reg ==> r == (Step(e, []), true)
    ensures var key := AliasOf(ctype, alias);
            !HasComponent(e, key) && ctype in reg ==>
              var cls := reg[ctype];
              var e1 := r.0.e;
              r.1 &&
              e1.slots.Keys == e.slots.Keys + cls.spec.extend.Keys + {key} &&
              e1.slots[key] == CompSlot(Component(cid, cls.typeName, e.id, cls.spec)) &&
              (forall k :: k in cls.spec.extend && k != key ==> e1.slots[k] == ValueSlot(cls.spec.extend[k])) &&
              (forall k :: k in e.slots && k !in cls.spec.extend && k != key ==> e1.slots[k] == e.slots[k]) &&
              e1.active == e.active + [ByObject(cid)] &&
              e1.id == e.id && e1.destroyed == e.destroyed && e1.parentStage == e.parentStage &&
              r.0.effects == (if cls.spec.hasAdded then [Hook(cid, "added", props)] else []) +
                             [Emit(e.id, "addComponent", Obj(cid))]
  {
    var key := AliasOf(ctype, alias);
    if HasComponent(e, key) then (Step(e, []), false)
    else if ctype !in reg then (Step(e, []), true)
    else
      var built := Construct(reg[ctype], cid, e.id, e.slots, props);
      var e1 := e.(slots := built.slots[key := CompSlot(built.comp)], active := e.active + [ByObject(cid)]);
      (Step(e1, built.effects + [Emit(e.id, "addComponent", Obj(cid))]), true)
  }

  /** One item of `addComponentList`: registered names not yet present are
      constructed without properties, stored under the name, and pushed as names. */
  function AddListItem(reg: Registry, e: Entity, item: Arg, cid: ObjId): (r: Step)
    ensures item.Text? && !HasComponent(e, item.s) && item.s in reg ==>
              r.e.active == e.active + [ByName(item.s)] &&
              item.s in r.e.slots &&
              r.e.slots[item.s] == CompSlot(Component(cid, reg[item.s].typeName, e.id, reg[item.s].spec)) &&
              r.effects == (if reg[item.s].spec.hasAdded then [Hook(cid, "added", NoData)] else []) +
                           [Emit(e.id, "addComponent", Obj(cid))]
    ensures !(item.Text? && !HasComponent(e, item.s) && item.s in reg) ==> r == Step(e, [])
    ensures r.e.id == e.id && r.e.destroyed == e.destroyed && r.e.parentStage == e.parentStage
    ensures r.e.active == e.active || (item.Text? && item.s in reg && r.e.active == e.active + [ByName(item.s)])
  {
    if item.Text? && !HasComponent(e, item.s) && item.s in reg then
      var built := Construct(reg[item.s], cid, e.id, e.slots, NoData);
      var e1 := e.(slots := built.slots[item.s := CompSlot(built.comp)], active := e.active + [ByName(item.s)]);
      Step(e1, built.effects + [Emit(e.id, "addComponent", Obj(cid))])
    else Step(e, [])
  }

  /** The entries `a2` appends past `a0` are listed, registered names from
      position `i` on, given that `a1` adds at most item `i`'s name to `a0`
      and `a2` appends such names from position `i + 1` on. */
  lemma AppendedNamesStep(reg: Registry, items: seq<Arg>, i: nat, a0: seq<ActiveEntry>, a1: seq<ActiveEntry>, a2: seq<ActiveEntry>)
    requires i < |items|
    requires a1 == a0 || (items[i].Text? && items[i].s in reg && a1 == a0 + [ByName(items[i].s)])
    requires |a2| >= |a1| && a2[..|a1|] == a1
    requires forall j :: |a1| <= j < |a2| ==> a2[j].ByName? && a2[j].name in reg && Text(a2[j].name) in items[i + 1..]
    ensures |a2| >= |a0| && a2[..|a0|] == a0
    ensures forall j :: |a0| <= j < |a2| ==> a2[j].ByName? && a2[j].name in reg && Text(a2[j].name) in items[i..]
  {
    assert items[i..] == [items[i]] + items[i + 1..];
    assert a2[..|a0|] == a2[..|a1|][..|a0|];
    if a1 != a0 {
      assert a2[|a0|] == a1[|a0|];
    }
  }

  /** The items of the list from position `i` on, in order; the i-th new
      component gets identity `firstId + i`. */
  function AddListFrom(reg: Registry, e: Entity, items: seq<Arg>, i: nat, firstId: ObjId): (r: Step)
    requires i <= |items|
    ensures |r.e.active| >= |e.active| && r.e.active[..|e.active|] == e.active
    ensures forall j :: |e.active| <= j < |r.e.active| ==>
              r.e.active[j].ByName? && r.e.active[j].name in reg && Text(r.e.active[j].name) in items[i..]
    ensures r.e.id == e.id && r.e.destroyed == e.destroyed && r.e.parentStage == e.parentStage
    decreases |items| - i
  {
    if i == |items| then Step(e, [])
    else
      var s1 := AddListItem(reg, e, items[i], firstId + i);
      var s2 := AddListFrom(reg, s1.e, items, i + 1, firstId);
      AppendedNamesStep(reg, items, i, e.active, s1.e.active, s2.e.active);
      Step(s2.e, s1.effects + s2.effects)
  }

  /** `addComponentList(names)`: names, not component objects, go onto the
      active list, and only for names registered and not yet present. */
  function AddComponentList(reg: Registry, e: Entity, names: Arg, firstId: ObjId): (r: Step)
    ensures |r.e.active| >= |e.active| && r.e.active[..|e.active|] == e.active
    ensures forall j :: |e.active| <= j < |r.e.active| ==>
              r.e.active[j].ByName? && r.e.active[j].name in reg && Text(r.e.active[j].name) in NormalizeArg(names)
    ensures r.e.id == e.id && r.e.destroyed == e.destroyed && r.e.parentStage == e.parentStage
  {
    AddListFrom(reg, e, NormalizeArg(names), 0, firstId)
  }

  /** A single registered name the entity does not have is constructed, stored
      under that name, pushed as a name, and announced. */
  lemma AddListAddsFresh(reg: Registry, e: Entity, name: string, firstId: ObjId)
    requires !HasComponent(e, name) && name in reg
    requires ',' !in name && forall c :: c in name ==> !IsWhitespace(c)
    ensures var r := AddComponentList(reg, e, Text(name), firstId);
            && r.e.active == e.active + [ByName(name)]
            && name in r.e.slots && r.e.slots[name] == CompSlot(Component(firstId, reg[name].typeName, e.id, reg[name].spec))
            && r.effects == (if reg[name].spec.hasAdded then [Hook(firstId, "added", NoData)] else []) +
                            [Emit(e.id, "addComponent", Obj(firstId))]
  {
    NormalizeNames([name]);
    assert Join([name]) == name;
    var items := NormalizeArg(Text(name));
    assert items == [Text(name)];
    var s1 := AddListItem(reg, e, Text(name), firstId);
    assert AddListFrom(reg, s1.e, items, 1, firstId) == Step(s1.e, []);
    assert s1.effects + [] == s1.effects;
  }

  /** A single name that is already present, or not registered, changes nothing. */
  lemma AddListSkips(reg: Registry, e: Entity, name: string, firstId: ObjId)
    requires HasComponent(e, name) || name !in reg
    requires ',' !in name && forall c :: c in name ==> !IsWhitespace(c)
    ensures AddComponentList(reg, e, Text(name), firstId) == Step(e, [])
  {
    NormalizeNames([name]);
    assert Join([name]) == name;
    var items := NormalizeArg(Text(name));
    assert items == [Text(name)];
    assert AddListItem(reg, e, Text(name), firstId) == Step(e, []);
    assert AddListFrom(reg, e, items, 1, firstId) == Step(e, []);
  }

  /** No class registered under a listed name brings, through its `extend`
      values, a property named after another listed name. */
  ghost predicate ExtendsAvoidList(reg: Registry, items: seq<Arg>)
  {
    forall n, m :: Text(n) in items && Text(m) in items && n in reg && m != n ==> m !in reg[n].spec.extend
  }

  /** The names `addComponentList` should add, read from the end of the list:
      a listed string that is registered, that the entity did not have, and
      that no earlier item already names. */
  function FreshNames(reg: Registry, e: Entity, items: seq<Arg>): (r: seq<string>)
    decreases |items|
  {
    if items == [] then []
    else
      var init := items[..|items| - 1];
      var last := items[|items| - 1];
      var rest := FreshNames(reg, e, init);
      if last.Text? && last.s in reg && !HasComponent(e, last.s) && last !in init then rest + [last.s] else rest
  }

  function ByNames(names: seq<string>): (r: seq<ActiveEntry>)
    ensures |r| == |names| && forall i :: 0 <= i < |r| ==> r[i] == ByName(names[i])
  {
    if names == [] then [] else [ByName(names[0])] + ByNames(names[1..])
  }

  lemma ByNamesSnoc(names: seq<string>, n: string)
    ensures ByNames(names + [n]) == ByNames(names) + [ByName(n)]
  {
  }

  /** The fresh names of one more item: the item's name is appended when it
      is a registered string the entity lacks and not listed before. */
  lemma FreshNamesStep(reg: Registry, e0: Entity, items: seq<Arg>, i: nat)
    requires i < |items|
    ensures var item := items[i];
            FreshNames(reg, e0, items[..i + 1]) ==
              FreshNames(reg, e0, items[..i]) +
              (if item.Text? && item.s in reg && !HasComponent(e0, item.s) && item !in items[..i] then [item.s] else [])
  {
    assert items[..i + 1][..i] == items[..i];
  }

  /** What the entity has, for the listed names, after the first `i` items. */
  ghost predicate HasAfter(reg: Registry, e0: Entity, e: Entity, items: seq<Arg>, i: nat)
    requires i <= |items|
  {
    forall m :: Text(m) in items ==>
      (HasComponent(e, m) <==> HasComponent(e0, m) || (m in reg && Text(m) in items[..i]))
  }

  /** One more item keeps `HasAfter`: only the added name's property changes
      among the listed names. */
  lemma {:induction false} ItemKeepsHasAfter(reg: Registry, e0: Entity, e: Entity, items: seq<Arg>, i: nat, cid: ObjId)
    requires i < |items| && ExtendsAvoidList(reg, items) && HasAfter(reg, e0, e, items, i)
    ensures HasAfter(reg, e0, AddListItem(reg, e, items[i], cid).e, items, i + 1)
  {
    var item := items[i];
    var s1 := AddListItem(reg, e, item, cid);
    var pre := items[..i + 1];
    assert forall a :: a in pre <==> a in items[..i] || a == item by {
      assert pre == items[..i] + [item];
    }
    if item.Text? && !HasComponent(e, item.s) && item.s in reg {
      var n := item.s;
      var built := Construct(reg[n], cid, e.id, e.slots, NoData);
      assert s1.e.slots == built.slots[n := CompSlot(built.comp)];
      forall m | Text(m) in items
        ensures HasComponent(s1.e, m) <==> HasComponent(e0, m) || (m in reg && Text(m) in pre)
      {
        if m != n {
          assert m !in reg[n].spec.extend;
        }
      }
    } else {
      assert s1 == Step(e, []);
    }
  }

  /** One more item extends the active list by exactly that item's fresh name,
      if it has one. */
  lemma {:induction false} ItemAppendsFresh(reg: Registry, e0: Entity, e: Entity, items: seq<Arg>, i: nat, cid: ObjId)
    requires i < |items| && HasAfter(reg, e0, e, items, i)
    requires e.active == e0.active + ByNames(FreshNames(reg, e0, items[..i]))
    ensures AddListItem(reg, e, items[i], cid).e.active == e0.active + ByNames(FreshNames(reg, e0, items[..i + 1]))
  {
    var item := items[i];
    var done := FreshNames(reg, e0, items[..i]);
    FreshNamesStep(reg, e0, items, i);
    if item.Text? && !HasComponent(e, item.s) && item.s in reg {
      assert item in items;
      assert !HasComponent(e0, item.s) && item !in items[..i];
      ByNamesSnoc(done, item.s);
    } else if item.Text? && item.s in reg {
      assert item in items;
      assert HasComponent(e0, item.s) || item in items[..i];
    }
  }

  /** Processing the items from position `i` on, starting from the entity `e`
      the first `i` items produced out of `e0`, appends exactly the fresh names. */
  lemma {:induction false} AddListFromFresh(reg: Registry, e0: Entity, e: Entity, items: seq<Arg>, i: nat, firstId: ObjId)
    requires i <= |items| && ExtendsAvoidList(reg, items) && HasAfter(reg, e0, e, items, i)
    requires e.active == e0.active + ByNames(FreshNames(reg, e0, items[..i]))
    ensures AddListFrom(reg, e, items, i, firstId).e.active == e0.active + ByNames(FreshNames(reg, e0, items))
    decreases |items| - i
  {
    if i == |items| {
      assert items[..i] == items;
    } else {
      var s1 := AddListItem(reg, e, items[i], firstId + i);
      assert AddListFrom(reg, e, items, i, firstId).e == AddListFrom(reg, s1.e, items, i + 1, firstId).e;
      ItemAppendsFresh(reg, e0, e, items, i, firstId + i);
      ItemKeepsHasAfter(reg, e0, e, items, i, firstId + i);
      AddListFromFresh(reg, e0, s1.e, items, i + 1, firstId);
    }
  }

  /** `addComponentList` appends to the active list exactly the fresh names,
      in list order: a name listed twice is added once, and a name present or
      unregistered is skipped, whatever the other names are. */
  lemma {:induction false} AddListAppendsFresh(reg: Registry, e: Entity, names: Arg, firstId: ObjId)
    requires ExtendsAvoidList(reg, NormalizeArg(names))
    ensures AddComponentList(reg, e, names, firstId).e.active == e.active + ByNames(FreshNames(reg, e, NormalizeArg(names)))
  {
    var items := NormalizeArg(names);
    assert items[..0] == [];
    assert HasAfter(reg, e, e, items, 0);
    AddListFromFresh(reg, e, e, items, 0, firstId);
  }

  /** A comma-joined pair of clean names normalises to the two names. */
  lemma NormalizePair(a: string, b: string)
    requires ',' !in a && ',' !in b
    requires forall c :: c in a + b ==> !IsWhitespace(c)
    ensures NormalizeArg(Text(a + "," + b)) == [Text(a), Text(b)]
  {
    assert forall c :: c in a ==> c in a + b;
    assert forall c :: c in b ==> c in a + b;
    NormalizeNames([a, b]);
    assert Join([a, b]) == a + "," + b;
  }

  lemma PairAvoids(reg: Registry, a: string, b: string)
    requires a in reg && b in reg && a !in reg[b].spec.extend && b !in reg[a].spec.extend
    ensures ExtendsAvoidList(reg, [Text(a), Text(b)])
  {
  }

  lemma PairFresh(reg: Registry, e: Entity, a: string, b: string)
    requires a in reg && b in reg && a != b && !HasComponent(e, a) && !HasComponent(e, b)
    ensures FreshNames(reg, e, [Text(a), Text(b)]) == [a, b]
  {
    var ab := [Text(a), Text(b)];
    FreshNamesStep(reg, e, ab, 0);
    FreshNamesStep(reg, e, ab, 1);
    assert ab[..0] == [] && ab[..1] == [Text(a)] && ab[..2] == ab;
  }

  /** With two registered names the entity lacks, "a,b" adds both, in order. */
  lemma AddListPair(reg: Registry, e: Entity, a: string, b: string, firstId: ObjId)
    requires a in reg && b in reg && a != b && !HasComponent(e, a) && !HasComponent(e, b)
    requires a !in reg[b].spec.extend && b !in reg[a].spec.extend
    requires ',' !in a && ',' !in b
    requires forall c :: c in a + b ==> !IsWhitespace(c)
    ensures AddComponentList(reg, e, Text(a + "," + b), firstId).e.active == e.active + [ByName(a), ByName(b)]
  {
    NormalizePair(a, b);
    var ab := [Text(a), Text(b)];
    PairAvoids(reg, a, b);
    PairFresh(reg, e, a, b);
    AddListAppendsFresh(reg, e, Text(a + "," + b), firstId);
  }

  lemma TwiceFresh(reg: Registry, e: Entity, a: string)
    requires a in reg && !HasComponent(e, a)
    ensures ExtendsAvoidList(reg, [Text(a), Text(a)])
    ensures FreshNames(reg, e, [Text(a), Text(a)]) == [a]
  {
    var aa := [Text(a), Text(a)];
    FreshNamesStep(reg, e, aa, 0);
    FreshNamesStep(reg, e, aa, 1);
    assert aa[..0] == [] && aa[..1] == [Text(a)] && aa[..2] == aa;
  }

  /** A registered name the entity lacks, listed twice as "a,a", is added once. */
  lemma AddListTwiceOnce(reg: Registry, e: Entity, a: string, firstId: ObjId)
    requires a in reg && !HasComponent(e, a)
    requires ',' !in a && forall c :: c in a ==> !IsWhitespace(c)
    ensures AddComponentList(reg, e, Text(a + "," + a), firstId).e.active == e.active + [ByName(a)]
  {
    NormalizePair(a, a);
    TwiceFresh(reg, e, a);
    AddListAppendsFresh(reg, e, Text(a + "," + a), firstId);
  }

  /** An entity operation that may throw part-way: the entity and the effects
      performed up to its return or its throw, and the fault it threw. */
  datatype Attempt = Attempt(e: Entity, effects: seq<Effect>, fault: Option<Fault>)

  /** One item of `deleteComponent`: a truthy name the entity has is
      announced with `delComponent` and then destroyed; destroying a
      property that is not a component throws, after the announcement. */
  function DeleteItem(e: Entity, item: Arg): (r: Attempt)
    ensures !(item.Text? && item.s != "" && HasComponent(e, item.s)) ==> r == Attempt(e, [], None)
    ensures item.Text? && item.s != "" && HasComponent(e, item.s) && !(item.s in e.slots && e.slots[item.s].CompSlot?) ==>
              r == Attempt(e, [Emit(e.id, "delComponent", Prop(e.id, item.s))], Some(NotAComponent(item.s)))
    ensures item.Text? && item.s != "" && item.s in e.slots && e.slots[item.s].CompSlot? ==>
              var c := e.slots[item.s].comp;
              r.fault.None? && |r.effects| >= 2 && r.effects[0] == Emit(e.id, "delComponent", Obj(c.id)) &&
              r.effects[1] == Debind(c.id) &&
              c.typeName !in r.e.slots &&
              (forall k :: k in c.spec.extend ==> k !in r.e.slots) &&
              (forall k :: k in e.slots && k !in c.spec.extend && k != c.typeName ==> k in r.e.slots && r.e.slots[k] == e.slots[k]) &&
              r.e.inherited == e.inherited &&
              (ByName(c.typeName) !in e.active ==> r.e.active == e.active) &&
              (ByName(c.typeName) in e.active ==>
                 multiset(r.e.active) == multiset(e.active) - multiset{ByName(c.typeName)})
    ensures r.e.id == e.id && r.e.destroyed == e.destroyed && r.e.parentStage == e.parentStage
  {
    if !item.Text? then
      // a truthy non-string name: `this[name]` of an object key is undefined
      Attempt(e, [], None)
    else if item.s == "" || !HasComponent(e, item.s) then Attempt(e, [], None)
    else if item.s in e.slots && e.slots[item.s].CompSlot? then
      var c := e.slots[item.s].comp;
      var d := Components.Destroy(c, e.slots, e.active);
      Attempt(e.(slots := d.slots, active := d.active),
              [Emit(e.id, "delComponent", Obj(c.id))] + d.effects, None)
    else Attempt(e, [Emit(e.id, "delComponent", Prop(e.id, item.s))], Some(NotAComponent(item.s)))
  }

  /** The items from position `i` on, stopping at the first throw; what the
      earlier items did stays done. */
  function DeleteFrom(e: Entity, items: seq<Arg>, i: nat): (r: Attempt)
    requires i <= |items|
    ensures r.e.id == e.id && r.e.destroyed == e.destroyed && r.e.parentStage == e.parentStage
    ensures i < |items| ==>
              var first := DeleteItem(e, items[i]);
              |first.effects| <= |r.effects| && r.effects[..|first.effects|] == first.effects &&
              (first.fault.Some? ==> r == first)
    decreases |items| - i
  {
    if i == |items| then Attempt(e, [], None)
    else
      var s1 := DeleteItem(e, items[i]);
      if s1.fault.Some? then s1
      else
        var s2 := DeleteFrom(s1.e, items, i + 1);
        Attempt(s2.e, s1.effects + s2.effects, s2.fault)
  }

  /** `deleteComponent(names)`. */
  function DeleteComponent(e: Entity, names: Arg): (r: Attempt)
    ensures r.e.id == e.id && r.e.destroyed == e.destroyed && r.e.parentStage == e.parentStage
  {
    DeleteFrom(e, NormalizeArg(names), 0)
  }

  /** Deleting a single name is that one item's deletion: `delComponent` is
      announced and the component destroyed only when the entity has it. */
  lemma DeleteOneName(e: Entity, name: string)
    requires ',' !in name && forall c :: c in name ==> !IsWhitespace(c)
    ensures DeleteComponent(e, Text(name)) == DeleteItem(e, Text(name))
  {
    NormalizeNames([name]);
    assert Join([name]) == name;
    assert NormalizeArg(Text(name)) == [Text(name)];
    var s1 := DeleteItem(e, Text(name));
    if s1.fault.None? {
      assert DeleteFrom(s1.e, [Text(name)], 1) == Attempt(s1.e, [], None);
      assert s1.effects + [] == s1.effects;
    }
  }

  /** The items [a, b] where a names a component and b a truthy property
      that is not one: a is announced and destroyed, b is announced, and then
      the call throws; a's destruction is not undone. */
  lemma {:induction false} DeletePairThenThrow(e: Entity, a: string, b: string)
    requires a != "" && b != "" && a in e.slots && e.slots[a].CompSlot?
    requires b in e.slots && e.slots[b].ValueSlot? && e.slots[b].v.truthy
    requires b !in e.slots[a].comp.spec.extend && b != e.slots[a].comp.typeName
    ensures var c := e.slots[a].comp;
            var r := DeleteFrom(e, [Text(a), Text(b)], 0);
            r.fault == Some(NotAComponent(b)) && |r.effects| >= 3 &&
            r.effects[0] == Emit(e.id, "delComponent", Obj(c.id)) &&
            r.effects[|r.effects| - 1] == Emit(e.id, "delComponent", Prop(e.id, b)) &&
            c.typeName !in r.e.slots
  {
    var items := [Text(a), Text(b)];
    var s1 := DeleteItem(e, Text(a));
    assert s1.fault.None? && s1.e.slots[b] == e.slots[b];
    assert HasComponent(s1.e, b);
    var s2 := DeleteItem(s1.e, Text(b));
    assert s2 == Attempt(s1.e, [Emit(e.id, "delComponent", Prop(e.id, b))], Some(NotAComponent(b)));
    assert DeleteFrom(s1.e, items, 1) == s2;
    assert DeleteFrom(e, items, 0) == Attempt(s2.e, s1.effects + s2.effects, s2.fault);
  }

  /** `deleteComponent("a,b")` for such a and b. */
  lemma DeleteThenThrow(e: Entity, a: string, b: string)
    requires ',' !in a && ',' !in b && forall c :: c in a + b ==> !IsWhitespace(c)
    requires a != "" && b != "" && a in e.slots && e.slots[a].CompSlot?
    requires b in e.slots && e.slots[b].ValueSlot? && e.slots[b].v.truthy
    requires b !in e.slots[a].comp.spec.extend && b != e.slots[a].comp.typeName
    ensures DeleteComponent(e, Text(a + "," + b)) == DeleteFrom(e, [Text(a), Text(b)], 0)
  {
    NormalizePair(a, b);
    DeletePairThenThrow(e, a, b);
  }

  /** Deleting a component added under an alias removes the property named
      after its type, so the alias keeps pointing at the destroyed component
      and `hasComponent(alias)` stays true. */
  lemma AliasSurvivesDelete(reg: Registry, e: Entity, ctype: string, alias: string, cid: ObjId)
    requires alias != "" && alias != ctype && ctype in reg && reg[ctype].typeName == ctype
    requires alias !in reg[ctype].spec.extend
    requires !HasComponent(e, alias)
    ensures var added := AddComponent(reg, e, ctype, NoData, Some(alias), cid).0.e;
            var del := DeleteItem(added, Text(alias));
            del.fault.None? && alias in del.e.slots && del.e.slots[alias].CompSlot? &&
            HasComponent(del.e, alias)
  {
  }

  /** A component added with `addComponent` is pushed as an object, which
      `destroy` never finds by name: the active list keeps the stale entry. */
  lemma ActiveListGoesStale(reg: Registry, e: Entity, ctype: string, cid: ObjId)
    requires ctype != "" && ctype in reg && reg[ctype].typeName == ctype
    requires ctype !in reg[ctype].spec.extend
    requires !HasComponent(e, ctype) && ctype !in e.inherited
    requires ByName(ctype) !in e.active
    ensures var added := AddComponent(reg, e, ctype, NoData, None, cid).0.e;
            var del := DeleteItem(added, Text(ctype));
            del.fault.None? && ByObject(cid) in del.e.active && !HasComponent(del.e, ctype)
  {
    var added := AddComponent(reg, e, ctype, NoData, None, cid).0.e;
    assert added.active == e.active + [ByObject(cid)];
    assert ByName(ctype) !in added.active;
  }

  /** `destroy()`: once only. The first call releases the entity's bindings,
      queues it for removal with its parent stage, emits `removed`, and marks it. */
  function Destroy(e: Entity): (r: Step)
    ensures e.destroyed ==> r == Step(e, [])
    ensures !e.destroyed ==>
              r.e == e.(destroyed := true) &&
              r.effects == [Debind(e.id)] +
                           (if e.parentStage.Some? then [QueueRemoval(e.parentStage.value, e.id)] else []) +
                           [Emit(e.id, "removed", NoData)]
  {
    if e.destroyed then Step(e, [])
    else Step(e.(destroyed := true),
              [Debind(e.id)] +
              (if e.parentStage.Some? then [QueueRemoval(e.parentStage.value, e.id)] else []) +
              [Emit(e.id, "removed", NoData)])
  }

  lemma DestroyIdempotent(e: Entity)
    ensures Destroy(e).e.destroyed
    ensures Destroy(Destroy(e).e) == Step(Destroy(e).e, [])
  {
  }

  /** `transformLocalDirection(x, y)`, given the cosine and sine of the angle. */
  function TransformLocalDirection(cs: real, sn: real, x: real, y: real): (r: (real, real))
    ensures cs * cs + sn * sn == 1.0 ==> r.0 * r.0 + r.1 * r.1 == x * x + y * y
  {
    assert (x * cs - y * sn) * (x * cs - y * sn) + (x * sn + y * cs) * (x * sn + y * cs)
        == (x * x + y * y) * (cs * cs + sn * sn);
    (x * cs - y * sn, x * sn + y * cs)
  }

  /** `transformLocalPosition(x, y)`: the rotated vector placed at the entity's position. */
  function TransformLocalPosition(p: Props, cs: real, sn: real, x: real, y: real): (r: (real, real))
    ensures var d := TransformLocalDirection(cs, sn, x, y);
            r == (p.x + d.0, p.y + d.1)
  {
    (p.x + (x * cs - y * sn), p.y + (x * sn + y * cs))
  }

  /** With no rotation the direction is unchanged and the position is a translation. */
  lemma TransformUnrotated(p: Props, x: real, y: real)
    ensures TransformLocalDirection(1.0, 0.0, x, y) == (x, y)
    ensures TransformLocalPosition(p, 1.0, 0.0, x, y) == (p.x + x, p.y + y)
  {
  }
}

=== FILE: evented.dfy ===
/** The event bus every engine object carries (js_engine/evented.js): a table
    from event name to an ordered list of (context, callback) listeners, and a
    reverse list of bindings on each listening target so that it can unhook
    itself later. Buses of all objects are held in one `World` map, because
    binding and debinding touch two objects at once. */
module Evented {
  import opened Base

  datatype Listener = Listener(ctx: ObjId, cb: Callback)

  /** Reverse record kept on a target: the bus it listens on, the event, the callback. */
  datatype BindRec = BindRec(source: ObjId, event: string, cb: Callback)

  /** `listeners` is None until the first bindEvent creates the table. */
  datatype Bus = Bus(listeners: Option<map<string, seq<Listener>>>, binds: seq<BindRec>)

  type World = map<ObjId, Bus>

  /** How a method name resolves on an object: `target[name]`. */
  type Methods = (ObjId, string) -> Callback

  /** A callback argument: a function value or the name of a method of the target. */
  datatype CallbackArg = Direct(f: Callback) | Named(name: string)

  const EmptyBus: Bus := Bus(None, [])

  function BusOf(w: World, o: ObjId): Bus
  {
    if o in w then w[o] else EmptyBus
  }

  function ListenersOf(w: World, o: ObjId, e: string): seq<Listener>
  {
    var b := BusOf(w, o);
    if b.listeners.Some? && e in b.listeners.value then b.listeners.value[e] else []
  }

  function BindsOf(w: World, o: ObjId): seq<BindRec>
  {
    BusOf(w, o).binds
  }

  // ---------------------------------------------------------------------
  // bindEvent

  function AppendListener(w: World, o: ObjId, e: string, l: Listener): (r: World)
    ensures ListenersOf(r, o, e) == ListenersOf(w, o, e) + [l]
    ensures forall o', e' :: !(o' == o && e' == e) ==> ListenersOf(r, o', e') == ListenersOf(w, o', e')
    ensures forall o' :: BindsOf(r, o') == BindsOf(w, o')
  {
    var b := BusOf(w, o);
    var tbl := b.listeners.GetOr(map[]);
    var prior := if e in tbl then tbl[e] else [];
    w[o := b.(listeners := Some(tbl[e := prior + [l]]))]
  }

  function AppendBind(w: World, t: ObjId, rec: BindRec): (r: World)
    ensures BindsOf(r, t) == BindsOf(w, t) + [rec]
    ensures forall o :: o != t ==> BindsOf(r, o) == BindsOf(w, o)
    ensures forall o, e :: ListenersOf(r, o, e) == ListenersOf(w, o, e)
  {
    var b := BusOf(w, t);
    w[t := b.(binds := b.binds + [rec])]
  }

  /** A falsy callback argument: `undefined`, or the empty method name. */
  predicate FalsyCallback(callback: CallbackArg)
  {
    callback == Direct(Undefined) || callback == Named("")
  }

  /** `self.bindEvent(event, target, callback)`. With no target the bus itself
      is the call context and no reverse binding is recorded; a callback given
      by name is looked up on the target at bind time (and throws without one);
      a falsy callback (missing, or the empty name) shifts the arguments: the
      target takes the callback's place and no target remains, leaving a
      non-function listener on the bus itself and no reverse binding. */
  function BindEvent(w: World, self: ObjId, event: string, target: Option<ObjId>,
                     callback: CallbackArg, methods: Methods): (r: Result<World>)
    ensures r.Err? <==> callback.Named? && callback.name != "" && target.None?
    ensures r.Ok? ==> |ListenersOf(r.value, self, event)| == |ListenersOf(w, self, event)| + 1
    ensures r.Ok? ==> ListenersOf(r.value, self, event)[..|ListenersOf(w, self, event)|] == ListenersOf(w, self, event)
    ensures r.Ok? ==> forall o, e :: !(o == self && e == event) ==> ListenersOf(r.value, o, e) == ListenersOf(w, o, e)
    ensures r.Ok? && target.None? ==>
              && ListenersOf(r.value, self, event)[|ListenersOf(w, self, event)|].ctx == self
              && forall o :: BindsOf(r.value, o) == BindsOf(w, o)
    ensures FalsyCallback(callback) ==>
              && r.Ok?
              && ListenersOf(r.value, self, event)[|ListenersOf(w, self, event)|] == Listener(self, Undefined)
              && forall o :: BindsOf(r.value, o) == BindsOf(w, o)
    ensures r.Ok? && target.Some? && callback.Named? && callback.name != "" ==>
              var f := methods(target.value, callback.name);
              && ListenersOf(r.value, self, event)[|ListenersOf(w, self, event)|] == Listener(target.value, f)
              && BindsOf(r.value, target.value) == BindsOf(w, target.value) + [BindRec(self, event, f)]
              && forall o :: o != target.value ==> BindsOf(r.value, o) == BindsOf(w, o)
    ensures r.Ok? && target.Some? && callback.Direct? && callback.f != Undefined ==>
              && ListenersOf(r.value, self, event)[|ListenersOf(w, self, event)|] == Listener(target.value, callback.f)
              && BindsOf(r.value, target.value) == BindsOf(w, target.value) + [BindRec(self, event, callback.f)]
              && forall o :: o != target.value ==> BindsOf(r.value, o) == BindsOf(w, o)
  {
    if FalsyCallback(callback) then
      // `!callback`: the target slides into the callback slot and the target becomes null
      Ok(AppendListener(w, self, event, Listener(self, Undefined)))
    else if callback.Named? && target.None? then
      Err(NullTarget)
    else
      var f := if callback.Named? then methods(target.value, callback.name) else callback.f;
      var w1 := AppendListener(w, self, event, Listener(target.GetOr(self), f));
      if target.Some? then Ok(AppendBind(w1, target.value, BindRec(self, event, f))) else Ok(w1)
  }

  /** `self.bindEvent(event, target, name)` for a component binding its own
      method on its entity: one listener at the end of the list and one
      reverse record at the end of the target's binds; nothing else changes. */
  function BindMethod(w: World, self: ObjId, event: string, target: ObjId, name: string, methods: Methods): (r: World)
    requires name != ""
    ensures ListenersOf(r, self, event) == ListenersOf(w, self, event) + [Listener(target, methods(target, name))]
    ensures forall o, e :: !(o == self && e == event) ==> ListenersOf(r, o, e) == ListenersOf(w, o, e)
    ensures BindsOf(r, target) == BindsOf(w, target) + [BindRec(self, event, methods(target, name))]
    ensures forall o :: o != target ==> BindsOf(r, o) == BindsOf(w, o)
  {
    var b := BindEvent(w, self, event, Some(target), Named(name), methods);
    var l0 := ListenersOf(w, self, event);
    assert ListenersOf(b.value, self, event) == l0 + [Listener(target, methods(target, name))] by {
      assert ListenersOf(b.value, self, event)[..|l0|] == l0;
    }
    b.value
  }

  // ---------------------------------------------------------------------
  // unbindEvent

  /** Whether listener `l` stays after `unbindEvent(event, target, c)`, where
      `c` is the resolved callback (None when absent or not a function). */
  predicate Survives(l: Listener, target: ObjId, c: Option<Callback>)
  {
    !(l.ctx == target && (c.None? || c.value == l.cb))
  }

  /** The listeners of one event list that survive, in their original order. */
  function Purge(s: seq<Listener>, target: ObjId, c: Option<Callback>): (r: seq<Listener>)
    ensures forall l :: l in r ==> Survives(l, target, c) && l in s
    ensures Subsequence(r, s)
  {
    if s == [] then []
    else
      var rest := Purge(s[1..], target, c);
      assert s == [s[0]] + s[1..];
      if Survives(s[0], target, c) then
        assert ([s[0]] + rest)[1..] == rest;
        [s[0]] + rest
      else
        assert rest != [] ==> rest[0] != s[0];
        rest
  }

  /** Purging keeps every surviving listener as many times as it occurred. */
  lemma {:induction false} PurgeCount(s: seq<Listener>, target: ObjId, c: Option<Callback>, l: Listener)
    requires Survives(l, target, c)
    ensures Count(Purge(s, target, c), l) == Count(s, l)
  {
    if s != [] {
      assert s == [s[0]] + s[1..];
      PurgeCount(s[1..], target, c, l);
    }
  }

  lemma {:induction false} PurgeKeepsAll(s: seq<Listener>, target: ObjId, c: Option<Callback>)
    requires forall l :: l in s ==> Survives(l, target, c)
    ensures Purge(s, target, c) == s
  {
    if s != [] {
      PurgeKeepsAll(s[1..], target, c);
    }
  }

  lemma PurgeCons(x: Listener, s: seq<Listener>, target: ObjId, c: Option<Callback>)
    ensures Purge([x] + s, target, c) == (if Survives(x, target, c) then [x] else []) + Purge(s, target, c)
  {
    assert ([x] + s)[1..] == s;
  }

  /** Purging a concatenation purges each part. */
  lemma {:induction false} PurgeAppend(a: seq<Listener>, b: seq<Listener>, target: ObjId, c: Option<Callback>)
    ensures Purge(a + b, target, c) == Purge(a, target, c) + Purge(b, target, c)
  {
    if a == [] {
      assert a + b == b;
    } else {
      assert (a + b)[0] == a[0];
      assert (a + b)[1..] == a[1..] + b;
      PurgeAppend(a[1..], b, target, c);
    }
  }

  lemma SpliceAt<T>(a: seq<T>, x: T, b: seq<T>)
    ensures (a + [x] + b)[..|a|] + (a + [x] + b)[|a| + 1..] == a + b
  {
    assert (a + [x] + b)[..|a|] == a;
    assert (a + [x] + b)[|a| + 1..] == b;
  }

  lemma SpliceStep(l: seq<Listener>, i: nat, target: ObjId, c: Option<Callback>)
    requires 0 < i <= |l|
    ensures l[..i] + Purge(l[i..], target, c) == l[..i-1] + [l[i-1]] + Purge(l[i..], target, c)
    ensures l[..i-1] + Purge(l[i-1..], target, c)
            == l[..i-1] + (if Survives(l[i-1], target, c) then [l[i-1]] else []) + Purge(l[i..], target, c)
  {
    assert l[..i] == l[..i-1] + [l[i-1]];
    assert l[i-1..] == [l[i-1]] + l[i..];
    PurgeCons(l[i-1], l[i..], target, c);
  }

  /** The splice loop of the source, walking the list backwards so that a
      removal does not shift the entries still to be visited. */
  method SpliceUnbind(l: seq<Listener>, target: ObjId, c: Option<Callback>) returns (r: seq<Listener>)
    ensures r == Purge(l, target, c)
  {
    r := l;
    var i := |l|;
    while i > 0
      invariant 0 <= i <= |l|
      invariant r == l[..i] + Purge(l[i..], target, c)
    {
      SpliceStep(l, i, target, c);
      if !Survives(l[i-1], target, c) {
        SpliceAt(l[..i-1], l[i-1], Purge(l[i..], target, c));
        r := r[..i-1] + r[i..];
      }
      i := i - 1;
    }
  }

  /** Resolves the optional callback argument of unbindEvent; a falsy result is None. */
  function ResolveOptional(callback: Option<CallbackArg>, target: ObjId, methods: Methods): Option<Callback>
  {
    match callback
    case None => None
    case Some(Direct(f)) => if f == Undefined then None else Some(f)
    case Some(Named(n)) => if methods(target, n) == Undefined then None else Some(methods(target, n))
  }

  function UnbindResolved(w: World, self: ObjId, event: string, target: ObjId, c: Option<Callback>): (r: World)
    ensures ListenersOf(r, self, event) == Purge(ListenersOf(w, self, event), target, c)
    ensures forall o, e :: !(o == self && e == event) ==> ListenersOf(r, o, e) == ListenersOf(w, o, e)
    ensures forall o :: BindsOf(r, o) == BindsOf(w, o)
  {
    var b := BusOf(w, self);
    if self in w && b.listeners.Some? && event in b.listeners.value then
      w[self := b.(listeners := Some(b.listeners.value[event := Purge(b.listeners.value[event], target, c)]))]
    else
      w
  }

  /** `self.unbindEvent(event, target, callback?)`: removes exactly the
      listeners whose context is `target` and, when a callback is given, whose
      callback is that one; everything else keeps its relative order. */
  function UnbindEvent(w: World, self: ObjId, event: string, target: ObjId,
                       callback: Option<CallbackArg>, methods: Methods): (r: World)
    ensures forall l :: l in ListenersOf(r, self, event) ==>
              l in ListenersOf(w, self, event) && Survives(l, target, ResolveOptional(callback, target, methods))
    ensures forall l :: Survives(l, target, ResolveOptional(callback, target, methods)) ==>
              Count(ListenersOf(r, self, event), l) == Count(ListenersOf(w, self, event), l)
    ensures Subsequence(ListenersOf(r, self, event), ListenersOf(w, self, event))
    ensures forall o, e :: !(o == self && e == event) ==> ListenersOf(r, o, e) == ListenersOf(w, o, e)
    ensures forall o :: BindsOf(r, o) == BindsOf(w, o)
  {
    var c := ResolveOptional(callback, target, methods);
    assert forall l :: Survives(l, target, c) ==>
             Count(Purge(ListenersOf(w, self, event), target, c), l) == Count(ListenersOf(w, self, event), l) by {
      forall l | Survives(l, target, c) {
        PurgeCount(ListenersOf(w, self, event), target, c, l);
      }
    }
    UnbindResolved(w, self, event, target, c)
  }

  // ---------------------------------------------------------------------
  // unbindAllEvents

  /** `self.unbindAllEvents(event)`; it throws when the object never bound anything. */
  function UnbindAllEvents(w: World, self: ObjId, event: string): (r: Result<World>)
    ensures r.Err? <==> BusOf(w, self).listeners.None?
    ensures r.Ok? ==> ListenersOf(r.value, self, event) == []
    ensures r.Ok? ==> forall o, e :: !(o == self && e == event) ==> ListenersOf(r.value, o, e) == ListenersOf(w, o, e)
    ensures r.Ok? ==> forall o :: BindsOf(r.value, o) == BindsOf(w, o)
  {
    var b := BusOf(w, self);
    if b.listeners.None? then Err(NoListenerTable)
    else Ok(w[self := b.(listeners := Some(b.listeners.value - {event}))])
  }

  // ---------------------------------------------------------------------
  // debindEvents

  /** Some binding in `bs` points at event `e` of bus `o`. */
  predicate Recorded(bs: seq<BindRec>, o: ObjId, e: string)
  {
    exists b :: b in bs && b.source == o && b.event == e
  }

  lemma {:induction false} PurgeTwice(s: seq<Listener>, target: ObjId)
    ensures Purge(Purge(s, target, None), target, None) == Purge(s, target, None)
  {
    PurgeKeepsAll(Purge(s, target, None), target, None);
  }

  /** Unbinding `self` from the bus and event of each record of `bs`, in order. */
  function DebindFrom(w: World, self: ObjId, bs: seq<BindRec>): (r: World)
    ensures forall o :: BindsOf(r, o) == BindsOf(w, o)
    ensures forall o, e :: Recorded(bs, o, e) ==> ListenersOf(r, o, e) == Purge(ListenersOf(w, o, e), self, None)
    ensures forall o, e :: !Recorded(bs, o, e) ==> ListenersOf(r, o, e) == ListenersOf(w, o, e)
    decreases |bs|
  {
    if bs == [] then w
    else
      var w1 := UnbindResolved(w, bs[0].source, bs[0].event, self, None);
      var r := DebindFrom(w1, self, bs[1..]);
      assert forall o, e :: Recorded(bs, o, e) <==>
        (o == bs[0].source && e == bs[0].event) || Recorded(bs[1..], o, e) by {
        forall o, e ensures Recorded(bs, o, e) ==> (o == bs[0].source && e == bs[0].event) || Recorded(bs[1..], o, e) {
          if Recorded(bs, o, e) {
            var b :| b in bs && b.source == o && b.event == e;
            if b != bs[0] {
              assert b in bs[1..];
            }
          }
        }
      }
      PurgeTwice(ListenersOf(w, bs[0].source, bs[0].event), self);
      r
  }

  /** `self.debindEvents()`: asks every bus recorded in `self.binds` to drop
      all of `self`'s listeners for the recorded event. The binds list itself is
      left as it is. */
  function DebindEvents(w: World, self: ObjId): (r: World)
    ensures forall b, l :: b in BindsOf(w, self) && l in ListenersOf(r, b.source, b.event) ==> l.ctx != self
    ensures forall o :: BindsOf(r, o) == BindsOf(w, o)
    ensures forall o, e :: Recorded(BindsOf(w, self), o, e) ==>
              forall l: Listener :: l.ctx != self ==> Count(ListenersOf(r, o, e), l) == Count(ListenersOf(w, o, e), l)
    ensures forall o, e :: !Recorded(BindsOf(w, self), o, e) ==> ListenersOf(r, o, e) == ListenersOf(w, o, e)
  {
    var r := DebindFrom(w, self, BindsOf(w, self));
    assert forall b :: b in BindsOf(w, self) ==> Recorded(BindsOf(w, self), b.source, b.event);
    assert forall o, e, l: Listener :: l.ctx != self ==>
             Count(Purge(ListenersOf(w, o, e), self, None), l) == Count(ListenersOf(w, o, e), l) by {
      forall o, e, l: Listener | l.ctx != self {
        PurgeCount(ListenersOf(w, o, e), self, None, l);
      }
    }
    r
  }

  lemma {:induction false} DebindFromClean(w: World, self: ObjId, bs: seq<BindRec>)
    requires forall b, l :: b in bs && l in ListenersOf(w, b.source, b.event) ==> l.ctx != self
    ensures DebindFrom(w, self, bs) == w
    decreases |bs|
  {
    if bs != [] {
      var b := BusOf(w, bs[0].source);
      PurgeKeepsAll(ListenersOf(w, bs[0].source, bs[0].event), self, None);
      if bs[0].source in w && b.listeners.Some? && bs[0].event in b.listeners.value {
        var tbl := b.listeners.value;
        assert tbl[bs[0].event := tbl[bs[0].event]] == tbl;
        assert b.(listeners := Some(tbl)) == b;
      }
      assert UnbindResolved(w, bs[0].source, bs[0].event, self, None) == w;
      DebindFromClean(w, self, bs[1..]);
    }
  }

  /** Debinding twice changes nothing more than debinding once. */
  lemma DebindIdempotent(w: World, self: ObjId)
    ensures DebindEvents(DebindEvents(w, self), self) == DebindEvents(w, self)
  {
    var w1 := DebindEvents(w, self);
    DebindFromClean(w1, self, BindsOf(w1, self));
  }

  // ---------------------------------------------------------------------
  // The reverse-binding invariant

  /** Every listener registered with a foreign context is mirrored in that
      context's binds, so the context can release it. */
  ghost predicate Mirrored(w: World)
  {
    forall o, e, l :: l in ListenersOf(w, o, e) && l.ctx != o ==> BindRec(o, e, l.cb) in BindsOf(w, l.ctx)
  }

  lemma BindKeepsMirrored(w: World, self: ObjId, event: string, target: Option<ObjId>,
                          callback: CallbackArg, methods: Methods)
    requires Mirrored(w)
    requires BindEvent(w, self, event, target, callback, methods).Ok?
    ensures Mirrored(BindEvent(w, self, event, target, callback, methods).value)
  {
    var r := BindEvent(w, self, event, target, callback, methods).value;
    forall o, e, l | l in ListenersOf(r, o, e) && l.ctx != o
      ensures BindRec(o, e, l.cb) in BindsOf(r, l.ctx)
    {
      var n := |ListenersOf(w, self, event)|;
      if (o, e) == (self, event) {
        var s := ListenersOf(r, o, e);
        var k :| 0 <= k < |s| && s[k] == l;
        if k < n {
          assert s[..n][k] == l;
          assert l in ListenersOf(w, o, e);
        }
      } else {
        assert l in ListenersOf(w, o, e);
      }
    }
  }

  lemma UnbindKeepsMirrored(w: World, self: ObjId, event: string, target: ObjId,
                            callback: Option<CallbackArg>, methods: Methods)
    requires Mirrored(w)
    ensures Mirrored(UnbindEvent(w, self, event, target, callback, methods))
  {
    var r := UnbindEvent(w, self, event, target, callback, methods);
    forall o, e, l | l in ListenersOf(r, o, e) && l.ctx != o
      ensures BindRec(o, e, l.cb) in BindsOf(r, l.ctx)
    {
      assert l in ListenersOf(w, o, e);
    }
  }

  /** In a mirrored world, once `t` has debound, no other bus holds a listener
      whose context is `t`: nothing dangles after `t` is destroyed. */
  lemma DebindLeavesNoDanglingListener(w: World, t: ObjId)
    requires Mirrored(w)
    ensures forall o, e, l :: o != t && l in ListenersOf(DebindEvents(w, t), o, e) ==> l.ctx != t
  {
    var r := DebindEvents(w, t);
    forall o, e, l | o != t && l in ListenersOf(r, o, e)
      ensures l.ctx != t
    {
      if Recorded(BindsOf(w, t), o, e) {
        assert ListenersOf(r, o, e) == Purge(ListenersOf(w, o, e), t, None) by {
          var _ := DebindFrom(w, t, BindsOf(w, t));
        }
      } else {
        assert l in ListenersOf(w, o, e);
      }
    }
  }

  // ---------------------------------------------------------------------
  // triggerEvent

  datatype Call = Call(ctx: ObjId, cb: Callback, payload: Payload)

  /** A listener callback's effect on the live listener list of the event being
      dispatched: given the call index and the list before the call, the list after it. */
  type Reaction = (nat, seq<Listener>) -> seq<Listener>

  /** The dispatch loop: the bound `len` is taken once, but slot `i` is read
      from the live list, which callbacks may have changed. */
  function DispatchFrom(cur: seq<Listener>, i: nat, len: nat, react: Reaction, data: Payload): Result<seq<Call>>
    decreases len - i
  {
    if i >= len then Ok([])
    else if i >= |cur| then Err(UndefinedSlot(i))
    else if cur[i].cb == Undefined then Err(NotCallable(i))
    else
      match DispatchFrom(react(i, cur), i + 1, len, react, data)
      case Ok(rest) => Ok([Call(cur[i].ctx, cur[i].cb, data)] + rest)
      case Err(f) => Err(f)
  }

  /** `self.triggerEvent(event, data)`: the calls made, in order, or the fault. */
  function TriggerEvent(w: World, self: ObjId, event: string, data: Payload, react: Reaction): Result<seq<Call>>
  {
    var l := ListenersOf(w, self, event);
    DispatchFrom(l, 0, |l|, react, data)
  }

  /** Reference meaning of a dispatch: one call per registered listener, in order. */
  function CallsOf(l: seq<Listener>, data: Payload): seq<Call>
  {
    seq(|l|, k requires 0 <= k < |l| => Call(l[k].ctx, l[k].cb, data))
  }

  /** Callbacks that at most append listeners to the event being dispatched. */
  ghost predicate AppendOnly(react: Reaction)
  {
    forall i, s :: s <= react(i, s)
  }

  lemma {:induction false} DispatchSnapshot(l0: seq<Listener>, cur: seq<Listener>, i: nat, react: Reaction, data: Payload)
    requires AppendOnly(react)
    requires i <= |l0| && l0 <= cur
    requires forall k :: 0 <= k < |l0| ==> l0[k].cb != Undefined
    ensures DispatchFrom(cur, i, |l0|, react, data) == Ok(CallsOf(l0, data)[i..])
    decreases |l0| - i
  {
    if i < |l0| {
      var next := react(i, cur);
      assert i < |cur| && cur[i] == l0[i] && cur[i].cb != Undefined;
      assert cur <= next;
      DispatchSnapshot(l0, next, i + 1, react, data);
      var rest := CallsOf(l0, data)[i + 1..];
      assert DispatchFrom(next, i + 1, |l0|, react, data) == Ok(rest);
      assert DispatchFrom(cur, i, |l0|, react, data) == Ok([Call(cur[i].ctx, cur[i].cb, data)] + rest);
      assert CallsOf(l0, data)[i..] == [Call(l0[i].ctx, l0[i].cb, data)] + rest;
    } else {
      assert CallsOf(l0, data)[i..] == [];
    }
  }

  /** When callbacks at most add listeners, every listener registered when
      the dispatch started is called once, in registration order, with the
      payload, and none added during the dispatch is called. */
  lemma TriggerCallsSnapshot(w: World, self: ObjId, event: string, data: Payload, react: Reaction)
    requires AppendOnly(react)
    requires forall l :: l in ListenersOf(w, self, event) ==> l.cb != Undefined
    ensures TriggerEvent(w, self, event, data, react) == Ok(CallsOf(ListenersOf(w, self, event), data))
  {
    var l := ListenersOf(w, self, event);
    DispatchSnapshot(l, l, 0, react, data);
  }

  /** Registering the same (context, callback) twice makes it fire twice. */
  lemma DuplicateBindingFiresTwice(w: World, self: ObjId, event: string, t: ObjId, f: nat,
                                   methods: Methods, data: Payload, react: Reaction)
    requires ListenersOf(w, self, event) == []
    requires AppendOnly(react)
    ensures var w1 := BindEvent(w, self, event, Some(t), Direct(Fn(f)), methods).value;
            var w2 := BindEvent(w1, self, event, Some(t), Direct(Fn(f)), methods).value;
            TriggerEvent(w2, self, event, data, react) == Ok([Call(t, Fn(f), data), Call(t, Fn(f), data)])
  {
    var w1 := BindEvent(w, self, event, Some(t), Direct(Fn(f)), methods).value;
    var w2 := BindEvent(w1, self, event, Some(t), Direct(Fn(f)), methods).value;
    assert ListenersOf(w1, self, event) == [Listener(t, Fn(f))];
    assert ListenersOf(w2, self, event) == [Listener(t, Fn(f)), Listener(t, Fn(f))];
    TriggerCallsSnapshot(w2, self, event, data, react);
    assert CallsOf(ListenersOf(w2, self, event), data) == [Call(t, Fn(f), data), Call(t, Fn(f), data)];
  }

  /** A listener that unbinds itself during a dispatch of two listeners makes
      the loop read a slot that no longer exists. */
  lemma SelfUnbindDuringDispatchFaults(a: Listener, b: Listener, data: Payload)
    requires a.cb != Undefined && b.cb != Undefined
    ensures var react: Reaction := (i: nat, s: seq<Listener>) => if i == 0 && |s| > 0 then s[1..] else s;
            DispatchFrom([a, b], 0, 2, react, data) == Err(UndefinedSlot(1))
  {
    var react: Reaction := (i: nat, s: seq<Listener>) => if i == 0 && |s| > 0 then s[1..] else s;
    assert react(0, [a, b]) == [b];
    assert DispatchFrom([b], 1, 2, react, data) == Err(UndefinedSlot(1));
  }
}

=== FILE: input.dfy ===
/** The keyboard and mouse side of the input system (js_engine/module_input.js):
    the key table mapping key codes to game actions, what a key press or
    release does with it, the keyboard enable/disable flags, and the mouse
    position clamp and button flags. DOM handler registration is represented
    by the `keyboardEnabled` flag; the handlers themselves are the functions
    `Keydown` and `Keyup`, called with the pressed key code. */
module Input {
  import opened Base

  /** The system's `keys` object. Its property names are strings, so a numeric
      key code 32 and the string "32" name the same slot; a slot explicitly
      unbound holds `undefined` (None). */
  type KeyTable = map<string, Option<string>>

  /** A key as given to `bindKey`: a name looked up in `KEY_NAMES`, or a code. */
  datatype KeyArg = KeyStr(s: string) | KeyNum(n: nat)

  /** `KEY_NAMES`: the named keys and their codes. */
  const KeyNames: map<string, nat> :=
    map["LEFT" := 37, "RIGHT" := 39, "SPACE" := 32, "UP" := 38, "DOWN" := 40,
        "Z" := 90, "X" := 88, "H" := 72, "F" := 70]

  /** `DEFAULT_KEYS`, in the order its properties are written. */
  const DefaultKeys: seq<(string, string)> :=
    [("LEFT", "left"), ("RIGHT", "right"), ("UP", "up"), ("DOWN", "down"),
     ("SPACE", "fire"), ("Z", "fire"), ("X", "action"), ("H", "hop"), ("F", "fart")]

  /** The input system's keyboard and mouse state. `mouseMiddleDown` starts
      undefined in the source and is read as false here. */
  datatype InputSys = InputSys(
    id: ObjId,
    keyboardSupported: bool,
    keyboardEnabled: bool,
    keys: KeyTable,
    mouseLeftDown: bool,
    mouseMiddleDown: bool,
    mouseRightDown: bool,
    mousePos: (real, real))

  // ---------------------------------------------------------------------------
  // Property names of numbers
  // ---------------------------------------------------------------------------

  function DigitChar(d: nat): char
    requires d < 10
  {
    ('0' as int + d) as char
  }

  /** The decimal text of `n`, which is the property name `keys[n]` uses. */
  function Decimal(n: nat): (r: string)
    ensures |r| >= 1
    ensures forall i :: 0 <= i < |r| ==> '0' <= r[i] <= '9'
    ensures r[|r| - 1] == DigitChar(n % 10)
    ensures n >= 10 <==> |r| >= 2
  {
    if n < 10 then [DigitChar(n)] else Decimal(n / 10) + [DigitChar(n % 10)]
  }

  /** Distinct codes name distinct slots. */
  lemma {:induction false} DecimalInjective(a: nat, b: nat)
    requires Decimal(a) == Decimal(b)
    ensures a == b
  {
    var s := Decimal(a);
    assert a % 10 == b % 10 by {
      assert DigitChar(a % 10) == s[|s| - 1] == DigitChar(b % 10);
    }
    if a >= 10 {
      assert Decimal(a / 10) == s[..|s| - 1] == Decimal(b / 10);
      DecimalInjective(a / 10, b / 10);
    }
  }

  // ---------------------------------------------------------------------------
  // Key bindings
  // ---------------------------------------------------------------------------

  /** `KEY_NAMES[key] || key`: the slot a key argument names. Every code in
      `KEY_NAMES` is non-zero, so a listed name always resolves to its code. */
  function Slot(key: KeyArg): (r: string)
    ensures key.KeyNum? ==> r == Decimal(key.n)
    ensures key.KeyStr? && key.s in KeyNames ==> r == Decimal(KeyNames[key.s])
    ensures key.KeyStr? && key.s !in KeyNames ==> r == key.s
  {
    match key
    case KeyNum(n) => Decimal(n)
    case KeyStr(s) => if s in KeyNames then Decimal(KeyNames[s]) else s
  }

  /** `bindKey(key, name)`: the slot now holds `name`; no other slot changes. */
  function BindKey(keys: KeyTable, key: KeyArg, name: string): (r: KeyTable)
    ensures Slot(key) in r && r[Slot(key)] == Some(name)
    ensures forall s :: s != Slot(key) ==> (s in r <==> s in keys) && (s in keys ==> r[s] == keys[s])
  {
    keys[Slot(key) := Some(name)]
  }

  /** `unbindKey(key)`: the slot now holds `undefined`; no other slot changes. */
  function UnbindKey(keys: KeyTable, key: KeyArg): (r: KeyTable)
    ensures Slot(key) in r && r[Slot(key)] == None
    ensures forall s :: s != Slot(key) ==> (s in r <==> s in keys) && (s in keys ==> r[s] == keys[s])
  {
    keys[Slot(key) := None]
  }

  /** The action a key code is mapped to, when `keys[code]` is truthy. */
  function Action(keys: KeyTable, code: nat): (r: Option<string>)
    ensures r.Some? <==> Decimal(code) in keys && keys[Decimal(code)].Some? && keys[Decimal(code)].value != ""
    ensures r.Some? ==> keys[Decimal(code)] == r
  {
    var s := Decimal(code);
    if s in keys && keys[s].Some? && keys[s].value != "" then keys[s] else None
  }

  /** The bindings of `entries` applied in order, as `_(keys).each` does. */
  function BindAll(keys: KeyTable, entries: seq<(string, string)>): KeyTable
    decreases |entries|
  {
    if entries == [] then keys else BindAll(BindKey(keys, KeyStr(entries[0].0), entries[0].1), entries[1..])
  }

  /** A slot that no entry names keeps its content. */
  lemma {:induction false} BindAllOutside(keys: KeyTable, entries: seq<(string, string)>, s: string)
    requires forall i :: 0 <= i < |entries| ==> Slot(KeyStr(entries[i].0)) != s
    ensures s in BindAll(keys, entries) <==> s in keys
    ensures s in keys ==> BindAll(keys, entries)[s] == keys[s]
    decreases |entries|
  {
    if entries != [] {
      BindAllOutside(BindKey(keys, KeyStr(entries[0].0), entries[0].1), entries[1..], s);
    }
  }

  /** An entry whose slot no later entry names is in force at the end. */
  lemma {:induction false} BindAllLast(keys: KeyTable, entries: seq<(string, string)>, i: nat)
    requires i < |entries|
    requires forall j :: i < j < |entries| ==> Slot(KeyStr(entries[j].0)) != Slot(KeyStr(entries[i].0))
    ensures Slot(KeyStr(entries[i].0)) in BindAll(keys, entries)
    ensures BindAll(keys, entries)[Slot(KeyStr(entries[i].0))] == Some(entries[i].1)
    decreases |entries|, 1
  {
    var k1 := BindKey(keys, KeyStr(entries[0].0), entries[0].1);
    if i == 0 {
      BindAllOutside(k1, entries[1..], Slot(KeyStr(entries[0].0)));
    } else {
      BindAllLastStep(keys, entries, i);
    }
  }

  lemma {:induction false} BindAllLastStep(keys: KeyTable, entries: seq<(string, string)>, i: nat)
    requires 0 < i < |entries|
    requires forall j :: i < j < |entries| ==> Slot(KeyStr(entries[j].0)) != Slot(KeyStr(entries[i].0))
    ensures Slot(KeyStr(entries[i].0)) in BindAll(keys, entries)
    ensures BindAll(keys, entries)[Slot(KeyStr(entries[i].0))] == Some(entries[i].1)
    decreases |entries|, 0
  {
    var k1 := BindKey(keys, KeyStr(entries[0].0), entries[0].1);
    var rest := entries[1..];
    assert rest[i - 1] == entries[i];
    forall j | i - 1 < j < |rest|
      ensures Slot(KeyStr(rest[j].0)) != Slot(KeyStr(rest[i - 1].0))
    {
      assert rest[j] == entries[j + 1];
    }
    BindAllLast(k1, rest, i - 1);
  }

  // ---------------------------------------------------------------------------
  // Keyboard enable / disable
  // ---------------------------------------------------------------------------

  /** `enableKeyboard()`: returns false (Some(false)) and changes nothing when
      the keyboard is unsupported or already enabled; otherwise the handlers
      are registered, the flag is set and the call returns undefined (None). */
  function EnableKeyboard(sys: InputSys): (r: (Option<bool>, InputSys))
    ensures r.0 == Some(false) <==> !sys.keyboardSupported || sys.keyboardEnabled
    ensures r.0 == Some(false) ==> r.1 == sys
    ensures r.0 != Some(false) ==> r.0 == None && r.1.keyboardEnabled && r.1.keys == sys.keys
    ensures r.1.(keyboardEnabled := sys.keyboardEnabled) == sys
  {
    if !sys.keyboardSupported then (Some(false), sys)
    else if sys.keyboardEnabled then (Some(false), sys)
    else (None, sys.(keyboardEnabled := true))
  }

  /** `disableKeyboard()`: nothing when already disabled; otherwise it needs a
      global `engine` (the function reads that undeclared name, so without
      one the call throws a ReferenceError), then empties `keys` and clears
      the flag. `globalEngine` says whether such a global exists. */
  function DisableKeyboard(sys: InputSys, globalEngine: bool): (r: Result<InputSys>)
    ensures !sys.keyboardEnabled ==> r == Ok(sys)
    ensures sys.keyboardEnabled ==> (r.Err? <==> !globalEngine)
    ensures r.Err? ==> r.fault == UndeclaredVariable("engine")
    ensures sys.keyboardEnabled && r.Ok? ==>
              r.value == sys.(keys := map[], keyboardEnabled := false)
  {
    if !sys.keyboardEnabled then Ok(sys)
    else if !globalEngine then Err(UndeclaredVariable("engine"))
    else Ok(sys.(keys := map[], keyboardEnabled := false))
  }

  /** `setKeyboardControls(keys)`: the given bindings, or `DEFAULT_KEYS` when
      none are given, are applied in order and the keyboard is enabled. */
  function SetKeyboardControls(sys: InputSys, given: Option<seq<(string, string)>>): (r: InputSys)
    ensures r.keyboardEnabled <==> sys.keyboardEnabled || sys.keyboardSupported
    ensures r.(keys := sys.keys, keyboardEnabled := sys.keyboardEnabled) == sys
  {
    var entries := given.GetOr(DefaultKeys);
    EnableKeyboard(sys.(keys := BindAll(sys.keys, entries))).1
  }

  /** The codes of the `DEFAULT_KEYS` names, in the same order. */
  const DefaultCodes: seq<nat> := [37, 39, 38, 40, 32, 90, 88, 72, 70]

  lemma DefaultSlots()
    ensures |DefaultKeys| == |DefaultCodes|
    ensures forall i :: 0 <= i < |DefaultKeys| ==> Slot(KeyStr(DefaultKeys[i].0)) == Decimal(DefaultCodes[i])
  {
    forall i | 0 <= i < |DefaultKeys|
      ensures DefaultKeys[i].0 in KeyNames && KeyNames[DefaultKeys[i].0] == DefaultCodes[i]
    {
    }
  }

  lemma DefaultCodesDistinct()
    ensures forall i, j :: 0 <= i < j < |DefaultCodes| ==> DefaultCodes[i] != DefaultCodes[j]
    ensures forall i :: 0 <= i < |DefaultKeys| ==> DefaultKeys[i].1 != ""
  {
  }

  /** Entries naming the slots of distinct codes are all in force at the end. */
  lemma BindAllCodes(keys: KeyTable, entries: seq<(string, string)>, codes: seq<nat>)
    requires |entries| == |codes|
    requires forall i :: 0 <= i < |entries| ==> Slot(KeyStr(entries[i].0)) == Decimal(codes[i])
    requires forall i, j :: 0 <= i < j < |codes| ==> codes[i] != codes[j]
    ensures forall i :: 0 <= i < |entries| ==>
              Decimal(codes[i]) in BindAll(keys, entries) && BindAll(keys, entries)[Decimal(codes[i])] == Some(entries[i].1)
  {
    forall i | 0 <= i < |entries|
      ensures Decimal(codes[i]) in BindAll(keys, entries) && BindAll(keys, entries)[Decimal(codes[i])] == Some(entries[i].1)
    {
      forall j | i < j < |entries|
        ensures Slot(KeyStr(entries[j].0)) != Slot(KeyStr(entries[i].0))
      {
        if Decimal(codes[j]) == Decimal(codes[i]) {
          DecimalInjective(codes[j], codes[i]);
        }
      }
      BindAllLast(keys, entries, i);
    }
  }

  /** Controls naming distinct codes with non-empty actions are all in force
      after `setKeyboardControls`. */
  lemma {:induction false} ControlsInForce(sys: InputSys, given: Option<seq<(string, string)>>,
                                           entries: seq<(string, string)>, codes: seq<nat>)
    requires entries == given.GetOr(DefaultKeys)
    requires |entries| == |codes|
    requires forall i :: 0 <= i < |entries| ==> Slot(KeyStr(entries[i].0)) == Decimal(codes[i])
    requires forall i, j :: 0 <= i < j < |codes| ==> codes[i] != codes[j]
    requires forall i :: 0 <= i < |entries| ==> entries[i].1 != ""
    ensures forall i :: 0 <= i < |entries| ==>
              Action(SetKeyboardControls(sys, given).keys, codes[i]) == Some(entries[i].1)
  {
    var r := SetKeyboardControls(sys, given);
    assert r.keys == BindAll(sys.keys, entries);
    BindAllCodes(sys.keys, entries, codes);
  }

  /** Every default binding is in force after `setKeyboardControls()`. */
  lemma DefaultControls(sys: InputSys)
    ensures forall i :: 0 <= i < |DefaultKeys| ==>
              Action(SetKeyboardControls(sys, None).keys, DefaultCodes[i]) == Some(DefaultKeys[i].1)
  {
    DefaultSlots();
    DefaultCodesDistinct();
    ControlsInForce(sys, None, DefaultKeys, DefaultCodes);
  }

  /** After `setKeyboardControls()`, code 32 (space) and code 90 (Z) both
      mean "fire". */
  lemma DefaultFire(sys: InputSys)
    ensures var k := SetKeyboardControls(sys, None).keys;
            Action(k, 32) == Some("fire") && Action(k, 90) == Some("fire")
  {
    assert DefaultCodes[4] == 32 && DefaultKeys[4].1 == "fire";
    assert DefaultCodes[5] == 90 && DefaultKeys[5].1 == "fire";
    DefaultControls(sys);
  }

  // ---------------------------------------------------------------------------
  // Key handlers
  // ---------------------------------------------------------------------------

  /** What a key handler produces: the engine's `inputs` table and the events
      the input system triggers on itself, in order. */
  datatype KeyOut = KeyOut(inputs: map<string, bool>, effects: seq<Effect>)

  /** The keydown handler for `code`: a mapped code sets `inputs[action]` and
      triggers `action` and then `keydown` with the code; an unmapped code
      changes nothing. */
  function Keydown(sys: InputSys, inputs: map<string, bool>, code: nat): (r: KeyOut)
    ensures Action(sys.keys, code).None? ==> r == KeyOut(inputs, [])
    ensures Action(sys.keys, code).Some? ==>
              var a := Action(sys.keys, code).value;
              a in r.inputs && r.inputs[a] &&
              (forall k :: k != a ==> (k in r.inputs <==> k in inputs) && (k in inputs ==> r.inputs[k] == inputs[k])) &&
              r.effects == [Emit(sys.id, a, NoData), Emit(sys.id, "keydown", KeyCode(code))]
  {
    match Action(sys.keys, code)
    case None => KeyOut(inputs, [])
    case Some(a) => KeyOut(inputs[a := true], [Emit(sys.id, a, NoData), Emit(sys.id, "keydown", KeyCode(code))])
  }

  /** The keyup handler for `code`: a mapped code clears `inputs[action]` and
      triggers `action + "Up"` and then `keyup` with the code. */
  function Keyup(sys: InputSys, inputs: map<string, bool>, code: nat): (r: KeyOut)
    ensures Action(sys.keys, code).None? ==> r == KeyOut(inputs, [])
    ensures Action(sys.keys, code).Some? ==>
              var a := Action(sys.keys, code).value;
              a in r.inputs && !r.inputs[a] &&
              (forall k :: k != a ==> (k in r.inputs <==> k in inputs) && (k in inputs ==> r.inputs[k] == inputs[k])) &&
              r.effects == [Emit(sys.id, a + "Up", NoData), Emit(sys.id, "keyup", KeyCode(code))]
  {
    match Action(sys.keys, code)
    case None => KeyOut(inputs, [])
    case Some(a) => KeyOut(inputs[a := false], [Emit(sys.id, a + "Up", NoData), Emit(sys.id, "keyup", KeyCode(code))])
  }

  /** Binding a code to a non-empty action and pressing it: the action is
      held and `action` then `keydown` are triggered; releasing it clears the
      action and triggers `action + "Up"` then `keyup`. */
  lemma BindThenPress(sys: InputSys, inputs: map<string, bool>, code: nat, action: string)
    requires action != ""
    ensures var s := sys.(keys := BindKey(sys.keys, KeyNum(code), action));
            var d := Keydown(s, inputs, code);
            var u := Keyup(s, d.inputs, code);
            d.inputs[action] && !u.inputs[action] &&
            d.effects + u.effects == [Emit(sys.id, action, NoData), Emit(sys.id, "keydown", KeyCode(code)),
                                      Emit(sys.id, action + "Up", NoData), Emit(sys.id, "keyup", KeyCode(code))]
  {
  }

  /** After `unbindKey`, pressing or releasing that code changes nothing. */
  lemma UnbindThenQuiet(sys: InputSys, inputs: map<string, bool>, code: nat)
    ensures var s := sys.(keys := UnbindKey(sys.keys, KeyNum(code)));
            Keydown(s, inputs, code) == KeyOut(inputs, []) && Keyup(s, inputs, code) == KeyOut(inputs, [])
  {
  }

  /** Binding one code leaves what every other code does unchanged. */
  lemma BindLeavesOtherCodes(sys: InputSys, inputs: map<string, bool>, key: KeyArg, action: string, code: nat)
    requires Slot(key) != Decimal(code)
    ensures var s := sys.(keys := BindKey(sys.keys, key, action));
            Keydown(s, inputs, code) == Keydown(sys, inputs, code) && Keyup(s, inputs, code) == Keyup(sys, inputs, code)
  {
  }

  /** A disabled keyboard has an empty key table: no code triggers anything
      until keys are bound again, even after re-enabling. */
  lemma DisabledIsQuiet(sys: InputSys, inputs: map<string, bool>, code: nat)
    requires sys.keyboardEnabled
    ensures var d := DisableKeyboard(sys, true);
            d.Ok? && !d.value.keyboardEnabled &&
            Keydown(d.value, inputs, code) == KeyOut(inputs, []) &&
            Keydown(EnableKeyboard(d.value).1, inputs, code) == KeyOut(inputs, [])
  {
  }

  /** Enabling twice: the second call reports false and changes nothing. */
  lemma EnableTwice(sys: InputSys)
    requires sys.keyboardSupported && !sys.keyboardEnabled
    ensures var e := EnableKeyboard(sys);
            e.0 == None && EnableKeyboard(e.1) == (Some(false), e.1)
  {
  }

  // ---------------------------------------------------------------------------
  // Mouse
  // ---------------------------------------------------------------------------

  /** `_convertMouseCoordinates` for one axis: the page coordinate minus the
      container offset, clamped to 0 at or below zero and to `size - 1` at or
      beyond the engine's size. */
  function ClampAxis(page: real, offset: real, size: real): (r: real)
    ensures page - offset <= 0.0 ==> r == 0.0
    ensures 0.0 < page - offset < size ==> r == page - offset
    ensures 0.0 < page - offset && size <= page - offset ==> r == size - 1.0
  {
    var v := page - offset;
    if v <= 0.0 then 0.0 else if v >= size then size - 1.0 else v
  }

  /** On an engine at least one unit wide, the clamped coordinate lies on it. */
  lemma ClampOnScreen(page: real, offset: real, size: real)
    requires size >= 1.0
    ensures 0.0 <= ClampAxis(page, offset, size) < size
  {
  }

  /** Clamping is idempotent: a clamped coordinate (taken with no offset) is kept. */
  lemma ClampIdempotent(page: real, offset: real, size: real)
    requires size >= 1.0
    ensures var c := ClampAxis(page, offset, size);
            ClampAxis(c, 0.0, size) == c
  {
  }

  datatype Button = Left | Middle | Right

  /** `MOUSE_LEFT`, `MOUSE_MIDDLE`, `MOUSE_RIGHT`: the button numbers, which
      differ under Internet Explorer. */
  function ButtonCode(b: Button, msie: bool): int
  {
    match b
    case Left => if msie then 1 else 0
    case Middle => if msie then 4 else 1
    case Right => 2
  }

  /** The button an event's `button` number denotes, compared with left, middle, then right. */
  function ButtonOf(button: int, msie: bool): (r: Option<Button>)
    ensures r.Some? ==> ButtonCode(r.value, msie) == button
    ensures r.None? ==> forall b: Button :: ButtonCode(b, msie) != button
  {
    if button == ButtonCode(Left, msie) then Some(Left)
    else if button == ButtonCode(Middle, msie) then Some(Middle)
    else if button == ButtonCode(Right, msie) then Some(Right)
    else None
  }

  function Pressed(sys: InputSys, b: Button): bool
  {
    match b
    case Left => sys.mouseLeftDown
    case Middle => sys.mouseMiddleDown
    case Right => sys.mouseRightDown
  }

  function SetPressed(sys: InputSys, b: Button, v: bool): (r: InputSys)
    ensures Pressed(r, b) == v
    ensures forall c :: c != b ==> Pressed(r, c) == Pressed(sys, c)
    ensures r.keys == sys.keys && r.mousePos == sys.mousePos && r.id == sys.id
  {
    match b
    case Left => sys.(mouseLeftDown := v)
    case Middle => sys.(mouseMiddleDown := v)
    case Right => sys.(mouseRightDown := v)
  }

  function ButtonName(b: Button): string
  {
    match b
    case Left => "left"
    case Middle => "middle"
    case Right => "right"
  }

  /** A mouse event: page coordinates and the button number. */
  datatype MouseEvent = MouseEvent(pageX: real, pageY: real, button: int)

  /** The engine geometry the mouse handlers use: the container's offset on
      the page and the engine's size. */
  datatype Screen = Screen(left: real, top: real, width: real, height: real)

  function Position(e: MouseEvent, scr: Screen): (real, real)
  {
    (ClampAxis(e.pageX, scr.left, scr.width), ClampAxis(e.pageY, scr.top, scr.height))
  }

  /** The `mousemove` handler: the position is updated and `mousemove` is
      triggered with it. */
  function MouseMove(sys: InputSys, e: MouseEvent, scr: Screen): (r: (InputSys, seq<Effect>))
    ensures r.0 == sys.(mousePos := Position(e, scr))
    ensures r.1 == [Emit(sys.id, "mousemove", Point(r.0.mousePos.0, r.0.mousePos.1))]
  {
    var p := Position(e, scr);
    (sys.(mousePos := p), [Emit(sys.id, "mousemove", Point(p.0, p.1))])
  }

  /** The `mousedown` (`down`) or `mouseup` handler: the position is updated,
      `mousedown`/`mouseup` is triggered, and for a known button its own
      event is triggered and its flag set (on down) or cleared (on up); the
      other buttons' flags are untouched. */
  function MouseButton(sys: InputSys, e: MouseEvent, scr: Screen, msie: bool, down: bool): (r: (InputSys, seq<Effect>))
    ensures r.0.mousePos == Position(e, scr) && r.0.keys == sys.keys && r.0.keyboardEnabled == sys.keyboardEnabled
    ensures forall b :: Pressed(r.0, b) == if ButtonOf(e.button, msie) == Some(b) then down else Pressed(sys, b)
    ensures |r.1| >= 1 && r.1[0] == Emit(sys.id, if down then "mousedown" else "mouseup", Point(r.0.mousePos.0, r.0.mousePos.1))
    ensures ButtonOf(e.button, msie).None? <==> |r.1| == 1
    ensures ButtonOf(e.button, msie).Some? ==>
              r.1[1..] == [Emit(sys.id, "mouse" + ButtonName(ButtonOf(e.button, msie).value) + (if down then "down" else "up"),
                                Point(r.0.mousePos.0, r.0.mousePos.1))]
  {
    var p := Position(e, scr);
    var s := sys.(mousePos := p);
    var first := Emit(sys.id, if down then "mousedown" else "mouseup", Point(p.0, p.1));
    match ButtonOf(e.button, msie)
    case None => (s, [first])
    case Some(b) =>
      (SetPressed(s, b, down),
       [first, Emit(sys.id, "mouse" + ButtonName(b) + (if down then "down" else "up"), Point(p.0, p.1))])
  }

  /** Pressing and releasing the same button restores every button flag,
      and leaves the mouse on screen. */
  lemma ClickRestoresFlags(sys: InputSys, e: MouseEvent, scr: Screen, msie: bool)
    requires ButtonOf(e.button, msie).Some? ==> !Pressed(sys, ButtonOf(e.button, msie).value)
    requires scr.width >= 1.0 && scr.height >= 1.0
    ensures var d := MouseButton(sys, e, scr, msie, true);
            var u := MouseButton(d.0, e, scr, msie, false);
            (forall b :: Pressed(u.0, b) == Pressed(sys, b)) &&
            0.0 <= u.0.mousePos.0 < scr.width && 0.0 <= u.0.mousePos.1 < scr.height
  {
    ClampOnScreen(e.pageX, scr.left, scr.width);
    ClampOnScreen(e.pageY, scr.top, scr.height);
  }

  /** Under either button numbering, the three buttons have distinct numbers,
      so one event sets at most one flag. */
  lemma ButtonsDistinct(msie: bool, b: Button, c: Button)
    requires b != c
    ensures ButtonCode(b, msie) != ButtonCode(c, msie)
    ensures ButtonOf(ButtonCode(b, msie), msie) == Some(b)
  {
  }
}

=== FILE: physics.dfy ===
/** The bridge between the rigid-body simulation and the event system
    (js_engine/module_physics.js): the world component that owns the
    simulation, steps it and fans its contact callbacks out as events, and
    the actor component that builds an entity's body from its properties and
    copies the body's position back every step. The simulation itself is
    outside the model: what it reports (contacts, query hits, body positions)
    arrives as parameters, and what the engine asks of it (a step, a body) is
    returned as data. */
module Physics {
  import opened Base
  import opened Evented

  // ---------------------------------------------------------------------------
  // World component
  // ---------------------------------------------------------------------------

  /** The `props` given to the world component, None where a key is absent. */
  datatype WorldOpts = WorldOpts(gravityX: Option<real>, gravityY: Option<real>, scale: Option<real>,
                                 velocityIterations: Option<int>, positionIterations: Option<int>,
                                 doSleep: Option<bool>)

  /** `b2dOptions`: `PhysicsWorldDefaults` overridden by the given options. */
  datatype WorldConfig = WorldConfig(gravityX: real, gravityY: real, scale: real,
                                     velocityIterations: int, positionIterations: int, doSleep: bool)

  const WorldDefaults: WorldConfig := WorldConfig(0.0, 9.8, 1.0, 8, 3, true)

  /** The world component's `added(props)`: the options are the defaults with
      every given key taken over, and the component listens to its stage's
      `step` with `boxStep`. */
  function WorldAdded(opts: WorldOpts, w: World, stage: ObjId, comp: ObjId, methods: Methods): (r: (WorldConfig, World))
    ensures opts == WorldOpts(None, None, None, None, None, None) ==> r.0 == WorldDefaults
    ensures opts.scale.Some? ==> r.0.scale == opts.scale.value
    ensures opts.gravityY.Some? ==> r.0.gravityY == opts.gravityY.value
    ensures opts.scale.None? ==> r.0.scale == 1.0
    ensures opts.gravityY.None? ==> r.0.gravityY == 9.8
    ensures ListenersOf(r.1, stage, "step") == ListenersOf(w, stage, "step") + [Listener(comp, methods(comp, "boxStep"))]
    ensures BindsOf(r.1, comp) == BindsOf(w, comp) + [BindRec(stage, "step", methods(comp, "boxStep"))]
  {
    var d := WorldDefaults;
    var cfg := WorldConfig(opts.gravityX.GetOr(d.gravityX), opts.gravityY.GetOr(d.gravityY), opts.scale.GetOr(d.scale),
                           opts.velocityIterations.GetOr(d.velocityIterations),
                           opts.positionIterations.GetOr(d.positionIterations), opts.doSleep.GetOr(d.doSleep));
    (cfg, BindMethod(w, stage, "step", comp, "boxStep", methods))
  }

  /** The call `boxStep` makes on the simulation. */
  datatype StepCall = StepCall(dt: real, velocityIterations: int, positionIterations: int)

  const MaxStep: real := 1.0 / 20.0

  /** `boxStep(dt)`: the world advances by `dt`, but never by more than 1/20 s. */
  function BoxStep(cfg: WorldConfig, dt: real): (r: StepCall)
    ensures r.dt <= MaxStep
    ensures dt <= MaxStep ==> r.dt == dt
    ensures dt > MaxStep ==> r.dt == MaxStep
    ensures r.velocityIterations == cfg.velocityIterations && r.positionIterations == cfg.positionIterations
  {
    StepCall(if dt > MaxStep then MaxStep else dt, cfg.velocityIterations, cfg.positionIterations)
  }

  /** The clamp is monotone and idempotent: a longer frame never steps the
      world less, and a clamped step is passed through unchanged. */
  lemma BoxStepMonotone(cfg: WorldConfig, dt1: real, dt2: real)
    requires dt1 <= dt2
    ensures BoxStep(cfg, dt1).dt <= BoxStep(cfg, dt2).dt
    ensures BoxStep(cfg, BoxStep(cfg, dt2).dt) == BoxStep(cfg, dt2)
  {
  }

  // ---------------------------------------------------------------------------
  // Contact fan-out
  // ---------------------------------------------------------------------------

  /** What a contact callback did: the events it triggered, in order, and the
      exception that ended it, if any. A participant is the user data of its
      body, None when the body carries none (reading it then throws). */
  datatype Outcome = Outcome(effects: seq<Effect>, fault: Option<Fault>)

  function Participant(o: Option<ObjId>): Payload
  {
    if o.Some? then Obj(o.value) else NoData
  }

  /** `beginContact` (`event` = "contact") and `endContact` ("endContact"):
      the collision record is filled in with no impulse and no sprite, then A
      is told about B, B about A, and the stage gets the whole record. */
  function Contact(event: string, stage: ObjId, a: Option<ObjId>, b: Option<ObjId>): (r: Outcome)
    ensures a.None? ==> r == Outcome([], Some(NullTarget))
    ensures a.Some? && b.None? ==> r == Outcome([Emit(a.value, event, NoData)], Some(NullTarget))
    ensures a.Some? && b.Some? ==>
              r == Outcome([Emit(a.value, event, Obj(b.value)), Emit(b.value, event, Obj(a.value)),
                            Emit(stage, event, ContactRecord(a, b, None, None))], None)
  {
    if a.None? then Outcome([], Some(NullTarget))
    else if b.None? then Outcome([Emit(a.value, event, Participant(b))], Some(NullTarget))
    else Outcome([Emit(a.value, event, Participant(b)), Emit(b.value, event, Participant(a)),
                  Emit(stage, event, ContactRecord(a, b, None, None))], None)
  }

  function BeginContact(stage: ObjId, a: Option<ObjId>, b: Option<ObjId>): Outcome
  {
    Contact("contact", stage, a, b)
  }

  function EndContact(stage: ObjId, a: Option<ObjId>, b: Option<ObjId>): Outcome
  {
    Contact("endContact", stage, a, b)
  }

  /** Between two distinct entities on a third object's stage, a contact
      reaches each participant exactly once, naming the other, and the stage
      once; the begin and end callbacks are the same fan-out under two names. */
  lemma ContactOncePerParticipant(stage: ObjId, a: ObjId, b: ObjId)
    requires a != b && stage != a && stage != b
    ensures var r := BeginContact(stage, Some(a), Some(b));
            r.fault.None? &&
            EmitsOn(r.effects, a) == [("contact", Obj(b))] &&
            EmitsOn(r.effects, b) == [("contact", Obj(a))] &&
            EmitsOn(r.effects, stage) == [("contact", ContactRecord(Some(a), Some(b), None, None))]
    ensures var e := EndContact(stage, Some(a), Some(b));
            EmitsOn(e.effects, a) == [("endContact", Obj(b))] && EmitsOn(e.effects, b) == [("endContact", Obj(a))]
  {
    var r := BeginContact(stage, Some(a), Some(b));
    EmitsOnThree(r.effects[0], r.effects[1], r.effects[2], a);
    EmitsOnThree(r.effects[0], r.effects[1], r.effects[2], b);
    EmitsOnThree(r.effects[0], r.effects[1], r.effects[2], stage);
    var e := EndContact(stage, Some(a), Some(b));
    EmitsOnThree(e.effects[0], e.effects[1], e.effects[2], a);
    EmitsOnThree(e.effects[0], e.effects[1], e.effects[2], b);
  }

  function EmitOn(x: Effect, o: ObjId): seq<(string, Payload)>
  {
    if x.Emit? && x.on == o then [(x.event, x.payload)] else []
  }

  lemma EmitsOnThree(x: Effect, y: Effect, z: Effect, o: ObjId)
    ensures EmitsOn([x, y, z], o) == EmitOn(x, o) + EmitOn(y, o) + EmitOn(z, o)
  {
    assert EmitsOn([z], o) == EmitOn(z, o) by {
      assert [z][1..] == [];
    }
    assert EmitsOn([y, z], o) == EmitOn(y, o) + EmitsOn([z], o) by {
      assert [y, z][1..] == [z];
    }
    assert EmitsOn([x, y, z], o) == EmitOn(x, o) + EmitsOn([y, z], o) by {
      assert [x, y, z][1..] == [y, z];
    }
  }

  /** `postSolve(contact, impulse)`: the record carries the impulse; before
      A's `impulse` event its sprite is B, before B's it is A, and the stage
      then gets the record as B's event left it. */
  function PostSolve(stage: ObjId, a: Option<ObjId>, b: Option<ObjId>, impulse: nat): (r: Outcome)
    ensures a.None? ==> r == Outcome([], Some(NullTarget))
    ensures a.Some? && b.None? ==>
              r == Outcome([Emit(a.value, "impulse", ContactRecord(a, None, Some(impulse), None))], Some(NullTarget))
    ensures a.Some? && b.Some? ==> r.fault.None? && |r.effects| == 3
    ensures a.Some? && b.Some? ==>
              r.effects[0] == Emit(a.value, "impulse", ContactRecord(a, b, Some(impulse), b)) &&
              r.effects[1] == Emit(b.value, "impulse", ContactRecord(a, b, Some(impulse), a)) &&
              r.effects[2] == Emit(stage, "impulse", ContactRecord(a, b, Some(impulse), a))
  {
    var rec := ContactRecord(a, b, Some(impulse), None);
    if a.None? then Outcome([], Some(NullTarget))
    else if b.None? then Outcome([Emit(a.value, "impulse", rec.(sprite := b))], Some(NullTarget))
    else Outcome([Emit(a.value, "impulse", rec.(sprite := b)), Emit(b.value, "impulse", rec.(sprite := a)),
                  Emit(stage, "impulse", rec.(sprite := a))], None)
  }

  /** Every participant's `impulse` record names the other participant as its
      sprite: the record is symmetric in what it tells each side. */
  lemma ImpulseNamesOther(stage: ObjId, a: ObjId, b: ObjId, impulse: nat)
    ensures var r := PostSolve(stage, Some(a), Some(b), impulse);
            forall i :: 0 <= i < 2 ==>
              r.effects[i].Emit? && r.effects[i].payload.ContactRecord? &&
              r.effects[i].payload.sprite.Some? &&
              {r.effects[i].on, r.effects[i].payload.sprite.value} == {a, b}
  {
  }

  // ---------------------------------------------------------------------------
  // Picking
  // ---------------------------------------------------------------------------

  datatype BodyType = StaticBody | KinematicBody | DynamicBody

  /** A fixture the simulation reports as overlapping the query box, in the
      order it reports them: its body's type, whether the query point lies in
      its shape, and its body's user data. */
  datatype Candidate = Candidate(bodyType: BodyType, hit: bool, owner: Option<ObjId>)

  /** The query box around the picked point (in world units): 0.001 on each side. */
  function QueryBox(x: real, y: real, scale: real): (r: ((real, real), (real, real)))
    requires scale != 0.0
    ensures r.0.0 < x / scale < r.1.0 && r.0.1 < y / scale < r.1.1
    ensures r.1.0 - r.0.0 == 0.002 && r.1.1 - r.0.1 == 0.002
  {
    ((x / scale - 0.001, y / scale - 0.001), (x / scale + 0.001, y / scale + 0.001))
  }

  predicate Selectable(c: Candidate)
  {
    c.bodyType != StaticBody && c.hit
  }

  /** The index at which the query callback stops: the first non-static
      fixture containing the point. */
  function PickIndex(cands: seq<Candidate>): (r: Option<nat>)
    ensures r.Some? ==> r.value < |cands| && Selectable(cands[r.value]) &&
                        forall j :: 0 <= j < r.value ==> !Selectable(cands[j])
    ensures r.None? ==> forall j :: 0 <= j < |cands| ==> !Selectable(cands[j])
  {
    if cands == [] then None
    else if Selectable(cands[0]) then Some(0)
    else
      var k := PickIndex(cands[1..]);
      if k.None? then None else Some(k.value + 1)
  }

  /** `getEntityAtPosition(x, y)`: the user data of the first selected body,
      or null. */
  function EntityAtPosition(cands: seq<Candidate>): (r: Option<ObjId>)
    ensures r.Some? ==> exists i :: 0 <= i < |cands| && Selectable(cands[i]) && cands[i].owner == r
    ensures (forall i :: 0 <= i < |cands| ==> !Selectable(cands[i])) ==> r.None?
    ensures r == (if PickIndex(cands).Some? then cands[PickIndex(cands).value].owner else None)
  {
    var k := PickIndex(cands);
    if k.None? then None else cands[k.value].owner
  }

  /** The fixtures a picking query can stop at: the non-static ones. */
  function NonStatic(cands: seq<Candidate>): (r: seq<Candidate>)
    ensures forall c :: c in r <==> c in cands && c.bodyType != StaticBody
  {
    if cands == [] then []
    else (if cands[0].bodyType != StaticBody then [cands[0]] else []) + NonStatic(cands[1..])
  }

  /** Picking past a fixture it cannot stop at gives what picking the rest gives. */
  lemma EntityAtSkipsHead(c: Candidate, rest: seq<Candidate>)
    requires !Selectable(c)
    ensures EntityAtPosition([c] + rest) == EntityAtPosition(rest)
  {
    assert ([c] + rest)[1..] == rest;
  }

  /** Picking stops at a selectable first fixture. */
  lemma EntityAtTakesHead(c: Candidate, rest: seq<Candidate>)
    requires Selectable(c)
    ensures EntityAtPosition([c] + rest) == c.owner
  {
  }

  /** Static bodies play no part in picking: dropping them from what the
      query reports changes nothing. */
  lemma {:induction false} PickIgnoresStatic(cands: seq<Candidate>)
    ensures EntityAtPosition(NonStatic(cands)) == EntityAtPosition(cands)
  {
    if cands != [] {
      var c, rest := cands[0], cands[1..];
      assert cands == [c] + rest;
      PickIgnoresStatic(rest);
      if c.bodyType == StaticBody {
        assert NonStatic(cands) == NonStatic(rest);
        EntityAtSkipsHead(c, rest);
      } else {
        assert NonStatic(cands) == [c] + NonStatic(rest);
        if Selectable(c) {
          EntityAtTakesHead(c, rest);
          EntityAtTakesHead(c, NonStatic(rest));
        } else {
          EntityAtSkipsHead(c, rest);
          EntityAtSkipsHead(c, NonStatic(rest));
        }
      }
    }
  }

  // ---------------------------------------------------------------------------
  // Actor component: body definition
  // ---------------------------------------------------------------------------

  /** The entity properties the actor component reads. */
  datatype ActorProps = ActorProps(
    x: Field<real>, y: Field<real>, angle: Field<real>,
    bodyType: Field<string>,
    density: Field<real>, mass: Field<real>,
    shape: Field<string>,
    shapeWidth: Field<real>, shapeHeight: Field<real>, shapeRadius: Field<real>,
    width: Field<real>, height: Field<real>,
    shapePoints: Field<seq<(real, real)>>,
    id: Field<string>)

  /** Density defaults to 1.0 (`PhysicsEntityDefaults`); mass has no default. */
  function Density(p: ActorProps): Option<real> { Merged(p.density, Some(1.0)) }
  function Mass(p: ActorProps): Option<real> { Merged(p.mass, None) }
  function ShapeKind(p: ActorProps): Option<string> { Merged(p.shape, Some("block")) }

  /** A number's truthiness (NaN is represented by None and is falsy). */
  predicate NumTruthy(o: Option<real>)
  {
    o.Some? && o.value != 0.0
  }

  /** `a || b` on numbers. */
  function NumOr(a: Option<real>, b: Option<real>): (r: Option<real>)
    ensures NumTruthy(a) ==> r == a
    ensures !NumTruthy(a) ==> r == b
  {
    if NumTruthy(a) then a else b
  }

  /** `Math.max(a, b)`; NaN (None) when either is not a number. */
  function NumMax(a: Option<real>, b: Option<real>): (r: Option<real>)
    ensures r.Some? <==> a.Some? && b.Some?
    ensures r.Some? ==> r.value >= a.value && r.value >= b.value && (r.value == a.value || r.value == b.value)
  {
    if a.Some? && b.Some? then Some(if a.value >= b.value then a.value else b.value) else None
  }

  /** `v / scale` where an undefined `v` gives NaN. */
  function Scaled(v: Option<real>, scale: real): Option<real>
    requires scale != 0.0
  {
    if v.Some? then Some(v.value / scale) else None
  }

  /** No mass and no density (each undefined or 0): the body is static. */
  predicate Massless(p: ActorProps)
  {
    (Density(p).None? || Density(p) == Some(0.0)) && (Mass(p).None? || Mass(p) == Some(0.0))
  }

  /** The body type `inserted` chooses. */
  function TypeOf(p: ActorProps): BodyType
  {
    if Massless(p) then StaticBody
    else match Merged(p.bodyType, None)
      case Some(t) => if t == "static" then StaticBody else if t == "kinematic" then KinematicBody else DynamicBody
      case None => DynamicBody
  }

  /** The body is static exactly when it is massless or asks to be static,
      kinematic exactly when it has mass and asks to be kinematic, and
      dynamic otherwise. */
  lemma BodyTypeRule(p: ActorProps)
    ensures TypeOf(p) == StaticBody <==> Massless(p) || Merged(p.bodyType, None) == Some("static")
    ensures TypeOf(p) == KinematicBody <==> !Massless(p) && Merged(p.bodyType, None) == Some("kinematic")
    ensures TypeOf(p) == DynamicBody <==>
              !Massless(p) && Merged(p.bodyType, None) != Some("static") && Merged(p.bodyType, None) != Some("kinematic")
  {
  }

  /** With the density default left in place, a body is never static for
      lack of mass: only an explicit density of 0 or undefined can make it so. */
  lemma DefaultDensityIsNotMassless(p: ActorProps)
    requires p.density.Absent?
    ensures !Massless(p)
  {
  }

  /** The fixture shape, half extents and radius in world units. */
  datatype Shape =
    | Box(halfWidth: Option<real>, halfHeight: Option<real>)
    | Circle(radius: Option<real>)
    | Polygon(points: seq<(real, real)>)
    | NoShape

  /** How the body's mass is set: from a truthy `mass`, or from the fixture's density. */
  datatype MassMode = GivenMass(mass: real) | FromDensity(density: Option<real>)

  /** The body `inserted` creates, with what it is told about its entity. */
  datatype Body = Body(bodyType: BodyType, x: Option<real>, y: Option<real>, shape: Shape,
                       massMode: MassMode, angle: Option<real>, owner: ObjId, bbid: Option<string>)

  /** What `inserted` did: the body (or the exception) and the messages it logged. */
  datatype Inserted = Inserted(body: Result<Body>, effects: seq<Effect>)

  const NoWorldMessage: string :=
    "Cannot insert entity with PhysicsActorComponent to scene without it having a PhysicsWorldComponent!"
  const NoWidthMessage: string := "PhysicsActorComponent: 'block' .shape type requires shape_width property"
  const NoHeightMessage: string := "PhysicsActorComponent: 'block' .shape type requires shape_height property"
  const NoPointsMessage: string := "PhysicsActorComponent: 'polygon' .shape type requires shape_points property"

  /** A block's width and height: `shape_width || width`, `shape_height || height`. */
  function BlockWidth(p: ActorProps): Option<real> { NumOr(Merged(p.shapeWidth, None), Merged(p.width, None)) }
  function BlockHeight(p: ActorProps): Option<real> { NumOr(Merged(p.shapeHeight, None), Merged(p.height, None)) }

  /** A circle's radius: `shape_radius || Math.max(width, height)`. */
  function CircleRadius(p: ActorProps): Option<real>
  {
    NumOr(Merged(p.shapeRadius, None), NumMax(Merged(p.width, None), Merged(p.height, None)))
  }

  /** The fixture shape for the `shape` property, with the messages
      `engineAssert` logs (it logs only for undefined, so a circle's NaN
      radius passes silently); a polygon without points throws. */
  function ShapeOf(p: ActorProps, scale: real): (r: (Result<Shape>, seq<Effect>))
    requires scale != 0.0
    ensures r.0.Err? <==> ShapeKind(p) == Some("polygon") && Merged(p.shapePoints, None).None?
    ensures ShapeKind(p) == Some("block") ==>
              r.0 == Ok(Box(Scaled(BlockWidth(p), 2.0 * scale), Scaled(BlockHeight(p), 2.0 * scale)))
    ensures ShapeKind(p) == Some("block") ==>
              (Logged(NoWidthMessage) in r.1 <==> BlockWidth(p).None?) &&
              (Logged(NoHeightMessage) in r.1 <==> BlockHeight(p).None?)
    ensures ShapeKind(p) == Some("circle") ==> r == (Ok(Circle(Scaled(CircleRadius(p), scale))), [])
    ensures ShapeKind(p) == Some("polygon") && r.0.Ok? ==>
              r.1 == [] && r.0.value.Polygon? && |r.0.value.points| == |Merged(p.shapePoints, None).value|
    ensures ShapeKind(p) == Some("polygon") && r.0.Ok? ==>
              forall i :: 0 <= i < |r.0.value.points| ==>
                r.0.value.points[i].0 * scale == Merged(p.shapePoints, None).value[i].0 &&
                r.0.value.points[i].1 * scale == Merged(p.shapePoints, None).value[i].1
    ensures ShapeKind(p) !in {Some("block"), Some("circle"), Some("polygon")} ==> r == (Ok(NoShape), [])
  {
    var kind := ShapeKind(p);
    if kind == Some("block") then
      var w := BlockWidth(p);
      var h := BlockHeight(p);
      var logs := (if w.None? then [Logged(NoWidthMessage)] else []) + (if h.None? then [Logged(NoHeightMessage)] else []);
      (Ok(Box(Scaled(w, 2.0 * scale), Scaled(h, 2.0 * scale))), logs)
    else if kind == Some("circle") then
      (Ok(Circle(Scaled(CircleRadius(p), scale))), [])
    else if kind == Some("polygon") then
      match Merged(p.shapePoints, None)
      case None => (Err(MissingShapePoints), [Logged(NoPointsMessage)])
      case Some(pts) => (Ok(Polygon(ScalePoints(pts, scale))), [])
    else (Ok(NoShape), [])
  }

  /** Each polygon point divided by the scale. */
  function ScalePoints(pts: seq<(real, real)>, scale: real): (r: seq<(real, real)>)
    requires scale != 0.0
    ensures |r| == |pts|
    ensures forall i :: 0 <= i < |r| ==> r[i].0 * scale == pts[i].0 && r[i].1 * scale == pts[i].1
  {
    if pts == [] then []
    else
      var rest := ScalePoints(pts[1..], scale);
      var q := (pts[0].0 / scale, pts[0].1 / scale);
      assert q.0 * scale == pts[0].0 && q.1 * scale == pts[0].1;
      [q] + rest
  }

  /** `inserted()`: the body built for `entity` in a stage whose world is
      `world`. Without a world the assertion logs and reading its scale
      throws. */
  function Insert(p: ActorProps, world: Option<WorldConfig>, entity: ObjId): (r: Inserted)
    requires world.Some? ==> world.value.scale != 0.0
    ensures world.None? ==> r == Inserted(Err(NullTarget), [Logged(NoWorldMessage)])
    ensures world.Some? ==> (r.body.Err? <==> ShapeKind(p) == Some("polygon") && Merged(p.shapePoints, None).None?)
    ensures r.body.Ok? ==> var b := r.body.value;
              && b.owner == entity
              && b.bodyType == TypeOf(p)
              && b.x == Scaled(Merged(p.x, None), world.value.scale)
              && b.y == Scaled(Merged(p.y, None), world.value.scale)
              && b.shape == ShapeOf(p, world.value.scale).0.value
              && (NumTruthy(Mass(p)) ==> b.massMode == GivenMass(Mass(p).value))
              && (!NumTruthy(Mass(p)) ==> b.massMode == FromDensity(Density(p)))
              && (b.angle.Some? <==> NumTruthy(Merged(p.angle, None)))
  {
    if world.None? then Inserted(Err(NullTarget), [Logged(NoWorldMessage)])
    else
      var scale := world.value.scale;
      var s := ShapeOf(p, scale);
      if s.0.Err? then Inserted(Err(s.0.fault), s.1)
      else
        var mass := Mass(p);
        var angle := Merged(p.angle, None);
        Inserted(Ok(Body(TypeOf(p), Scaled(Merged(p.x, None), scale), Scaled(Merged(p.y, None), scale), s.0.value,
                         if NumTruthy(mass) then GivenMass(mass.value) else FromDensity(Density(p)),
                         if NumTruthy(angle) then angle else None, entity, Merged(p.id, None))), s.1)
  }

  /** A block with only `width`/`height` set takes half of them (in world
      units) as its half extents; a circle with only `width`/`height` takes
      the larger one as its radius. */
  lemma ShapeFallbacks(p: ActorProps, scale: real, w: real, h: real)
    requires scale != 0.0
    requires p.shapeWidth.Absent? && p.shapeHeight.Absent? && p.shapeRadius.Absent?
    requires p.width == Val(w) && p.height == Val(h)
    ensures ShapeKind(p) == Some("block") ==> ShapeOf(p, scale).0 == Ok(Box(Some(w / (2.0 * scale)), Some(h / (2.0 * scale))))
    ensures ShapeKind(p) == Some("circle") ==>
              ShapeOf(p, scale).0 == Ok(Circle(Some((if w >= h then w else h) / scale)))
  {
  }

  // ---------------------------------------------------------------------------
  // Actor component: attachment and step
  // ---------------------------------------------------------------------------

  /** What the actor's `added()` did: the result of building the body right
      away (None when it was deferred) and the bus world after binding. */
  datatype ActorAdded = ActorAdded(inserted: Option<Inserted>, w: World)

  /** `added()`: on an entity already in a stage the body is built at once,
      otherwise the component waits for the entity's `inserted`; it then
      listens to the entity's `step` and `removed`. When building throws,
      nothing is bound. */
  function ActorAdd(p: ActorProps, inStage: bool, world: Option<WorldConfig>, w: World,
                    entity: ObjId, comp: ObjId, methods: Methods): (r: ActorAdded)
    requires world.Some? ==> world.value.scale != 0.0
    ensures r.inserted.Some? <==> inStage
    ensures inStage ==> r.inserted.value == Insert(p, world, entity)
    ensures inStage && r.inserted.value.body.Err? ==> r.w == w
    ensures inStage && r.inserted.value.body.Ok? ==> r.w == BindStepRemoved(w, entity, comp, methods)
    ensures !inStage ==> r.w == BindStepRemoved(Defer(w, entity, comp, methods), entity, comp, methods)
  {
    if inStage then
      var ins := Insert(p, world, entity);
      if ins.body.Err? then ActorAdded(Some(ins), w)
      else ActorAdded(Some(ins), BindStepRemoved(w, entity, comp, methods))
    else
      ActorAdded(None, BindStepRemoved(Defer(w, entity, comp, methods), entity, comp, methods))
  }

  /** Waiting for the entity's `inserted` with the component's `inserted`. */
  function Defer(w: World, entity: ObjId, comp: ObjId, methods: Methods): (r: World)
    ensures ListenersOf(r, entity, "inserted") == ListenersOf(w, entity, "inserted") + [Listener(comp, methods(comp, "inserted"))]
    ensures ListenersOf(r, entity, "step") == ListenersOf(w, entity, "step")
    ensures ListenersOf(r, entity, "removed") == ListenersOf(w, entity, "removed")
    ensures BindsOf(r, comp) == BindsOf(w, comp) + [BindRec(entity, "inserted", methods(comp, "inserted"))]
  {
    BindMethod(w, entity, "inserted", comp, "inserted", methods)
  }

  /** The actor listening to its entity's `step` and then `removed`. */
  function BindStepRemoved(w: World, entity: ObjId, comp: ObjId, methods: Methods): (r: World)
    ensures ListenersOf(r, entity, "inserted") == ListenersOf(w, entity, "inserted")
    ensures ListenersOf(r, entity, "step") == ListenersOf(w, entity, "step") + [Listener(comp, methods(comp, "step"))]
    ensures ListenersOf(r, entity, "removed") == ListenersOf(w, entity, "removed") + [Listener(comp, methods(comp, "removed"))]
    ensures BindsOf(r, comp) == BindsOf(w, comp) + [BindRec(entity, "step", methods(comp, "step")),
                                                  BindRec(entity, "removed", methods(comp, "removed"))]
  {
    var w1 := BindMethod(w, entity, "step", comp, "step", methods);
    BindMethod(w1, entity, "removed", comp, "removed", methods)
  }

  /** Whether or not the entity is in a stage yet, a successful `added()`
      leaves the component listening to `step` and `removed` once each, and
      only the deferred path listens to `inserted`. */
  lemma ActorListens(p: ActorProps, inStage: bool, world: Option<WorldConfig>, w: World,
                     entity: ObjId, comp: ObjId, methods: Methods)
    requires world.Some? ==> world.value.scale != 0.0
    requires inStage ==> Insert(p, world, entity).body.Ok?
    ensures var r := ActorAdd(p, inStage, world, w, entity, comp, methods);
            && ListenersOf(r.w, entity, "step") == ListenersOf(w, entity, "step") + [Listener(comp, methods(comp, "step"))]
            && ListenersOf(r.w, entity, "removed") == ListenersOf(w, entity, "removed") + [Listener(comp, methods(comp, "removed"))]
            && ListenersOf(r.w, entity, "inserted") ==
                 ListenersOf(w, entity, "inserted") + (if inStage then [] else [Listener(comp, methods(comp, "inserted"))])
  {
  }

  /** The actor's `step()`: the body's position (times the world scale) and
      angle are written back to the entity's properties. */
  function ActorStep(p: ActorProps, bodyX: real, bodyY: real, angle: real, scale: real): (r: ActorProps)
    ensures r.x == Val(Times(bodyX, scale)) && r.y == Val(Times(bodyY, scale)) && r.angle == Val(angle)
    ensures r.(x := p.x, y := p.y, angle := p.angle) == p
  {
    p.(x := Val(Times(bodyX, scale)), y := Val(Times(bodyY, scale)), angle := Val(angle))
  }

  /** World units back to pixels. */
  function Times(v: real, scale: real): real
  {
    v * scale
  }

  lemma DivMul(v: real, s: real, q: real)
    requires s != 0.0 && q == v / s
    ensures Times(q, s) == v
  {
  }

  /** A body that has not moved writes back the pixel position it was
      created from: dividing by the world's scale on creation and
      multiplying on step round-trips. */
  lemma PositionRoundTrip(p: ActorProps, cfg: WorldConfig, entity: ObjId, x: real, y: real, angle: real)
    requires cfg.scale != 0.0
    requires p.x == Val(x) && p.y == Val(y)
    requires Insert(p, Some(cfg), entity).body.Ok?
    ensures var b := Insert(p, Some(cfg), entity).body.value;
            b.x.Some? && b.y.Some? &&
            ActorStep(p, b.x.value, b.y.value, angle, cfg.scale).x == p.x &&
            ActorStep(p, b.x.value, b.y.value, angle, cfg.scale).y == p.y
  {
    var b := Insert(p, Some(cfg), entity).body.value;
    assert b.x == Some(x / cfg.scale) && b.y == Some(y / cfg.scale);
    DivMul(x, cfg.scale, b.x.value);
    DivMul(y, cfg.scale, b.y.value);
  }
}

=== FILE: scenes.dfy ===
/** The engine's scene and stage-slot layer (js_engine/module_scenes.js:378-470):
    a table of named scenes, numbered stage slots that the stage game loop
    steps and draws in slot order, and the replacement of a slot's stage. */
module SceneLoop {
  import opened Base
  import opened EngineCore
  import opened Stages

  /** The engine fields this layer uses: the space of stages and entities,
      the scene table, the stage slots (None for a hole or a cleared slot),
      `activeStage`, and the frame clock. */
  datatype Game = Game(sp: Space, scenes: map<string, Scene>, slots: seq<Option<ObjId>>,
                       activeStage: nat, clock: Clock)

  /** Every occupied slot names a stage of the space. */
  ghost predicate SlotsLive(g: Game)
  {
    forall k :: 0 <= k < |g.slots| && g.slots[k].Some? ==> g.slots[k].value in g.sp.stages
  }

  /** A game state with the effects performed to reach it. */
  datatype Played = Played(g: Game, effects: seq<Effect>)

  // ---------------------------------------------------------------------
  // Scenes and slots

  /** `addScene(name, scene)`: the scene is stored under its name (replacing
      any earlier one) and returned. */
  function AddScene(g: Game, name: string, scene: Scene): (r: (Game, Scene))
    ensures r.1 == scene
    ensures r.0 == g.(scenes := r.0.scenes)
    ensures name in r.0.scenes && r.0.scenes[name] == scene
    ensures forall n :: n != name ==> (n in r.0.scenes <==> n in g.scenes) &&
                                      (n in g.scenes ==> r.0.scenes[n] == g.scenes[n])
  {
    (g.(scenes := g.scenes[name := scene]), scene)
  }

  /** `getScene(name)`; None is `undefined`. */
  function GetScene(g: Game, name: string): (r: Option<Scene>)
    ensures r.Some? <==> name in g.scenes
    ensures r.Some? ==> r.value == g.scenes[name]
  {
    if name in g.scenes then Some(g.scenes[name]) else None
  }

  /** A scene added under a name is the one found under it, and the others stay. */
  lemma AddThenGet(g: Game, name: string, scene: Scene, other: string)
    ensures GetScene(AddScene(g, name, scene).0, name) == Some(scene)
    ensures other != name ==> GetScene(AddScene(g, name, scene).0, other) == GetScene(g, other)
  {
  }

  /** `getStage(num)`: slot `num`, or the active slot when none is given.
      A hole, a cleared slot or a slot past the end gives None. */
  function GetStage(g: Game, num: Option<int>): (r: Option<ObjId>)
    ensures var k := if num.Some? then num.value else g.activeStage as int;
            (r.Some? <==> 0 <= k < |g.slots| && g.slots[k].Some?) &&
            (r.Some? ==> g.slots[k] == r)
  {
    var k := if num.Some? then num.value else g.activeStage as int;
    if 0 <= k < |g.slots| then g.slots[k] else None
  }

  /** `n` empty slots: what assigning past the end of the array leaves between. */
  function Holes(n: nat): (r: seq<Option<ObjId>>)
    ensures |r| == n && forall k :: 0 <= k < n ==> r[k].None?
  {
    if n == 0 then [] else [None] + Holes(n - 1)
  }

  /** `stages[num] = stage`, growing the array with holes when `num` is past its end. */
  function PutSlot(slots: seq<Option<ObjId>>, num: nat, sid: ObjId): (r: seq<Option<ObjId>>)
    ensures |r| == if num < |slots| then |slots| else num + 1
    ensures r[num] == Some(sid)
    ensures forall k :: 0 <= k < |slots| && k != num ==> r[k] == slots[k]
    ensures forall k :: |slots| <= k < num ==> r[k].None?
  {
    if num < |slots| then slots[num := Some(sid)]
    else slots + Holes(num - |slots|) + [Some(sid)]
  }

  /** The stage in slot `num`, when there is one to destroy. */
  function Occupant(g: Game, num: nat): Option<ObjId>
  {
    if num < |g.slots| && g.slots[num].Some? && g.slots[num].value in g.sp.stages then g.slots[num] else None
  }

  /** The scene `stageScene` stages: only a name found in the table gives one. */
  function SceneFor(g: Game, sceneName: Option<string>): Option<Scene>
  {
    if sceneName.Some? then GetScene(g, sceneName.value) else None
  }

  /** The space part of `stageScene`: the occupant (if any) is destroyed,
      then the new stage is created. */
  function Replace(sp: Space, occupant: Option<ObjId>, sid: ObjId, scene: Option<Scene>,
                   width: real, height: real): (r: Outcome)
    requires sid !in sp.stages && (occupant.Some? ==> occupant.value in sp.stages)
    ensures r.sp.stages.Keys == sp.stages.Keys + {sid}
  {
    var o1 := if occupant.Some? then DestroyStage(sp, occupant.value) else Outcome(sp, []);
    var o2 := NewStage(o1.sp, sid, scene, width, height);
    Outcome(o2.sp, o1.effects + o2.effects)
  }

  /** `stageScene(sceneName, num)` creating stage `sid` on an engine of size
      `width` x `height`. A name that is absent from the scene table, or not
      given, stages no scene; `num` is the slot after `num || 0`. The stage
      already in that slot is destroyed before the new one is created, and
      when `loop` is null the game loop is started with `loopFn` through
      `setGameLoop` as written, which requests a frame but leaves `loop`
      null until that frame runs. */
  function StageScene(g: Game, sceneName: Option<string>, num: nat, sid: ObjId,
                      width: real, height: real, loopFn: nat, handle: nat): (r: Played)
    requires sid !in g.sp.stages
    ensures r.g.scenes == g.scenes && r.g.activeStage == g.activeStage
    ensures r.g.slots == PutSlot(g.slots, num, sid)
    ensures r.g.sp.stages.Keys == g.sp.stages.Keys + {sid}
    ensures r.g.clock.loop == g.clock.loop
    ensures g.clock.loop.Some? ==> r.g.clock == g.clock
    ensures g.clock.loop.None? ==>
              r.g.clock.wrapper == Some(loopFn) && r.g.clock.last == 0.0 &&
              r.g.clock.pending == g.clock.pending + [FrameRequest(handle, loopFn)]
  {
    var o := Replace(g.sp, Occupant(g, num), sid, SceneFor(g, sceneName), width, height);
    var clock := if g.clock.loop.None? then SetGameLoop(g.clock, loopFn, handle) else g.clock;
    Played(g.(sp := o.sp, slots := PutSlot(g.slots, num, sid), clock := clock), o.effects)
  }

  /** `stageScene` as evidently intended: the loop it starts stores its handle
      and cancels any frame already held, so a single frame chain stays single. */
  function StageSceneIntended(g: Game, sceneName: Option<string>, num: nat, sid: ObjId,
                              width: real, height: real, loopFn: nat, handle: nat): (r: Played)
    requires sid !in g.sp.stages
    ensures r.g.scenes == g.scenes && r.g.activeStage == g.activeStage
    ensures r.g.slots == PutSlot(g.slots, num, sid)
    ensures r.g.sp.stages.Keys == g.sp.stages.Keys + {sid}
    ensures g.clock.loop.Some? ==> r.g.clock == g.clock
    ensures g.clock.loop.None? ==> r.g.clock.loop == Some(handle) && r.g.clock.wrapper == Some(loopFn)
    ensures SingleChain(g.clock) ==> SingleChain(r.g.clock)
  {
    var o := Replace(g.sp, Occupant(g, num), sid, SceneFor(g, sceneName), width, height);
    var clock := if g.clock.loop.None? then SetGameLoopCancelling(g.clock, loopFn, handle) else g.clock;
    assert SingleChain(g.clock) ==> SingleChain(clock) by {
      if SingleChain(g.clock) {
        SingleChainPreserved(g.clock, loopFn, 0.0, handle);
      }
    }
    Played(g.(sp := o.sp, slots := PutSlot(g.slots, num, sid), clock := clock), o.effects)
  }

  /** As written, two `stageScene` calls before the first frame (two slots
      filled from a load callback, say) each find `loop` null and each start
      a frame chain; `pauseGame` then cancels neither. The intended version
      leaves one chain, which `pauseGame` stops. */
  lemma StageTwiceTwoChains(g: Game, s1: ObjId, s2: ObjId, loopFn: nat, h1: nat, h2: nat)
    requires g.clock == InitialClock && s1 !in g.sp.stages && s2 !in g.sp.stages && s1 != s2 && h1 != h2
    ensures var r1 := StageScene(g, None, 0, s1, 320.0, 480.0, loopFn, h1);
            var r2 := StageScene(r1.g, None, 1, s2, 320.0, 480.0, loopFn, h2);
            r2.g.clock.pending == [FrameRequest(h1, loopFn), FrameRequest(h2, loopFn)] &&
            Pause(r2.g.clock).pending == r2.g.clock.pending
    ensures var r1 := StageSceneIntended(g, None, 0, s1, 320.0, 480.0, loopFn, h1);
            var r2 := StageSceneIntended(r1.g, None, 1, s2, 320.0, 480.0, loopFn, h2);
            r2.g.clock.pending == [FrameRequest(h1, loopFn)] && Pause(r2.g.clock).pending == []
  {
    var r1 := StageSceneIntended(g, None, 0, s1, 320.0, 480.0, loopFn, h1);
    assert r1.g.clock == Clock(0.0, Some(h1), Some(loopFn), [FrameRequest(h1, loopFn)]);
    assert Cancel([FrameRequest(h1, loopFn)], Some(h1)) == [];
  }

  /** After `stageScene`, the stage that held the slot is destroyed, the new
      stage carries the scene's options over the defaults, and every
      occupied slot still names a stage. */
  lemma StageSceneReplaces(g: Game, sceneName: Option<string>, num: nat, sid: ObjId,
                           width: real, height: real, loopFn: nat, handle: nat)
    requires sid !in g.sp.stages
    ensures var r := StageScene(g, sceneName, num, sid, width, height, loopFn, handle);
            Occupant(g, num).Some? ==> r.g.sp.stages[Occupant(g, num).value].self.destroyed
    ensures var r := StageScene(g, sceneName, num, sid, width, height, loopFn, handle);
            var scene := SceneFor(g, sceneName);
            var o := if scene.Some? then scene.value.opts else NoOpts;
            var st := r.g.sp.stages[sid];
            st.paused == o.paused.GetOr(false) && st.isVisible == o.isVisible.GetOr(true) &&
            st.sort == SortModeOf(o.sort.GetOr(SortFlag(true))) && st.self == FreshSelf(sid)
    ensures SlotsLive(g) ==> SlotsLive(StageScene(g, sceneName, num, sid, width, height, loopFn, handle).g)
  {
    var occ := Occupant(g, num);
    var scene := SceneFor(g, sceneName);
    var o1 := if occ.Some? then DestroyStage(g.sp, occ.value) else Outcome(g.sp, []);
    var o2 := NewStage(o1.sp, sid, scene, width, height);
    assert Replace(g.sp, occ, sid, scene, width, height).sp == o2.sp;
    if occ.Some? {
      DestroyedStays(o1.sp, sid, scene, width, height, occ.value);
    }
  }

  /** Creating a stage leaves the other stages' own entity parts as they were. */
  lemma DestroyedStays(sp: Space, sid: ObjId, scene: Option<Scene>, width: real, height: real, prev: ObjId)
    requires sid !in sp.stages && prev in sp.stages && sp.stages[prev].self.destroyed
    ensures NewStage(sp, sid, scene, width, height).sp.stages[prev].self.destroyed
  {
    var o := if scene.Some? then scene.value.opts else NoOpts;
    var st := Stage(FreshSelf(sid), [], map[], [], o.paused.GetOr(false), SortModeOf(o.sort.GetOr(SortFlag(true))),
                    o.isVisible.GetOr(true), width / 2.0, height / 2.0);
    var sp0 := sp.(stages := sp.stages[sid := st]);
    if scene.Some? {
      RequestsKeepSelf(sp0, sid, scene.value.setup, prev);
    }
  }

  /** Requests carried out on one stage never touch another stage's own entity part. */
  lemma {:induction false} RequestsKeepSelf(sp: Space, sid: ObjId, rs: seq<Request>, other: ObjId)
    requires sid in sp.stages && other in sp.stages
    ensures other in ApplyRequests(sp, sid, rs).sp.stages
    ensures ApplyRequests(sp, sid, rs).sp.stages[other].self == sp.stages[other].self
    decreases |rs|
  {
    if rs != [] {
      var o1 := ApplyRequest(sp, sid, rs[0]);
      assert o1.sp.stages[other].self == sp.stages[other].self by {
        if rs[0].ent in sp.ents && rs[0].DestroyReq? {
          DestroyEntityQueuesOnly(sp, rs[0].ent);
        }
      }
      RequestsKeepSelf(o1.sp, sid, rs[1..], other);
    }
  }

  /** A stage staged into a slot is the one `getStage` then finds there; a
      stopped loop gets a frame requested, but `loop` stays null until it runs. */
  lemma StageThenGet(g: Game, sceneName: Option<string>, num: nat, sid: ObjId,
                     width: real, height: real, loopFn: nat, handle: nat)
    requires sid !in g.sp.stages
    ensures var r := StageScene(g, sceneName, num, sid, width, height, loopFn, handle);
            GetStage(r.g, Some(num)) == Some(sid) && r.g.clock.loop == g.clock.loop &&
            (g.clock.loop.None? ==> FrameRequest(handle, loopFn) in r.g.clock.pending)
  {
  }

  /** `clearStage(num)`: an occupied slot has its stage destroyed and is emptied;
      any other slot number changes nothing. */
  function ClearStage(g: Game, num: int): (r: Played)
    ensures GetStage(r.g, Some(num)).None?
    ensures |r.g.slots| == |g.slots| && forall k :: 0 <= k < |g.slots| && k != num ==> r.g.slots[k] == g.slots[k]
    ensures r.g.scenes == g.scenes && r.g.activeStage == g.activeStage && r.g.clock == g.clock
    ensures r.g.sp.stages.Keys == g.sp.stages.Keys
    ensures !(0 <= num < |g.slots| && g.slots[num].Some?) ==> r == Played(g, [])
  {
    if 0 <= num < |g.slots| && g.slots[num].Some? then
      var s := g.slots[num].value;
      var o := if s in g.sp.stages then DestroyStage(g.sp, s) else Outcome(g.sp, []);
      Played(g.(sp := o.sp, slots := g.slots[num := None]), o.effects)
    else Played(g, [])
  }

  /** `clearStage` destroys the stage it empties the slot of, and every
      other occupied slot still names a stage. */
  lemma ClearStageDestroys(g: Game, num: int)
    ensures 0 <= num < |g.slots| && g.slots[num].Some? && g.slots[num].value in g.sp.stages ==>
              ClearStage(g, num).g.sp.stages[g.slots[num].value].self.destroyed
    ensures SlotsLive(g) ==> SlotsLive(ClearStage(g, num).g)
  {
    if 0 <= num < |g.slots| && g.slots[num].Some? && g.slots[num].value in g.sp.stages {
      var s := g.slots[num].value;
      assert ClearStage(g, num).g.sp == DestroyStage(g.sp, s).sp;
      DestroyStageSelves(g.sp, s);
    }
  }

  /** Destroys the stages of slots `i..` in slot order. */
  function DestroySlots(sp: Space, slots: seq<Option<ObjId>>, i: nat): (r: Outcome)
    requires i <= |slots|
    ensures r.sp.stages.Keys == sp.stages.Keys
    decreases |slots| - i
  {
    if i == |slots| then Outcome(sp, [])
    else
      var o1 := if slots[i].Some? && slots[i].value in sp.stages then DestroyStage(sp, slots[i].value) else Outcome(sp, []);
      var o2 := DestroySlots(o1.sp, slots, i + 1);
      Outcome(o2.sp, o1.effects + o2.effects)
  }

  /** Destroying the stages of slots `i..` marks each of them destroyed and
      unmarks none. */
  lemma {:induction false} DestroySlotsMarks(sp: Space, slots: seq<Option<ObjId>>, i: nat)
    requires i <= |slots|
    ensures forall s :: s in sp.stages && sp.stages[s].self.destroyed ==>
              DestroySlots(sp, slots, i).sp.stages[s].self.destroyed
    ensures forall k :: i <= k < |slots| && slots[k].Some? && slots[k].value in sp.stages ==>
              DestroySlots(sp, slots, i).sp.stages[slots[k].value].self.destroyed
    decreases |slots| - i
  {
    if i < |slots| {
      var o1 := if slots[i].Some? && slots[i].value in sp.stages then DestroyStage(sp, slots[i].value) else Outcome(sp, []);
      if slots[i].Some? && slots[i].value in sp.stages {
        DestroyStageSelves(sp, slots[i].value);
      }
      DestroySlotsMarks(o1.sp, slots, i + 1);
      var r := DestroySlots(o1.sp, slots, i + 1).sp;
      assert DestroySlots(sp, slots, i).sp == r;
      forall k | i <= k < |slots| && slots[k].Some? && slots[k].value in sp.stages
        ensures r.stages[slots[k].value].self.destroyed
      {
        if k == i {
          assert o1.sp.stages[slots[k].value].self.destroyed;
        }
      }
    }
  }

  /** Destroying one stage marks it destroyed and leaves the others' own entity parts. */
  lemma DestroyStageSelves(sp: Space, sid: ObjId)
    requires sid in sp.stages
    ensures forall s :: s in sp.stages ==>
              DestroyStage(sp, sid).sp.stages[s].self ==
                if s == sid then sp.stages[s].self.(destroyed := true) else sp.stages[s].self
  {
    var r := DestroyStage(sp, sid).sp.stages;
    forall s | s in sp.stages
      ensures r[s].self == if s == sid then sp.stages[s].self.(destroyed := true) else sp.stages[s].self
    {
      if s != sid {
        assert r[sid := sp.stages[sid]][s].(removeList := sp.stages[s].removeList) == sp.stages[s];
      }
    }
  }

  /** `clearStages()`: every occupied slot's stage is destroyed, in slot order,
      and the slot array is emptied. */
  function ClearStages(g: Game): (r: Played)
    ensures r.g.slots == [] && r.g.scenes == g.scenes && r.g.activeStage == g.activeStage && r.g.clock == g.clock
    ensures r.g.sp.stages.Keys == g.sp.stages.Keys
    ensures forall k :: 0 <= k < |g.slots| && g.slots[k].Some? && g.slots[k].value in g.sp.stages ==>
              r.g.sp.stages[g.slots[k].value].self.destroyed
    ensures SlotsLive(r.g)
  {
    var o := DestroySlots(g.sp, g.slots, 0);
    DestroySlotsMarks(g.sp, g.slots, 0);
    Played(g.(sp := o.sp, slots := []), o.effects)
  }

  /** Clearing every stage and then clearing any slot does nothing more. */
  lemma ClearStagesThenClear(g: Game, num: int)
    ensures var c := ClearStages(g).g;
            ClearStage(c, num) == Played(c, []) && GetStage(c, Some(num)).None?
  {
  }

  // ---------------------------------------------------------------------
  // The stage game loop

  /** One slot's turn in a frame: the stage, the effects of its `step(dt)`,
      and those of its `draw` (none without a canvas). */
  datatype Turn = Turn(stage: ObjId, step: seq<Effect>, draw: seq<Effect>)

  /** The stages of slots `i..` that exist, in slot order. */
  function Occupied(slots: seq<Option<ObjId>>, i: nat, keys: set<ObjId>): seq<ObjId>
    requires i <= |slots|
    decreases |slots| - i
  {
    if i == |slots| then []
    else (if slots[i].Some? && slots[i].value in keys then [slots[i].value] else []) + Occupied(slots, i + 1, keys)
  }

  function TurnStages(ts: seq<Turn>): seq<ObjId>
  {
    if ts == [] then [] else [ts[0].stage] + TurnStages(ts[1..])
  }

  function TurnEffects(ts: seq<Turn>): seq<Effect>
  {
    if ts == [] then [] else ts[0].step + ts[0].draw + TurnEffects(ts[1..])
  }

  /** The turns of slots `i..` of a frame, each stage stepped and then drawn
      on the space the turns before it left; `reacts` gives each stage's game code. */
  function RunSlots(sp: Space, slots: seq<Option<ObjId>>, i: nat, dt: real, canvas: Option<Payload>,
                    reacts: ObjId -> Reactor, reorder: Reorder): (r: (Space, seq<Turn>))
    requires i <= |slots|
    ensures r.0.stages.Keys == sp.stages.Keys
    ensures TurnStages(r.1) == Occupied(slots, i, sp.stages.Keys)
    ensures canvas.None? ==> forall k :: 0 <= k < |r.1| ==> r.1[k].draw == []
    decreases |slots| - i
  {
    if i == |slots| then (sp, [])
    else if slots[i].Some? && slots[i].value in sp.stages then
      var sid := slots[i].value;
      var o1 := StepStage(sp, sid, dt, reacts(sid));
      var o2 := if canvas.Some? then Draw(o1.sp, sid, canvas.value, reorder) else Outcome(o1.sp, []);
      var rest := RunSlots(o2.sp, slots, i + 1, dt, canvas, reacts, reorder);
      assert ([Turn(sid, o1.effects, o2.effects)] + rest.1)[1..] == rest.1;
      (rest.0, [Turn(sid, o1.effects, o2.effects)] + rest.1)
    else RunSlots(sp, slots, i + 1, dt, canvas, reacts, reorder)
  }

  /** `stageGameLoop(dt)`: each slot below the length read at the start is
      made the active stage and, when it holds a stage, that stage is stepped
      and then drawn if there is a canvas; the active stage ends at 0.
      Clearing the canvas is drawing plumbing and is not modelled. */
  function StageGameLoop(g: Game, dt: real, canvas: Option<Payload>, reacts: ObjId -> Reactor, reorder: Reorder)
    : (r: (Played, seq<Turn>))
    ensures r.0.g == g.(sp := r.0.g.sp, activeStage := 0)
    ensures r.0.g.sp.stages.Keys == g.sp.stages.Keys
    ensures TurnStages(r.1) == Occupied(g.slots, 0, g.sp.stages.Keys)
    ensures canvas.None? ==> forall k :: 0 <= k < |r.1| ==> r.1[k].draw == []
    ensures r.0.effects == TurnEffects(r.1)
  {
    var run := RunSlots(g.sp, g.slots, 0, dt, canvas, reacts, reorder);
    (Played(g.(sp := run.0, activeStage := 0), TurnEffects(run.1)), run.1)
  }

  /** Stage `sid` is running and `x` is queued with it at least as often as it is listed. */
  ghost predicate Doomed(sp: Space, sid: ObjId, x: ObjId)
  {
    sid in sp.stages && !sp.stages[sid].paused &&
    Count(sp.stages[sid].removeList, x) >= Count(sp.stages[sid].items, x)
  }

  lemma PrefixCount<T>(a: seq<T>, b: seq<T>, x: T)
    requires Prefix(a, b)
    ensures Count(b, x) >= Count(a, x)
  {
    assert b == a + b[|a|..];
  }

  /** Another stage's step and draw keep `x` doomed on stage `sid`. */
  lemma DoomedOthers(a: Space, b: Space, sid: ObjId, x: ObjId)
    requires Doomed(a, sid, x) && sid in b.stages
    requires b.stages[sid].(removeList := a.stages[sid].removeList) == a.stages[sid]
    requires Prefix(a.stages[sid].removeList, b.stages[sid].removeList)
    ensures Doomed(b, sid, x)
  {
    PrefixCount(a.stages[sid].removeList, b.stages[sid].removeList, x);
  }

  /** The turn of one other stage keeps `x` doomed on `sid`. */
  lemma OtherTurnKeepsDoomed(sp: Space, s: ObjId, sid: ObjId, x: ObjId, dt: real, canvas: Option<Payload>,
                             react: Reactor, reorder: Reorder)
    requires s in sp.stages && s != sid && Doomed(sp, sid, x)
    requires forall c :: react(c) == []
    ensures var o1 := StepStage(sp, s, dt, react);
            var o2 := if canvas.Some? then Draw(o1.sp, s, canvas.value, reorder) else Outcome(o1.sp, []);
            Doomed(o2.sp, sid, x)
  {
    var o1 := StepStage(sp, s, dt, react);
    var o2 := if canvas.Some? then Draw(o1.sp, s, canvas.value, reorder) else Outcome(o1.sp, []);
    QuietStepOthers(sp, s, dt, react);
    if canvas.Some? {
      DrawOthers(o1.sp, s, canvas.value, reorder);
      OthersQueueTrans(sp, o1.sp, o2.sp, s);
    }
    assert sid in sp.stages && sid != s;
    DoomedOthers(sp, o2.sp, sid, x);
  }

  /** The turn of `sid` itself draws no `x`, and leaves `x` doomed (with none listed). */
  lemma OwnTurnSkipsRemoved(sp: Space, sid: ObjId, x: ObjId, dt: real, canvas: Option<Payload>,
                            react: Reactor, reorder: Reorder)
    requires Doomed(sp, sid, x) && Permutes(reorder)
    requires forall c :: react(c) == []
    ensures var o1 := StepStage(sp, sid, dt, react);
            var o2 := if canvas.Some? then Draw(o1.sp, sid, canvas.value, reorder) else Outcome(o1.sp, []);
            x !in Drawn(o2.effects) && Doomed(o2.sp, sid, x)
  {
    var o1 := StepStage(sp, sid, dt, react);
    QuietStep(sp, sid, dt, react);
    QuietStepOthers(sp, sid, dt, react);
    assert Count(o1.sp.stages[sid].items, x) == 0;
    if canvas.Some? {
      RemovedNotDrawn(sp, sid, dt, react, canvas.value, reorder, x);
    }
  }

  /** No turn of stage `sid` draws `x`. */
  ghost predicate SkipsIn(ts: seq<Turn>, sid: ObjId, x: ObjId)
  {
    forall k :: 0 <= k < |ts| && ts[k].stage == sid ==> x !in Drawn(ts[k].draw)
  }

  lemma SkipsInCons(t: Turn, ts: seq<Turn>, sid: ObjId, x: ObjId)
    requires SkipsIn(ts, sid, x) && (t.stage == sid ==> x !in Drawn(t.draw))
    ensures SkipsIn([t] + ts, sid, x)
  {
    var all := [t] + ts;
    forall k | 0 <= k < |all| && all[k].stage == sid
      ensures x !in Drawn(all[k].draw)
    {
      if k > 0 {
        assert all[k] == ts[k - 1];
      }
    }
  }

  /** In a frame where game code asks for nothing and comparators only
      reorder, an entity queued for removal with a running stage at least as
      often as it is listed there is drawn in none of that stage's turns. */
  lemma {:induction false} RunSlotsSkipsRemoved(sp: Space, slots: seq<Option<ObjId>>, i: nat, dt: real,
                                                canvas: Option<Payload>, reacts: ObjId -> Reactor,
                                                reorder: Reorder, sid: ObjId, x: ObjId)
    requires i <= |slots|
    requires forall s, c :: reacts(s)(c) == []
    requires Permutes(reorder) && Doomed(sp, sid, x)
    ensures SkipsIn(RunSlots(sp, slots, i, dt, canvas, reacts, reorder).1, sid, x)
    decreases |slots| - i
  {
    if i < |slots| {
      if slots[i].Some? && slots[i].value in sp.stages {
        var s := slots[i].value;
        var o1 := StepStage(sp, s, dt, reacts(s));
        var o2 := if canvas.Some? then Draw(o1.sp, s, canvas.value, reorder) else Outcome(o1.sp, []);
        if s == sid {
          OwnTurnSkipsRemoved(sp, sid, x, dt, canvas, reacts(s), reorder);
        } else {
          OtherTurnKeepsDoomed(sp, s, sid, x, dt, canvas, reacts(s), reorder);
        }
        RunSlotsSkipsRemoved(o2.sp, slots, i + 1, dt, canvas, reacts, reorder, sid, x);
        var rest := RunSlots(o2.sp, slots, i + 1, dt, canvas, reacts, reorder).1;
        SkipsInCons(Turn(s, o1.effects, o2.effects), rest, sid, x);
      } else {
        RunSlotsSkipsRemoved(sp, slots, i + 1, dt, canvas, reacts, reorder, sid, x);
      }
    }
  }

  /** The frame-level form: in a quiet frame, an entity removed from a
      running stage (queued at least as often as listed) is not drawn by
      that stage's turn, however the slots are laid out. */
  lemma FrameSkipsRemoved(g: Game, dt: real, canvas: Option<Payload>, reacts: ObjId -> Reactor,
                          reorder: Reorder, sid: ObjId, x: ObjId)
    requires forall s, c :: reacts(s)(c) == []
    requires Permutes(reorder) && Doomed(g.sp, sid, x)
    ensures var ts := StageGameLoop(g, dt, canvas, reacts, reorder).1;
            forall k :: 0 <= k < |ts| && ts[k].stage == sid ==> x !in Drawn(ts[k].draw)
  {
    RunSlotsSkipsRemoved(g.sp, g.slots, 0, dt, canvas, reacts, reorder, sid, x);
    assert StageGameLoop(g, dt, canvas, reacts, reorder).1 == RunSlots(g.sp, g.slots, 0, dt, canvas, reacts, reorder).1;
  }
}

=== FILE: sprites.dfy ===
/** Sprite sheets and sprite properties (js_engine/module_sprites.js): the
    frame -> pixel arithmetic of a sheet, the width/height defaulting of a
    sprite, what a draw decides to draw, and the engine's sheet registry.
    The canvas calls themselves are not modelled; a draw yields the command
    it would issue. */
module Sprites {
  import opened Base
  import opened Assets

  /** `options` of a sheet, None where a key is absent. */
  datatype SheetOpts = SheetOpts(tilew: Option<real>, tileh: Option<real>, sx: Option<real>, sy: Option<real>,
                                 cols: Option<int>, width: Option<real>, height: Option<real>)

  const NoSheetOpts := SheetOpts(None, None, None, None, None, None, None)

  /** A sprite sheet. `width`/`height` are None where the asset has none;
      `cols` is None where the constructor computed NaN. */
  datatype Sheet = Sheet(name: string, assetName: string, width: Option<real>, height: Option<real>,
                         tilew: real, tileh: real, sx: real, sy: real, cols: Option<int>)

  function AssetWidth(a: AssetObj): Option<real>
  {
    if a.Image? then Some(a.width) else None
  }

  function AssetHeight(a: AssetObj): Option<real>
  {
    if a.Image? then Some(a.height) else None
  }

  /** `new SpriteSheet(name, assetName, options)`: defaults (tiles 64 x 64 at
      0, 0, the asset's size) overridden by the options. `cols` comes from
      the options when truthy; the fallback divides the never-set `this.w`,
      which is NaN. Reading the size of a missing asset, or of one stored as
      null, throws. */
  function NewSheet(name: string, assetName: string, opts: SheetOpts, assets: map<string, AssetObj>): (r: Result<Sheet>)
    ensures r.Err? <==> !Loaded(assets, assetName)
    ensures r.Err? ==> r.fault == MissingAsset(assetName)
    ensures r.Ok? ==> var s := r.value;
              && s.name == name && s.assetName == assetName
              && s.tilew == opts.tilew.GetOr(64.0) && s.tileh == opts.tileh.GetOr(64.0)
              && s.sx == opts.sx.GetOr(0.0) && s.sy == opts.sy.GetOr(0.0)
              && (s.cols.Some? <==> opts.cols.Some? && opts.cols.value != 0)
              && (s.cols.Some? ==> s.cols == opts.cols)
              && s.width == (if opts.width.Some? then opts.width else AssetWidth(assets[assetName]))
  {
    if !Loaded(assets, assetName) then Err(MissingAsset(assetName))
    else
      var a := assets[assetName];
      Ok(Sheet(name, assetName,
               if opts.width.Some? then opts.width else AssetWidth(a),
               if opts.height.Some? then opts.height else AssetHeight(a),
               opts.tilew.GetOr(64.0), opts.tileh.GetOr(64.0), opts.sx.GetOr(0.0), opts.sy.GetOr(0.0),
               if opts.cols.Some? && opts.cols.value != 0 then opts.cols else None))
  }

  // ---------------------------------------------------------------------
  // frameX / frameY

  /** `frameX(frame)` for a sheet of `cols` > 0 columns. */
  function FrameX(f: nat, cols: int, tilew: real, sx: real): real
    requires cols > 0
  {
    (f % cols) as real * tilew + sx
  }

  /** `frameY(frame)`. */
  function FrameY(f: nat, cols: int, tileh: real, sy: real): real
    requires cols > 0
  {
    (f / cols) as real * tileh + sy
  }

  /** The column start of a frame lies within the first row's span. */
  lemma FrameXBounds(f: nat, cols: int, tilew: real, sx: real)
    requires cols > 0 && tilew >= 0.0
    ensures sx <= FrameX(f, cols, tilew, sx) <= sx + (cols - 1) as real * tilew
  {
    var c := f % cols;
    var d := (cols - 1 - c) as real;
    MulNonneg(c as real, tilew);
    MulNonneg(d, tilew);
    assert d * tilew == (cols - 1) as real * tilew - c as real * tilew;
  }

  lemma MulNonneg(a: real, b: real)
    requires a >= 0.0 && b >= 0.0
    ensures a * b >= 0.0
  {
  }

  /** The frame is recovered from its clip position: row times columns plus column. */
  lemma FrameDecomposes(f: nat, cols: int, tilew: real, tileh: real, sx: real, sy: real)
    requires cols > 0 && tilew != 0.0 && tileh != 0.0
    ensures f as real == cols as real * ((FrameY(f, cols, tileh, sy) - sy) / tileh)
                         + (FrameX(f, cols, tilew, sx) - sx) / tilew
  {
    var q := f / cols;
    var c := f % cols;
    assert f == cols * q + c;
    assert (FrameY(f, cols, tileh, sy) - sy) / tileh == q as real;
    assert (FrameX(f, cols, tilew, sx) - sx) / tilew == c as real;
  }

  /** Two frames with the same clip position are the same frame. */
  lemma FrameUnique(f: nat, g: nat, cols: int, tilew: real, tileh: real, sx: real, sy: real)
    requires cols > 0 && tilew != 0.0 && tileh != 0.0
    requires FrameX(f, cols, tilew, sx) == FrameX(g, cols, tilew, sx)
    requires FrameY(f, cols, tileh, sy) == FrameY(g, cols, tileh, sy)
    ensures f == g
  {
    FrameDecomposes(f, cols, tilew, tileh, sx, sy);
    FrameDecomposes(g, cols, tilew, tileh, sx, sy);
  }

  /** The clip origin a sheet computes for a frame; None where `cols` is NaN
      or not positive. */
  function Clip(s: Sheet, f: nat): (r: Option<(real, real)>)
    ensures r.Some? <==> s.cols.Some? && s.cols.value > 0
    ensures r.Some? ==> r.value == (FrameX(f, s.cols.value, s.tilew, s.sx), FrameY(f, s.cols.value, s.tileh, s.sy))
  {
    if s.cols.Some? && s.cols.value > 0 then
      Some((FrameX(f, s.cols.value, s.tilew, s.sx), FrameY(f, s.cols.value, s.tileh, s.sy)))
    else None
  }

  // ---------------------------------------------------------------------
  // Sprite properties

  /** The sprite properties. `assetName`, `sheetName` and `id` are None for
      null or undefined; `width`/`height` are None while undefined. */
  datatype SpriteProps = SpriteProps(x: real, y: real, z: real, angle: real, frame: nat, alpha: real,
                                     isVisible: bool, scale: real,
                                     assetName: Option<string>, sheetName: Option<string>,
                                     id: Option<string>, width: Option<real>, height: Option<real>)

  /** `new SpriteDefaultProperties()`. */
  const SpriteDefaults := SpriteProps(0.0, 0.0, 0.0, 0.0, 0, 1.0, true, 1.0, None, None, None, None, None)

  predicate STruthy(o: Option<string>)
  {
    o.Some? && o.value != ""
  }

  predicate RTruthy(o: Option<real>)
  {
    o.Some? && o.value != 0.0
  }

  /** `a || b` on an optional number. */
  function ROr(a: Option<real>, b: Option<real>): Option<real>
  {
    if RTruthy(a) then a else b
  }

  /** The `engineAssert` message of `getAsset` for a sprite. */
  function NoImageMessage(assetName: string): string
  {
    "Sprite could not find image by assetName: " + assetName
  }

  /** The `engineAssert` message of `getSheet` for a sprite. */
  function NoSheetMessage(sheetName: string): string
  {
    "Sprite could not find spriteSheet by sheetName: " + sheetName
  }

  /** `initialize()`: a truthy id is kept and any other replaced by the
      generated id `newId`; when width or height is missing the missing one comes from
      the asset if an asset name is set, else from the sheet's tile size if
      a sheet name is set. Reading the size of a missing or null asset, or of
      a missing sheet, throws; `engineAssert` logs first when the lookup gave
      undefined, but not for a stored null. */
  function Initialize(p: SpriteProps, assets: map<string, AssetObj>, sheets: map<string, Sheet>, newId: string): (r: (Result<SpriteProps>, seq<Effect>))
    ensures r.0.Err? <==> (!RTruthy(p.width) || !RTruthy(p.height)) &&
                          ((STruthy(p.assetName) && !Loaded(assets, p.assetName.value)) ||
                           (!STruthy(p.assetName) && STruthy(p.sheetName) && p.sheetName.value !in sheets))
    ensures r.0.Ok? ==> r.1 == []
    ensures r.0.Err? && STruthy(p.assetName) ==>
              r.0.fault == MissingAsset(p.assetName.value) &&
              r.1 == (if p.assetName.value in assets then [] else [Logged(NoImageMessage(p.assetName.value))])
    ensures r.0.Err? && !STruthy(p.assetName) ==>
              r.0.fault == MissingSheet(p.sheetName.value) && r.1 == [Logged(NoSheetMessage(p.sheetName.value))]
    ensures r.0.Ok? ==> r.0.value.id == (if STruthy(p.id) then p.id else Some(newId))
    ensures r.0.Ok? ==> RTruthy(p.width) ==> r.0.value.width == p.width
    ensures r.0.Ok? ==> RTruthy(p.height) ==> r.0.value.height == p.height
    ensures r.0.Ok? ==> r.0.value == p.(id := r.0.value.id, width := r.0.value.width, height := r.0.value.height)
  {
    var p1 := p.(id := if STruthy(p.id) then p.id else Some(newId));
    if RTruthy(p.width) && RTruthy(p.height) then (Ok(p1), [])
    else if STruthy(p.assetName) then
      var n := p.assetName.value;
      if n !in assets then (Err(MissingAsset(n)), [Logged(NoImageMessage(n))])
      else if !Truthy(assets[n]) then (Err(MissingAsset(n)), [])
      else
        var a := assets[n];
        (Ok(p1.(width := ROr(p.width, AssetWidth(a)), height := ROr(p.height, AssetHeight(a)))), [])
    else if STruthy(p.sheetName) then
      var n := p.sheetName.value;
      if n !in sheets then (Err(MissingSheet(n)), [Logged(NoSheetMessage(n))])
      else
        var s := sheets[n];
        (Ok(p1.(width := ROr(p.width, Some(s.tilew)), height := ROr(p.height, Some(s.tileh)))), [])
    else (Ok(p1), [])
  }

  /** An asset stored as null (the audio loader's result when sound is off)
      is no asset to a sheet or a sprite: building a sheet on it throws, and
      a sprite sizing itself from it throws without a log. */
  lemma NullAssetFaults(name: string, assetName: string, opts: SheetOpts, assets: map<string, AssetObj>,
                        p: SpriteProps, sheets: map<string, Sheet>, newId: string)
    requires assetName in assets && assets[assetName] == NullObj
    requires p.assetName == Some(assetName) && assetName != "" && p.width == None
    ensures NewSheet(name, assetName, opts, assets) == Err(MissingAsset(assetName))
    ensures Initialize(p, assets, sheets, newId) == (Err(MissingAsset(assetName)), [])
  {
  }

  /** Where the missing size comes from: the asset first, the sheet's tile next. */
  lemma InitializeSizeSource(p: SpriteProps, assets: map<string, AssetObj>, sheets: map<string, Sheet>, newId: string)
    requires !RTruthy(p.width)
    requires Initialize(p, assets, sheets, newId).0.Ok?
    ensures var w := Initialize(p, assets, sheets, newId).0.value.width;
            if STruthy(p.assetName) then w == AssetWidth(assets[p.assetName.value])
            else if STruthy(p.sheetName) then w == Some(sheets[p.sheetName.value].tilew)
            else w == p.width
  {
  }

  /** Initialising twice changes nothing more, whatever the second generated id. */
  lemma InitializeIdempotent(p: SpriteProps, assets: map<string, AssetObj>, sheets: map<string, Sheet>,
                             newId: string, newId2: string)
    requires newId != ""
    requires Initialize(p, assets, sheets, newId).0.Ok?
    ensures Initialize(Initialize(p, assets, sheets, newId).0.value, assets, sheets, newId2) ==
            Initialize(p, assets, sheets, newId)
  {
  }

  // ---------------------------------------------------------------------
  // draw

  /** What a sprite draw issues: nothing, a clipped sheet frame, or a whole
      image. A sheet draw's clip is None where the sheet's `cols` is NaN. */
  datatype DrawCmd =
    | NoDraw
    | SheetFrame(asset: string, clip: Option<(real, real)>, tilew: real, tileh: real,
                 x: real, y: real, width: Option<real>, height: Option<real>, angle: real, alpha: real)
    | WholeImage(asset: string, x: real, y: real, width: Option<real>, height: Option<real>, angle: real, alpha: real)

  function Scaled(v: Option<real>, scale: real): Option<real>
  {
    if v.Some? then Some(v.value * scale) else None
  }

  /** `draw(ctx, posX, posY, angle)`: arguments that are missing or 0 fall
      back to the stored position and angle. `ctx` is whether a truthy
      context was passed and `canvas` whether the engine has one; a sheet
      draws nothing without either. A missing sheet throws, after
      `getSheet`'s `engineAssert` has logged the lookup failure; the second
      component is that log. */
  function Draw(p: SpriteProps, ctx: bool, canvas: bool, posX: Option<real>, posY: Option<real>, angle: Option<real>,
                sheets: map<string, Sheet>): (r: (Result<DrawCmd>, seq<Effect>))
    ensures !p.isVisible ==> r.0 == Ok(NoDraw)
    ensures p.isVisible && STruthy(p.sheetName) ==>
              (r.0.Err? <==> p.sheetName.value !in sheets) &&
              (r.0.Ok? ==> r.0.value.SheetFrame? || (r.0.value.NoDraw? && !ctx && !canvas))
    ensures p.isVisible && !STruthy(p.sheetName) && STruthy(p.assetName) ==> r.0.Ok? && r.0.value.WholeImage?
    ensures p.isVisible && !STruthy(p.sheetName) && !STruthy(p.assetName) ==> r.0 == Ok(NoDraw)
    ensures r.0.Ok? ==> r.1 == []
    ensures r.0.Err? ==> r.0.fault == MissingSheet(p.sheetName.value) && r.1 == [Logged(NoSheetMessage(p.sheetName.value))]
    ensures r.0.Ok? && r.0.value.SheetFrame? ==>
              && r.0.value.width == Scaled(p.width, p.scale) && r.0.value.height == Scaled(p.height, p.scale)
              && r.0.value.clip == Clip(sheets[p.sheetName.value], p.frame)
              && r.0.value.asset == sheets[p.sheetName.value].assetName
    ensures r.0.Ok? && r.0.value.WholeImage? ==>
              r.0.value.width == Scaled(p.width, p.scale) && r.0.value.height == Scaled(p.height, p.scale) &&
              r.0.value.asset == p.assetName.value
  {
    if !p.isVisible then (Ok(NoDraw), [])
    else
      var x := ROr(posX, Some(p.x)).value;
      var y := ROr(posY, Some(p.y)).value;
      var a := ROr(angle, Some(p.angle)).value;
      var w := Scaled(p.width, p.scale);
      var h := Scaled(p.height, p.scale);
      if STruthy(p.sheetName) then
        var n := p.sheetName.value;
        if n !in sheets then (Err(MissingSheet(n)), [Logged(NoSheetMessage(n))])
        else
          var s := sheets[n];
          if !ctx && !canvas then (Ok(NoDraw), [])
          else (Ok(SheetFrame(s.assetName, Clip(s, p.frame), s.tilew, s.tileh, x, y, w, h, a, p.alpha)), [])
      else if STruthy(p.assetName) then (Ok(WholeImage(p.assetName.value, x, y, w, h, a, p.alpha)), [])
      else (Ok(NoDraw), [])
  }

  /** A 0 position or angle argument is the same as none: the stored value is used. */
  lemma ZeroArgumentFallsBack(p: SpriteProps, ctx: bool, canvas: bool, sheets: map<string, Sheet>)
    ensures Draw(p, ctx, canvas, Some(0.0), Some(0.0), Some(0.0), sheets) == Draw(p, ctx, canvas, None, None, None, sheets)
    ensures var r := Draw(p, ctx, canvas, None, None, None, sheets).0;
            r.Ok? && !r.value.NoDraw? ==> r.value.x == p.x && r.value.y == p.y
  {
  }

  /** A sheet takes precedence over an image: with both names set, the
      sheet's frame is what gets drawn. */
  lemma SheetBeatsAsset(p: SpriteProps, ctx: bool, sheets: map<string, Sheet>)
    requires p.isVisible && STruthy(p.sheetName) && STruthy(p.assetName) && p.sheetName.value in sheets && ctx
    ensures var r := Draw(p, ctx, false, None, None, None, sheets).0;
            r.Ok? && r.value.SheetFrame? && r.value.asset == sheets[p.sheetName.value].assetName
  {
  }

  // ---------------------------------------------------------------------
  // Sheet registry

  /** `loadSpriteSheet(name, assetName, options)`: a sheet under `name`
      replaces any earlier one. */
  function LoadSpriteSheet(sheets: map<string, Sheet>, name: string, assetName: string, opts: SheetOpts,
                           assets: map<string, AssetObj>): (r: Result<map<string, Sheet>>)
    ensures r.Err? <==> !Loaded(assets, assetName)
    ensures r.Ok? ==> r.value.Keys == sheets.Keys + {name}
    ensures r.Ok? ==> r.value[name] == NewSheet(name, assetName, opts, assets).value
    ensures r.Ok? ==> forall n :: n in sheets && n != name ==> r.value[n] == sheets[n]
  {
    match NewSheet(name, assetName, opts, assets)
    case Ok(s) => Ok(sheets[name := s])
    case Err(f) => Err(f)
  }

  /** `getSpriteSheet(name)`. */
  function GetSpriteSheet(sheets: map<string, Sheet>, name: string): (r: Option<Sheet>)
    ensures r.Some? <==> name in sheets
    ensures r.Some? ==> r.value == sheets[name]
  {
    if name in sheets then Some(sheets[name]) else None
  }

  /** Loading a sheet twice under one name keeps only the second. */
  lemma LoadOverwrites(sheets: map<string, Sheet>, name: string, a1: string, o1: SheetOpts, a2: string, o2: SheetOpts,
                       assets: map<string, AssetObj>)
    requires Loaded(assets, a1) && Loaded(assets, a2)
    ensures var s1 := LoadSpriteSheet(sheets, name, a1, o1, assets).value;
            var s2 := LoadSpriteSheet(s1, name, a2, o2, assets).value;
            GetSpriteSheet(s2, name) == Some(NewSheet(name, a2, o2, assets).value) &&
            GetSpriteSheet(s2, name).value.assetName == a2
  {
  }

  /** `compileSheets(imageAsset, spriteDataAsset)`, given the data asset's
      entries (None when the data asset is missing, which is logged and
      compiles nothing): one sheet per data key, all on the image. */
  function CompileSheets(sheets: map<string, Sheet>, imageAsset: string, data: Option<map<string, SheetOpts>>,
                         assets: map<string, AssetObj>): (r: (Result<map<string, Sheet>>, seq<Effect>))
    ensures data.None? ==> r.0 == Ok(sheets) && |r.1| == 1
    ensures data.Some? ==> r.1 == []
    ensures data.Some? && data.value != map[] && !Loaded(assets, imageAsset) ==> r.0 == Err(MissingAsset(imageAsset))
    ensures r.0.Ok? && data.Some? ==>
              && r.0.value.Keys == sheets.Keys + data.value.Keys
              && (forall n :: n in data.value ==> r.0.value[n] == NewSheet(n, imageAsset, data.value[n], assets).value)
              && (forall n :: n in sheets && n !in data.value ==> r.0.value[n] == sheets[n])
  {
    if data.None? then (Ok(sheets), [Logged("Cannot compile sprite sheets for missing image asset: " + imageAsset)])
    else if data.value == map[] then (Ok(sheets), [])
    else if !Loaded(assets, imageAsset) then (Err(MissingAsset(imageAsset)), [])
    else
      var compiled := map n | n in data.value :: NewSheet(n, imageAsset, data.value[n], assets).value;
      (Ok(sheets + compiled), [])
  }
}

=== FILE: stage.dfy ===
/** Stages (js_engine/module_scenes.js, `Engine.Stage`): an entity that owns
    an ordered list of entities, an id index, and a removal queue flushed at
    the end of each step; it z-sorts before drawing and answers first-hit
    collision queries. All stage and entity objects live in one `Space`. */
module Stages {
  import opened Base
  import opened Entities

  /** How `draw` orders the items: no sorting, the default z comparator, or a user comparator. */
  datatype SortMode = NoSort | ZSort | CustomSort(fnId: nat)

  /** A stage object: its own entity part, `items`, `index`, `removeList`
      and the stage properties the code reads. */
  datatype Stage = Stage(self: Entity, items: seq<ObjId>, index: map<string, ObjId>,
                         removeList: seq<ObjId>, paused: bool, sort: SortMode, isVisible: bool,
                         centerX: real, centerY: real)

  /** Every stage and every entity object, by identity. */
  datatype Space = Space(stages: map<ObjId, Stage>, ents: map<ObjId, Entity>)

  /** `a` is a prefix of `b`. */
  predicate Prefix<T(==)>(a: seq<T>, b: seq<T>)
  {
    |a| <= |b| && b[..|a|] == a
  }

  /** The space after an operation, with the effects performed, in order. */
  datatype Outcome = Outcome(sp: Space, effects: seq<Effect>)

  /** `remove(entity)`: only queues the entity; `items` and `index` are untouched. */
  function Remove(sp: Space, sid: ObjId, eid: ObjId): (r: Space)
    requires sid in sp.stages
    ensures r.ents == sp.ents && r.stages.Keys == sp.stages.Keys
    ensures r.stages[sid] == sp.stages[sid].(removeList := sp.stages[sid].removeList + [eid])
    ensures r.stages == sp.stages[sid := r.stages[sid]]
  {
    var st := sp.stages[sid];
    sp.(stages := sp.stages[sid := st.(removeList := st.removeList + [eid])])
  }

  /** The stage a first `destroy` of the entity queues it with, if any. */
  function QueueTarget(sp: Space, eid: ObjId): Option<ObjId>
    requires eid in sp.ents
  {
    var e := sp.ents[eid];
    if !e.destroyed && e.parentStage.Some? && e.parentStage.value in sp.stages then e.parentStage else None
  }

  /** `entity.destroy()` inside the space: the removal it queues goes to its
      parent stage (a parent with no stage object is not modelled). */
  function DestroyEntity(sp: Space, eid: ObjId): (r: Outcome)
    requires eid in sp.ents
    ensures r.sp.ents == sp.ents[eid := sp.ents[eid].(destroyed := true)]
    ensures QueueTarget(sp, eid).None? ==> r.sp.stages == sp.stages
    ensures QueueTarget(sp, eid).Some? ==>
              var t := QueueTarget(sp, eid).value;
              r.sp.stages == sp.stages[t := sp.stages[t].(removeList := sp.stages[t].removeList + [eid])]
    ensures r.effects == Entities.Destroy(sp.ents[eid]).effects
    ensures NoSteps(r.effects)
  {
    var e := sp.ents[eid];
    var d := Entities.Destroy(e);
    var sp1 := sp.(ents := sp.ents[eid := d.e]);
    if QueueTarget(sp, eid).Some? then
      Outcome(Remove(sp1, e.parentStage.value, eid), d.effects)
    else
      Outcome(sp1, d.effects)
  }

  /** `insert(entity)`: appended to `items`, adopted, indexed under its id,
      announced on the stage and then on the entity; the entity is returned. */
  function Insert(sp: Space, sid: ObjId, eid: ObjId): (r: Outcome)
    requires sid in sp.stages && eid in sp.ents
    ensures r.sp.stages.Keys == sp.stages.Keys && r.sp.ents.Keys == sp.ents.Keys
    ensures r.sp.stages[sid].items == sp.stages[sid].items + [eid]
    ensures r.sp.stages[sid].removeList == sp.stages[sid].removeList
    ensures r.sp.stages[sid].index == sp.stages[sid].index[IndexKey(sp.ents[eid].props.pid) := eid]
    ensures r.sp.ents[eid] == sp.ents[eid].(parentStage := Some(sid))
    ensures r.sp.ents == sp.ents[eid := r.sp.ents[eid]]
    ensures r.sp.stages == sp.stages[sid := r.sp.stages[sid]]
    ensures r.effects == [Emit(sid, "inserted", Obj(eid)), Emit(eid, "inserted", Obj(sid))]
  {
    var st := sp.stages[sid];
    var e := sp.ents[eid];
    var st1 := st.(items := st.items + [eid], index := st.index[IndexKey(e.props.pid) := eid]);
    Outcome(Space(sp.stages[sid := st1], sp.ents[eid := e.(parentStage := Some(sid))]),
            [Emit(sid, "inserted", Obj(eid)), Emit(eid, "inserted", Obj(sid))])
  }

  /** `forceRemove(entity)`: an entity not in `items` changes nothing.
      Otherwise its first occurrence is spliced out, it is destroyed (which
      queues it again when this stage is its parent), unindexed when its id
      is truthy, and the stage emits `removed`. `parentStage` is left as it was.
      An identity with no entity object has nothing to destroy or unindex. */
  function ForceRemove(sp: Space, sid: ObjId, eid: ObjId): (r: Outcome)
    requires sid in sp.stages
    ensures eid !in sp.stages[sid].items ==> r == Outcome(sp, [])
    ensures r.sp.stages.Keys == sp.stages.Keys && r.sp.ents.Keys == sp.ents.Keys
    ensures eid in sp.stages[sid].items ==>
              var items := sp.stages[sid].items;
              var items1 := r.sp.stages[sid].items;
              |items1| == |items| - 1 &&
              multiset(items1) == multiset(items) - multiset{eid} &&
              Subsequence(items1, items)
    ensures Prefix(sp.stages[sid].removeList, r.sp.stages[sid].removeList)
    ensures NoSteps(r.effects)
  {
    if eid !in sp.stages[sid].items then Outcome(sp, [])
    else
      var sp1 := SpliceOut(sp, sid, eid);
      var o := Dispose(sp1, sid, eid);
      PrefixTrans(sp.stages[sid].removeList, sp1.stages[sid].removeList, o.sp.stages[sid].removeList);
      Outcome(o.sp, o.effects)
  }

  /** What `forceRemove` does once the entity is spliced out: destroy it,
      drop its truthy id from the index, and emit `removed` on the stage. */
  function Dispose(sp: Space, sid: ObjId, eid: ObjId): (r: Outcome)
    requires sid in sp.stages
    ensures r.sp.stages.Keys == sp.stages.Keys && r.sp.ents.Keys == sp.ents.Keys
    ensures r.sp.stages[sid].items == sp.stages[sid].items
    ensures Prefix(sp.stages[sid].removeList, r.sp.stages[sid].removeList)
    ensures NoSteps(r.effects)
  {
    if eid !in sp.ents then Outcome(sp, [Emit(sid, "removed", Obj(eid))])
    else
      var d := DestroyEntity(sp, eid);
      assert d.sp.stages[sid].items == sp.stages[sid].items;
      assert Prefix(sp.stages[sid].removeList, d.sp.stages[sid].removeList);
      var sp3 := Unindex(d.sp, sid, sp.ents[eid].props.pid);
      Outcome(sp3, d.effects + [Emit(sid, "removed", Obj(eid))])
  }

  /** What else a force-removal of a listed entity does: the entity is
      destroyed, its truthy id unindexed, it is queued again only when this
      stage is the parent its first `destroy` queues with, and the stage's
      `removed` follows the entity's own destruction effects. */
  lemma ForceRemoveEffects(sp: Space, sid: ObjId, eid: ObjId)
    requires sid in sp.stages && eid in sp.ents && eid in sp.stages[sid].items
    ensures var r := ForceRemove(sp, sid, eid);
            r.sp.ents == sp.ents[eid := sp.ents[eid].(destroyed := true)] &&
            r.effects == Entities.Destroy(sp.ents[eid]).effects + [Emit(sid, "removed", Obj(eid))]
    ensures var r := ForceRemove(sp, sid, eid);
            r.sp.stages[sid].index ==
              if IdTruthy(sp.ents[eid].props.pid) then sp.stages[sid].index - {sp.ents[eid].props.pid.key}
              else sp.stages[sid].index
    ensures var r := ForceRemove(sp, sid, eid);
            r.sp.stages[sid].removeList ==
              if QueueTarget(sp, eid) == Some(sid) then sp.stages[sid].removeList + [eid]
              else sp.stages[sid].removeList
  {
    var sp1 := SpliceOut(sp, sid, eid);
    assert QueueTarget(sp1, eid) == QueueTarget(sp, eid);
  }

  /** `items.splice(idx, 1)` at the first occurrence. */
  function SpliceOut(sp: Space, sid: ObjId, eid: ObjId): (r: Space)
    requires sid in sp.stages && eid in sp.stages[sid].items
    ensures r.ents == sp.ents && r.stages.Keys == sp.stages.Keys
    ensures r.stages[sid] == sp.stages[sid].(items := r.stages[sid].items)
    ensures r.stages == sp.stages[sid := r.stages[sid]]
    ensures var items := sp.stages[sid].items;
            var items1 := r.stages[sid].items;
            |items1| == |items| - 1 &&
            multiset(items1) == multiset(items) - multiset{eid} &&
            Subsequence(items1, items)
  {
    var st := sp.stages[sid];
    var k := IndexOf(st.items, eid).value;
    SubsequenceSplice(st.items, k);
    sp.(stages := sp.stages[sid := st.(items := RemoveFirst(st.items, eid))])
  }

  /** `delete index[id]`, done only when the id is truthy. */
  function Unindex(sp: Space, sid: ObjId, pid: PropId): (r: Space)
    requires sid in sp.stages
    ensures r.ents == sp.ents && r.stages.Keys == sp.stages.Keys
    ensures r.stages[sid] == sp.stages[sid].(index := r.stages[sid].index)
    ensures r.stages == sp.stages[sid := r.stages[sid]]
    ensures r.stages[sid].index == if IdTruthy(pid) then sp.stages[sid].index - {pid.key} else sp.stages[sid].index
  {
    var st := sp.stages[sid];
    if IdTruthy(pid) then sp.(stages := sp.stages[sid := st.(index := st.index - {pid.key})]) else sp
  }

  // ---------------------------------------------------------------------
  // `step`

  /** The moments of a step at which game code runs: the `prestep` and
      `step` listeners, and each item's own `step`. */
  datatype Callout = PreStep | ItemStep(ent: ObjId) | PostStep

  /** What game code run during a step may ask of the stage: insert an
      entity, queue one for removal, or destroy one. */
  datatype Request = InsertReq(ent: ObjId) | RemoveReq(ent: ObjId) | DestroyReq(ent: ObjId)

  /** The requests made at each callout. */
  type Reactor = Callout -> seq<Request>

  /** The stage's own entity and its settings are the same in both. */
  predicate SameSettings(a: Stage, b: Stage)
  {
    b.self == a.self && b.paused == a.paused && b.sort == a.sort && b.isVisible == a.isVisible &&
    b.centerX == a.centerX && b.centerY == a.centerY
  }

  /** Stage `sid`'s items and removal queue only grow at the end, and its settings stay. */
  ghost predicate Grows(a: Space, b: Space, sid: ObjId)
    requires sid in a.stages
  {
    b.stages.Keys == a.stages.Keys && b.ents.Keys == a.ents.Keys &&
    Prefix(a.stages[sid].items, b.stages[sid].items) &&
    Prefix(a.stages[sid].removeList, b.stages[sid].removeList) &&
    SameSettings(a.stages[sid], b.stages[sid])
  }

  lemma PrefixTrans<T>(a: seq<T>, b: seq<T>, c: seq<T>)
    requires Prefix(a, b) && Prefix(b, c)
    ensures Prefix(a, c)
  {
    assert c[..|a|] == c[..|b|][..|a|];
  }

  lemma GrowsTrans(a: Space, b: Space, c: Space, sid: ObjId)
    requires sid in a.stages && Grows(a, b, sid) && Grows(b, c, sid)
    ensures Grows(a, c, sid)
  {
    PrefixTrans(a.stages[sid].items, b.stages[sid].items, c.stages[sid].items);
    PrefixTrans(a.stages[sid].removeList, b.stages[sid].removeList, c.stages[sid].removeList);
  }

  /** Carry out the requests in order; a request naming no entity does nothing. */
  function ApplyRequests(sp: Space, sid: ObjId, rs: seq<Request>): (r: Outcome)
    requires sid in sp.stages
    ensures sid in r.sp.stages && Grows(sp, r.sp, sid)
    ensures NoSteps(r.effects)
    decreases |rs|
  {
    if rs == [] then Outcome(sp, [])
    else
      var o1 := ApplyRequest(sp, sid, rs[0]);
      var o2 := ApplyRequests(o1.sp, sid, rs[1..]);
      Outcome(o2.sp, o1.effects + o2.effects)
  }

  function ApplyRequest(sp: Space, sid: ObjId, q: Request): (r: Outcome)
    requires sid in sp.stages
    ensures sid in r.sp.stages && Grows(sp, r.sp, sid)
    ensures NoSteps(r.effects)
  {
    if q.ent !in sp.ents then Outcome(sp, [])
    else match q
      case InsertReq(e) => Insert(sp, sid, e)
      case RemoveReq(e) => Outcome(Remove(sp, sid, e), [])
      case DestroyReq(e) => DestroyEntity(sp, e)
  }

  /** The entities whose `step` the effects invoke, in order. */
  function Stepped(t: seq<Effect>): seq<ObjId>
  {
    if t == [] then []
    else (if t[0].StepEntity? then [t[0].ent] else []) + Stepped(t[1..])
  }

  lemma {:induction false} SteppedAppend(a: seq<Effect>, b: seq<Effect>)
    ensures Stepped(a + b) == Stepped(a) + Stepped(b)
  {
    if a == [] {
      assert a + b == b;
    } else {
      assert (a + b)[0] == a[0];
      assert (a + b)[1..] == a[1..] + b;
      SteppedAppend(a[1..], b);
    }
  }

  lemma SteppedMiddle(head: seq<Effect>, mid: seq<Effect>, tail: seq<Effect>)
    requires NoSteps(head) && NoSteps(tail)
    ensures Stepped(head + mid + tail) == Stepped(mid)
  {
    SteppedNone(head);
    SteppedNone(tail);
    SteppedAppend(head, mid);
    SteppedAppend(head + mid, tail);
  }

  /** The trace steps no entity. */
  predicate NoSteps(t: seq<Effect>)
  {
    forall e :: e in t ==> !e.StepEntity?
  }

  lemma {:induction false} SteppedNone(t: seq<Effect>)
    requires NoSteps(t)
    ensures Stepped(t) == []
  {
    if t != [] {
      assert t[0] in t;
      assert forall e :: e in t[1..] ==> e in t;
      SteppedNone(t[1..]);
    }
  }

  /** `eachInvoke("step", dt)` from position `i` to the length `len` read at
      its start: each item is read from the live list, stepped, and the game
      code it runs may append to the list. */
  function StepPass(sp: Space, sid: ObjId, i: nat, len: nat, dt: real, react: Reactor): (r: Outcome)
    requires sid in sp.stages && i <= len <= |sp.stages[sid].items|
    ensures sid in r.sp.stages && Grows(sp, r.sp, sid)
    ensures Stepped(r.effects) == sp.stages[sid].items[i..len]
    decreases len - i
  {
    if i == len then Outcome(sp, [])
    else
      var x := sp.stages[sid].items[i];
      var o1 := ApplyRequests(sp, sid, react(ItemStep(x)));
      var o2 := StepPass(o1.sp, sid, i + 1, len, dt, react);
      SteppedNone(o1.effects);
      SteppedAppend([StepEntity(x, dt)] + o1.effects, o2.effects);
      SteppedAppend([StepEntity(x, dt)], o1.effects);
      PrefixSlice(sp.stages[sid].items, o1.sp.stages[sid].items, i + 1, len);
      SliceCons(sp.stages[sid].items, i, len);
      Outcome(o2.sp, [StepEntity(x, dt)] + o1.effects + o2.effects)
  }

  /** The flush loop from position `i` to the queue length `len` read at its
      start: each queued entity is force-removed, reading the live queue. */
  function Flush(sp: Space, sid: ObjId, i: nat, len: nat): (r: Outcome)
    requires sid in sp.stages && i <= len <= |sp.stages[sid].removeList|
    ensures sid in r.sp.stages
    ensures r.sp.stages.Keys == sp.stages.Keys && r.sp.ents.Keys == sp.ents.Keys
    ensures Prefix(sp.stages[sid].removeList, r.sp.stages[sid].removeList)
    ensures NoSteps(r.effects)
    decreases len - i
  {
    if i == len then Outcome(sp, [])
    else
      var o1 := ForceRemove(sp, sid, sp.stages[sid].removeList[i]);
      var o2 := Flush(o1.sp, sid, i + 1, len);
      Outcome(o2.sp, o1.effects + o2.effects)
  }

  /** What a flush does to the items: each entity loses one occurrence per
      time it was queued (down to none), and the survivors keep their order. */
  lemma {:induction false} FlushItems(sp: Space, sid: ObjId, i: nat, len: nat)
    requires sid in sp.stages && i <= len <= |sp.stages[sid].removeList|
    ensures var items1 := Flush(sp, sid, i, len).sp.stages[sid].items;
            var items := sp.stages[sid].items;
            var q := sp.stages[sid].removeList[i..len];
            Subsequence(items1, items) &&
            forall x :: Count(items1, x) == if Count(items, x) >= Count(q, x) then Count(items, x) - Count(q, x) else 0
    decreases len - i
  {
    var items := sp.stages[sid].items;
    if i == len {
      SubsequenceRefl(items);
    } else {
      var rl := sp.stages[sid].removeList;
      var x := rl[i];
      var o1 := ForceRemove(sp, sid, x);
      var o2 := Flush(o1.sp, sid, i + 1, len);
      var items1 := o1.sp.stages[sid].items;
      var items2 := o2.sp.stages[sid].items;
      var rest := rl[i + 1..len];
      assert Flush(sp, sid, i, len).sp.stages[sid].items == items2;
      SliceCons(rl, i, len);
      PrefixSlice(rl, o1.sp.stages[sid].removeList, i + 1, len);
      FlushItems(o1.sp, sid, i + 1, len);
      FlushCompose(items, items1, items2, x, rest);
    }
  }

  lemma PrefixSlice<T>(a: seq<T>, b: seq<T>, i: nat, j: nat)
    requires Prefix(a, b) && i <= j <= |a|
    ensures b[i..j] == a[i..j]
  {
    forall k | 0 <= k < j - i
      ensures b[i..j][k] == a[i..j][k]
    {
      assert b[i + k] == b[..|a|][i + k];
    }
  }

  lemma SliceCons<T>(s: seq<T>, i: nat, j: nat)
    requires i < j <= |s|
    ensures s[i..j] == [s[i]] + s[i + 1..j]
  {
  }

  /** One force-removal followed by the rest of the flush: the counts and
      the order-preservation compose. */
  lemma FlushCompose(a: seq<ObjId>, b: seq<ObjId>, c: seq<ObjId>, x: ObjId, rest: seq<ObjId>)
    requires x !in a ==> b == a
    requires x in a ==> multiset(b) == multiset(a) - multiset{x} && Subsequence(b, a)
    requires Subsequence(c, b)
    requires forall y :: Count(c, y) == if Count(b, y) >= Count(rest, y) then Count(b, y) - Count(rest, y) else 0
    ensures Subsequence(c, a)
    ensures forall y :: Count(c, y) ==
              if Count(a, y) >= Count([x] + rest, y) then Count(a, y) - Count([x] + rest, y) else 0
  {
    FlushCount(a, b, c, x, rest);
    if x in a {
      SubsequenceTrans(c, b, a);
    }
  }

  /** One force-removal followed by the rest of the flush: the counts compose. */
  lemma FlushCount(a: seq<ObjId>, b: seq<ObjId>, c: seq<ObjId>, x: ObjId, rest: seq<ObjId>)
    requires x !in a ==> b == a
    requires x in a ==> multiset(b) == multiset(a) - multiset{x}
    requires forall y :: Count(c, y) == if Count(b, y) >= Count(rest, y) then Count(b, y) - Count(rest, y) else 0
    ensures forall y :: Count(c, y) ==
              if Count(a, y) >= Count([x] + rest, y) then Count(a, y) - Count([x] + rest, y) else 0
  {
    forall y
      ensures Count(c, y) == if Count(a, y) >= Count([x] + rest, y) then Count(a, y) - Count([x] + rest, y) else 0
    {
      assert multiset([x] + rest) == multiset{x} + multiset(rest);
      if x !in a {
        assert multiset(a)[x] == 0;
      }
    }
  }

  /** The part of `step(dt)` before the flush: `prestep`, the pass over the
      items present when it starts, and `step`. */
  function StepCallouts(sp: Space, sid: ObjId, dt: real, react: Reactor): (r: Outcome)
    requires sid in sp.stages
    ensures sid in r.sp.stages && Grows(sp, r.sp, sid)
    ensures |r.effects| > 0 && r.effects[0] == Emit(sid, "prestep", Num(dt))
    ensures Prefix(sp.stages[sid].items, Stepped(r.effects))
    ensures react(PreStep) == [] ==> Stepped(r.effects) == sp.stages[sid].items
  {
    var o1 := ApplyRequests(sp, sid, react(PreStep));
    var len := |o1.sp.stages[sid].items|;
    var o2 := StepPass(o1.sp, sid, 0, len, dt, react);
    var o3 := ApplyRequests(o2.sp, sid, react(PostStep));
    var head := [Emit(sid, "prestep", Num(dt))] + o1.effects;
    var tail := [Emit(sid, "step", Num(dt))] + o3.effects;
    SteppedMiddle(head, o2.effects, tail);
    GrowsTrans(sp, o1.sp, o2.sp, sid);
    GrowsTrans(sp, o2.sp, o3.sp, sid);
    assert o1.sp.stages[sid].items[0..len] == o1.sp.stages[sid].items;
    assert react(PreStep) == [] ==> o1.sp == sp;
    Outcome(o3.sp, head + o2.effects + tail)
  }

  /** The end of an unpaused `step`: a non-empty queue has each entry
      present force-removed, and is then emptied. */
  function FlushQueue(sp: Space, sid: ObjId): (r: Outcome)
    requires sid in sp.stages
    ensures r.sp.stages.Keys == sp.stages.Keys && r.sp.ents.Keys == sp.ents.Keys
    ensures r.sp.stages[sid].removeList == []
    ensures NoSteps(r.effects)
  {
    var rl := sp.stages[sid].removeList;
    var o := if |rl| > 0 then Flush(sp, sid, 0, |rl|) else Outcome(sp, []);
    var st := o.sp.stages[sid];
    Outcome(o.sp.(stages := o.sp.stages[sid := st.(removeList := [])]), o.effects)
  }

  /** What the end of a step does to the items: each entity loses one
      occurrence per time it was queued (down to none), and the survivors
      keep their order. */
  lemma FlushQueueItems(sp: Space, sid: ObjId)
    requires sid in sp.stages
    ensures var items1 := FlushQueue(sp, sid).sp.stages[sid].items;
            var items := sp.stages[sid].items;
            var rl := sp.stages[sid].removeList;
            Subsequence(items1, items) &&
            forall x :: Count(items1, x) == if Count(items, x) >= Count(rl, x) then Count(items, x) - Count(rl, x) else 0
  {
    var rl := sp.stages[sid].removeList;
    if |rl| > 0 {
      FlushItems(sp, sid, 0, |rl|);
      assert rl[0..|rl|] == rl;
    } else {
      SubsequenceRefl(sp.stages[sid].items);
    }
  }

  lemma SteppedNoneAppend(a: seq<Effect>, b: seq<Effect>)
    requires NoSteps(b)
    ensures Stepped(a + b) == Stepped(a)
    ensures a != [] ==> (a + b)[0] == a[0]
  {
    SteppedNone(b);
    SteppedAppend(a, b);
  }

  /** `step(dt)`. A paused stage does nothing. Otherwise: `prestep`, each item
      present when the pass starts is stepped, `step`, then the queue as it
      stands is flushed and emptied. Every item present before the step is
      stepped, in list order, ahead of any item inserted during `prestep`. */
  function StepStage(sp: Space, sid: ObjId, dt: real, react: Reactor): (r: Outcome)
    requires sid in sp.stages
    ensures sp.stages[sid].paused ==> r == Outcome(sp, [])
    ensures r.sp.stages.Keys == sp.stages.Keys && r.sp.ents.Keys == sp.ents.Keys
    ensures !sp.stages[sid].paused ==>
              r.sp.stages[sid].removeList == [] &&
              |r.effects| > 0 && r.effects[0] == Emit(sid, "prestep", Num(dt)) &&
              Prefix(sp.stages[sid].items, Stepped(r.effects)) &&
              (react(PreStep) == [] ==> Stepped(r.effects) == sp.stages[sid].items)
  {
    if sp.stages[sid].paused then Outcome(sp, [])
    else
      var o1 := StepCallouts(sp, sid, dt, react);
      var o2 := FlushQueue(o1.sp, sid);
      SteppedNoneAppend(o1.effects, o2.effects);
      Outcome(o2.sp, o1.effects + o2.effects)
  }

  /** A step in which game code asks for nothing: every item is stepped in
      order, each entity loses as many occurrences as it was queued (down to
      none), the survivors keep their order, and the queue ends empty. */
  lemma QuietStep(sp: Space, sid: ObjId, dt: real, react: Reactor)
    requires sid in sp.stages && !sp.stages[sid].paused
    requires forall c :: react(c) == []
    ensures var r := StepStage(sp, sid, dt, react);
            var items := sp.stages[sid].items;
            var rl := sp.stages[sid].removeList;
            Stepped(r.effects) == items &&
            r.sp.stages[sid].removeList == [] &&
            Subsequence(r.sp.stages[sid].items, items) &&
            forall x :: Count(r.sp.stages[sid].items, x) ==
              if Count(items, x) >= Count(rl, x) then Count(items, x) - Count(rl, x) else 0
  {
    QuietCallouts(sp, sid, dt, react);
    FlushQueueItems(sp, sid);
  }

  lemma {:induction false} QuietPassUnchanged(sp: Space, sid: ObjId, i: nat, len: nat, dt: real, react: Reactor)
    requires sid in sp.stages && i <= len <= |sp.stages[sid].items|
    requires forall c :: react(c) == []
    ensures StepPass(sp, sid, i, len, dt, react).sp == sp
    decreases len - i
  {
    if i < len {
      assert ApplyRequests(sp, sid, react(ItemStep(sp.stages[sid].items[i]))) == Outcome(sp, []);
      QuietPassUnchanged(sp, sid, i + 1, len, dt, react);
    }
  }

  /** `pause()` and `unpause()`. */
  function SetPaused(sp: Space, sid: ObjId, paused: bool): (r: Space)
    requires sid in sp.stages
    ensures r.ents == sp.ents && r.stages.Keys == sp.stages.Keys
    ensures r.stages[sid] == sp.stages[sid].(paused := paused)
    ensures r.stages == sp.stages[sid := r.stages[sid]]
  {
    sp.(stages := sp.stages[sid := sp.stages[sid].(paused := paused)])
  }

  /** A paused stage's step is inert, whatever game code would have done. */
  lemma PausedStepInert(sp: Space, sid: ObjId, dt: real, react: Reactor)
    requires sid in sp.stages
    ensures var p := SetPaused(sp, sid, true);
            sid in p.stages && StepStage(p, sid, dt, react) == Outcome(p, [])
  {
  }

  // ---------------------------------------------------------------------
  // `draw`

  /** The depth the default comparator `a.properties.z - b.properties.z` reads. */
  function Depth(sp: Space, e: ObjId): real
  {
    if e in sp.ents then sp.ents[e].props.z else 0.0
  }

  /** Depth never decreases along `s`. */
  ghost predicate ZOrdered(sp: Space, s: seq<ObjId>)
  {
    forall i, j :: 0 <= i < j < |s| ==> Depth(sp, s[i]) <= Depth(sp, s[j])
  }

  /** `x` placed into a depth-ordered list ahead of the first entry at least as deep. */
  function InsertByDepth(sp: Space, x: ObjId, s: seq<ObjId>): (r: seq<ObjId>)
    requires ZOrdered(sp, s)
    ensures multiset(r) == multiset(s) + multiset{x}
    ensures ZOrdered(sp, r)
  {
    if s == [] then [x]
    else if Depth(sp, x) <= Depth(sp, s[0]) then
      ConsOrdered(sp, x, s);
      [x] + s
    else
      var rest := InsertByDepth(sp, x, s[1..]);
      HeadBelowInsert(sp, s, x, rest);
      ConsOrdered(sp, s[0], rest);
      assert s == [s[0]] + s[1..];
      [s[0]] + rest
  }

  /** A tail of a depth-ordered list is depth-ordered. */
  lemma TailOrdered(sp: Space, s: seq<ObjId>)
    requires s != [] && ZOrdered(sp, s)
    ensures ZOrdered(sp, s[1..])
  {
    forall i, j | 0 <= i < j < |s[1..]|
      ensures Depth(sp, s[1..][i]) <= Depth(sp, s[1..][j])
    {
      assert s[1..][i] == s[i + 1] && s[1..][j] == s[j + 1];
    }
  }

  /** Prepending an entry no deeper than the ordered rest keeps the order. */
  lemma ConsOrdered(sp: Space, y: ObjId, rest: seq<ObjId>)
    requires ZOrdered(sp, rest)
    requires forall k :: 0 <= k < |rest| ==> Depth(sp, y) <= Depth(sp, rest[k])
    ensures ZOrdered(sp, [y] + rest)
  {
    forall i, j | 0 <= i < j < |[y] + rest|
      ensures Depth(sp, ([y] + rest)[i]) <= Depth(sp, ([y] + rest)[j])
    {
      assert ([y] + rest)[j] == rest[j - 1];
      if i > 0 {
        assert ([y] + rest)[i] == rest[i - 1];
      }
    }
  }

  /** The head of an ordered list is no deeper than anything the insertion
      of a deeper `x` into its tail produces. */
  lemma HeadBelowInsert(sp: Space, s: seq<ObjId>, x: ObjId, rest: seq<ObjId>)
    requires s != [] && ZOrdered(sp, s) && Depth(sp, s[0]) < Depth(sp, x)
    requires multiset(rest) == multiset(s[1..]) + multiset{x}
    ensures ZOrdered(sp, s[1..])
    ensures forall k :: 0 <= k < |rest| ==> Depth(sp, s[0]) <= Depth(sp, rest[k])
  {
    TailOrdered(sp, s);
    forall k | 0 <= k < |rest|
      ensures Depth(sp, s[0]) <= Depth(sp, rest[k])
    {
      assert rest[k] in multiset(rest);
      if rest[k] != x {
        assert rest[k] in multiset(s[1..]);
        var m :| 0 <= m < |s[1..]| && s[1..][m] == rest[k];
        assert s[m + 1] == rest[k];
      }
    }
  }

  /** The items in the order the default comparator sorts them to. */
  function SortByDepth(sp: Space, s: seq<ObjId>): (r: seq<ObjId>)
    ensures multiset(r) == multiset(s)
    ensures ZOrdered(sp, r)
  {
    if s == [] then []
    else
      assert s == [s[0]] + s[1..];
      InsertByDepth(sp, s[0], SortByDepth(sp, s[1..]))
  }

  /** Sorting a list that is already in depth order leaves it as it is, so
      drawing twice in a row does not reorder the items. */
  lemma {:induction false} SortByDepthOrdered(sp: Space, s: seq<ObjId>)
    requires ZOrdered(sp, s)
    ensures SortByDepth(sp, s) == s
  {
    if s != [] {
      TailOrdered(sp, s);
      assert SortByDepth(sp, s) == InsertByDepth(sp, s[0], s[1..]) by {
        SortByDepthOrdered(sp, s[1..]);
      }
      assert InsertByDepth(sp, s[0], s[1..]) == s by {
        if |s| > 1 {
          assert Depth(sp, s[0]) <= Depth(sp, s[1..][0]);
        }
        assert s == [s[0]] + s[1..];
      }
    }
  }

  /** The order a user comparator leaves the items in, per comparator. */
  type Reorder = (nat, seq<ObjId>) -> seq<ObjId>

  function SortItems(sp: Space, mode: SortMode, items: seq<ObjId>, reorder: Reorder): seq<ObjId>
  {
    match mode
    case NoSort => items
    case ZSort => SortByDepth(sp, items)
    case CustomSort(f) => reorder(f, items)
  }

  /** The entities whose `draw` the effects invoke, in order. */
  function Drawn(t: seq<Effect>): seq<ObjId>
  {
    if t == [] then []
    else (if t[0].DrawEntity? then [t[0].ent] else []) + Drawn(t[1..])
  }

  lemma {:induction false} DrawnAppend(a: seq<Effect>, b: seq<Effect>)
    ensures Drawn(a + b) == Drawn(a) + Drawn(b)
  {
    if a == [] {
      assert a + b == b;
    } else {
      assert (a + b)[0] == a[0];
      assert (a + b)[1..] == a[1..] + b;
      DrawnAppend(a[1..], b);
    }
  }

  /** `eachInvoke("draw", ctx)`: one draw call per item, in list order. */
  function DrawCalls(s: seq<ObjId>): (r: seq<Effect>)
    ensures Drawn(r) == s
    ensures forall e :: e in r ==> e.DrawEntity?
  {
    if s == [] then []
    else
      var rest := DrawCalls(s[1..]);
      assert ([DrawEntity(s[0])] + rest)[1..] == rest;
      [DrawEntity(s[0])] + rest
  }

  lemma {:induction false} EmitsOnNone(t: seq<Effect>, o: ObjId)
    requires forall e :: e in t ==> !e.Emit?
    ensures EmitsOn(t, o) == []
  {
    if t != [] {
      assert t[0] in t;
      assert forall e :: e in t[1..] ==> e in t;
      EmitsOnNone(t[1..], o);
    }
  }

  /** What a draw performs once the items are in order: `predraw`, the
      item draws and `draw` only when visible, then `postdraw`. */
  function DrawTrace(sid: ObjId, ctx: Payload, items: seq<ObjId>, visible: bool): (t: seq<Effect>)
    ensures Drawn(t) == if visible then items else []
    ensures EmitsOn(t, sid) == [("predraw", ctx)] + (if visible then [("draw", ctx)] else []) + [("postdraw", ctx)]
    ensures NoSteps(t)
  {
    var body := if visible then DrawCalls(items) + [Emit(sid, "draw", ctx)] else [];
    DrawTraceDrawn(sid, ctx, items, visible, body);
    DrawTraceEmits(sid, ctx, items, visible, body);
    [Emit(sid, "predraw", ctx)] + body + [Emit(sid, "postdraw", ctx)]
  }

  lemma DrawTraceDrawn(sid: ObjId, ctx: Payload, items: seq<ObjId>, visible: bool, body: seq<Effect>)
    requires body == if visible then DrawCalls(items) + [Emit(sid, "draw", ctx)] else []
    ensures Drawn([Emit(sid, "predraw", ctx)] + body + [Emit(sid, "postdraw", ctx)]) == if visible then items else []
  {
    var pre := [Emit(sid, "predraw", ctx)];
    var post := [Emit(sid, "postdraw", ctx)];
    DrawnAppend(pre + body, post);
    DrawnAppend(pre, body);
    if visible {
      DrawnAppend(DrawCalls(items), [Emit(sid, "draw", ctx)]);
    }
  }

  lemma DrawTraceEmits(sid: ObjId, ctx: Payload, items: seq<ObjId>, visible: bool, body: seq<Effect>)
    requires body == if visible then DrawCalls(items) + [Emit(sid, "draw", ctx)] else []
    ensures EmitsOn([Emit(sid, "predraw", ctx)] + body + [Emit(sid, "postdraw", ctx)], sid) ==
              [("predraw", ctx)] + (if visible then [("draw", ctx)] else []) + [("postdraw", ctx)]
  {
    var pre := [Emit(sid, "predraw", ctx)];
    var post := [Emit(sid, "postdraw", ctx)];
    EmitsOnAppend(pre + body, post, sid);
    EmitsOnAppend(pre, body, sid);
    if visible {
      EmitsOnAppend(DrawCalls(items), [Emit(sid, "draw", ctx)], sid);
      EmitsOnNone(DrawCalls(items), sid);
    }
  }

  /** `draw(ctx)`: sort when a comparator is set, then the draw trace. Only
      the order of `items` changes. */
  function Draw(sp: Space, sid: ObjId, ctx: Payload, reorder: Reorder): (r: Outcome)
    requires sid in sp.stages
    ensures var st := sp.stages[sid];
            r.sp.ents == sp.ents && sid in r.sp.stages &&
            r.sp.stages == sp.stages[sid := st.(items := r.sp.stages[sid].items)]
    ensures var st := sp.stages[sid];
            var items1 := r.sp.stages[sid].items;
            && (st.sort.NoSort? ==> items1 == st.items)
            && (st.sort.ZSort? ==> multiset(items1) == multiset(st.items) && ZOrdered(sp, items1))
            && (st.sort.CustomSort? ==> items1 == reorder(st.sort.fnId, st.items))
    ensures Drawn(r.effects) == if sp.stages[sid].isVisible then r.sp.stages[sid].items else []
    ensures EmitsOn(r.effects, sid) ==
              [("predraw", ctx)] + (if sp.stages[sid].isVisible then [("draw", ctx)] else []) + [("postdraw", ctx)]
    ensures NoSteps(r.effects)
  {
    var st := sp.stages[sid];
    var items1 := SortItems(sp, st.sort, st.items, reorder);
    Outcome(sp.(stages := sp.stages[sid := st.(items := items1)]), DrawTrace(sid, ctx, items1, st.isVisible))
  }

  // ---------------------------------------------------------------------
  // `Engine.overlap`, `_hitTest`, `detect`, `collide`

  function Abs(x: real): real
  {
    if x < 0.0 then -x else x
  }

  /** `Engine.overlap(o1, o2)`: boxes centred on (x, y) fail to overlap only
      when an edge of one lies strictly beyond the opposite edge of the other,
      so touching edges overlap. */
  function Overlap(p1: Props, p2: Props): (r: bool)
    ensures r <==> Abs(p1.x - p2.x) <= (p1.width + p2.width) / 2.0 &&
                   Abs(p1.y - p2.y) <= (p1.height + p2.height) / 2.0
  {
    if p1.x - p1.width / 2.0 > p2.x + p2.width / 2.0 then false
    else if p1.x + p1.width / 2.0 < p2.x - p2.width / 2.0 then false
    else if p1.y - p1.height / 2.0 > p2.y + p2.height / 2.0 then false
    else if p1.y + p1.height / 2.0 < p2.y - p2.height / 2.0 then false
    else true
  }

  lemma OverlapSymmetric(p1: Props, p2: Props)
    ensures Overlap(p1, p2) == Overlap(p2, p1)
  {
  }

  /** Two 20-wide boxes overlap with centres 10 apart and do not with centres 21 apart. */
  lemma OverlapExamples(p: Props)
    requires p.width == 20.0 && p.height == 20.0
    ensures Overlap(p.(x := 0.0, y := 0.0), p.(x := 10.0, y := 0.0))
    ensures Overlap(p.(x := 0.0, y := 0.0), p.(x := 20.0, y := 0.0))
    ensures !Overlap(p.(x := 0.0, y := 0.0), p.(x := 21.0, y := 0.0))
  {
  }

  /** `_hitTest(obj, type)` on item `e`: not the querying object, of a
      matching type when a mask is given (an undefined `type` is 0), and
      overlapping it. */
  predicate Hits(sp: Space, obj: ObjId, op: Props, mask: bv32, e: ObjId)
  {
    e != obj && e in sp.ents &&
    (mask == 0 || sp.ents[e].props.kind & mask != 0) &&
    Overlap(op, sp.ents[e].props)
  }

  /** `collide(obj, type)`, through `detect`: the first item, in list order,
      that the hit test accepts, or `false` (None) when there is none. */
  method Collide(sp: Space, sid: ObjId, obj: ObjId, op: Props, mask: bv32) returns (r: Option<ObjId>)
    requires sid in sp.stages
    ensures var items := sp.stages[sid].items;
            r.None? <==> forall k :: 0 <= k < |items| ==> !Hits(sp, obj, op, mask, items[k])
    ensures var items := sp.stages[sid].items;
            r.Some? ==> exists k :: 0 <= k < |items| && items[k] == r.value && Hits(sp, obj, op, mask, items[k]) &&
                                    forall j :: 0 <= j < k ==> !Hits(sp, obj, op, mask, items[j])
  {
    var items := sp.stages[sid].items;
    var i := 0;
    while i < |items|
      invariant 0 <= i <= |items|
      invariant forall j :: 0 <= j < i ==> !Hits(sp, obj, op, mask, items[j])
    {
      if Hits(sp, obj, op, mask, items[i]) {
        return Some(items[i]);
      }
      i := i + 1;
    }
    return None;
  }

  // ---------------------------------------------------------------------
  // `destroy`

  /** `b` differs from `a` at most in the removal queues. */
  ghost predicate QueuesOnly(a: map<ObjId, Stage>, b: map<ObjId, Stage>)
  {
    b.Keys == a.Keys && forall s :: s in a ==> b[s].(removeList := a[s].removeList) == a[s]
  }

  lemma QueuesOnlyTrans(a: map<ObjId, Stage>, b: map<ObjId, Stage>, c: map<ObjId, Stage>)
    requires QueuesOnly(a, b) && QueuesOnly(b, c)
    ensures QueuesOnly(a, c)
  {
    forall s | s in a
      ensures c[s].(removeList := a[s].removeList) == a[s]
    {
      assert c[s].(removeList := b[s].removeList) == b[s];
    }
  }

  lemma DestroyEntityQueuesOnly(sp: Space, eid: ObjId)
    requires eid in sp.ents
    ensures QueuesOnly(sp.stages, DestroyEntity(sp, eid).sp.stages)
  {
  }

  /** The entity objects with those listed in `xs` marked destroyed. */
  function Marked(ents: map<ObjId, Entity>, xs: seq<ObjId>): (r: map<ObjId, Entity>)
    ensures r.Keys == ents.Keys
  {
    map e | e in ents :: if e in xs then ents[e].(destroyed := true) else ents[e]
  }

  lemma MarkedCons(ents: map<ObjId, Entity>, x: ObjId, rest: seq<ObjId>)
    ensures Marked(Marked(ents, [x]), rest) == Marked(ents, [x] + rest)
  {
  }

  /** The loop of the stage's `destroy()` over the items present when it
      starts; an identity with no entity object has no `destroy`. */
  function DestroyItems(sp: Space, sid: ObjId, i: nat, len: nat): (r: Outcome)
    requires sid in sp.stages && i <= len <= |sp.stages[sid].items|
    ensures r.sp.stages.Keys == sp.stages.Keys
    ensures QueuesOnly(sp.stages, r.sp.stages)
    ensures r.sp.ents == Marked(sp.ents, sp.stages[sid].items[i..len])
    ensures NoSteps(r.effects)
    decreases len - i
  {
    if i == len then
      assert Marked(sp.ents, []) == sp.ents;
      Outcome(sp, [])
    else
      var x := sp.stages[sid].items[i];
      var o1 := if x in sp.ents then DestroyEntity(sp, x) else Outcome(sp, []);
      assert QueuesOnly(sp.stages, o1.sp.stages) && o1.sp.ents == Marked(sp.ents, [x]) by {
        if x in sp.ents {
          DestroyEntityQueuesOnly(sp, x);
        } else {
          assert Marked(sp.ents, [x]) == sp.ents;
        }
      }
      assert o1.sp.stages[sid].items == sp.stages[sid].items by {
        assert o1.sp.stages[sid].(removeList := sp.stages[sid].removeList) == sp.stages[sid];
      }
      var o2 := DestroyItems(o1.sp, sid, i + 1, len);
      QueuesOnlyTrans(sp.stages, o1.sp.stages, o2.sp.stages);
      SliceCons(sp.stages[sid].items, i, len);
      MarkedCons(sp.ents, x, sp.stages[sid].items[i + 1..len]);
      Outcome(o2.sp, o1.effects + o2.effects)
  }

  /** The entity part of the stage's `destroy()` (`this._super()`). */
  function DestroySelf(sp: Space, sid: ObjId): (r: Outcome)
    requires sid in sp.stages
    ensures r.sp.ents == sp.ents && sid in r.sp.stages
    ensures r.sp.stages == sp.stages[sid := r.sp.stages[sid]]
    ensures r.sp.stages[sid] == sp.stages[sid].(self := sp.stages[sid].self.(destroyed := true))
    ensures !sp.stages[sid].self.destroyed ==>
              |r.effects| > 0 && r.effects[|r.effects| - 1] == Emit(sp.stages[sid].self.id, "removed", NoData)
    ensures sp.stages[sid].self.destroyed ==> r.effects == []
    ensures NoSteps(r.effects)
  {
    var st := sp.stages[sid];
    var d := Entities.Destroy(st.self);
    Outcome(sp.(stages := sp.stages[sid := st.(self := d.e)]), d.effects)
  }

  lemma QueuesOnlyReset(a: map<ObjId, Stage>, b: map<ObjId, Stage>, sid: ObjId, st: Stage)
    requires QueuesOnly(a, b) && sid in a
    ensures QueuesOnly(a, b[sid := st][sid := a[sid]])
  {
    assert b[sid := st][sid := a[sid]] == b[sid := a[sid]];
  }

  /** The stage's `destroy()`: every item present is destroyed, then the
      stage's own entity destruction runs. Items and index are kept, and
      other stages change only in their removal queues. */
  function DestroyStage(sp: Space, sid: ObjId): (r: Outcome)
    requires sid in sp.stages
    ensures r.sp.stages.Keys == sp.stages.Keys
    ensures r.sp.ents == Marked(sp.ents, sp.stages[sid].items)
    ensures r.sp.stages[sid] == sp.stages[sid].(self := sp.stages[sid].self.(destroyed := true),
                                                removeList := r.sp.stages[sid].removeList)
    ensures QueuesOnly(sp.stages, r.sp.stages[sid := sp.stages[sid]])
    ensures !sp.stages[sid].self.destroyed ==>
              |r.effects| > 0 && r.effects[|r.effects| - 1] == Emit(sp.stages[sid].self.id, "removed", NoData)
    ensures NoSteps(r.effects)
  {
    var st := sp.stages[sid];
    var o1 := DestroyItems(sp, sid, 0, |st.items|);
    assert st.items[0..|st.items|] == st.items;
    var o2 := DestroySelf(o1.sp, sid);
    QueuesOnlyReset(sp.stages, o1.sp.stages, sid, o2.sp.stages[sid]);
    assert o1.sp.stages[sid].(removeList := st.removeList) == st;
    assert !st.self.destroyed ==>
             (o1.effects + o2.effects)[|o1.effects + o2.effects| - 1] == o2.effects[|o2.effects| - 1];
    Outcome(o2.sp, o1.effects + o2.effects)
  }

  lemma {:induction false} DestroyItemsInert(sp: Space, sid: ObjId, i: nat, len: nat)
    requires sid in sp.stages && i <= len <= |sp.stages[sid].items|
    requires forall k :: i <= k < len && sp.stages[sid].items[k] in sp.ents ==> sp.ents[sp.stages[sid].items[k]].destroyed
    ensures DestroyItems(sp, sid, i, len) == Outcome(sp, [])
    decreases len - i
  {
    if i < len {
      var x := sp.stages[sid].items[i];
      if x in sp.ents {
        assert sp.ents[x := sp.ents[x].(destroyed := true)] == sp.ents;
      }
      DestroyItemsInert(sp, sid, i + 1, len);
    }
  }

  /** Destroying a stage twice: the second time does nothing at all. */
  lemma DestroyStageTwice(sp: Space, sid: ObjId)
    requires sid in sp.stages
    ensures var r := DestroyStage(sp, sid);
            DestroyStage(r.sp, sid) == Outcome(r.sp, [])
  {
    var r := DestroyStage(sp, sid);
    var items := sp.stages[sid].items;
    assert r.sp.stages[sid].items == items;
    MarkedDestroyed(sp.ents, items);
    DestroyItemsInert(r.sp, sid, 0, |items|);
    var st := r.sp.stages[sid];
    assert st.self.destroyed;
    assert st.(self := st.self.(destroyed := true)) == st;
    MapSame(r.sp.stages, sid);
    assert DestroySelf(r.sp, sid).effects == [];
  }

  lemma MapSame<K, V>(m: map<K, V>, k: K)
    requires k in m
    ensures m[k := m[k]] == m
  {
  }

  lemma MarkedDestroyed(ents: map<ObjId, Entity>, xs: seq<ObjId>)
    ensures forall k :: 0 <= k < |xs| && xs[k] in ents ==> Marked(ents, xs)[xs[k]].destroyed
  {
  }

  // ---------------------------------------------------------------------
  // `init`

  /** The `sort` option as given: a flag (by its truthiness) or a comparator function. */
  datatype SortOpt = SortFlag(truthy: bool) | SortFn(fnId: nat)

  /** The stage options a scene passes, None where a key is absent; only the
      keys the stage reads are kept. */
  datatype SceneOpts = SceneOpts(paused: Option<bool>, sort: Option<SortOpt>, isVisible: Option<bool>)

  /** `new Engine.Scene(sceneFunc, opts)`: what the scene function does to the
      stage it is given is the requests it makes. */
  datatype Scene = Scene(opts: SceneOpts, setup: seq<Request>)

  const NoOpts := SceneOpts(None, None, None)

  /** The comparator after `init`: a function is kept, any other truthy value
      becomes the depth comparator, and a falsy one disables sorting. */
  function SortModeOf(o: SortOpt): (m: SortMode)
    ensures m.CustomSort? <==> o.SortFn?
    ensures m.CustomSort? ==> m.fnId == o.fnId
    ensures m.NoSort? <==> o == SortFlag(false)
  {
    match o
    case SortFn(f) => CustomSort(f)
    case SortFlag(t) => if t then ZSort else NoSort
  }

  /** The stage's own entity part when it is created. */
  function FreshSelf(sid: ObjId): Entity
  {
    Entity(sid, map[], {}, [], None, false, Props(0.0, 0.0, 0.0, 0.0, 0.0, 0.0, NoId, 0))
  }

  /** `new Engine.Stage(scene)` for an engine `width` x `height`: the defaults
      (not paused, sorted, visible) overridden by the scene's options, the
      scene function's requests carried out on the new stage, the sort
      option normalised, and the camera centre put mid-screen. */
  function NewStage(sp: Space, sid: ObjId, scene: Option<Scene>, width: real, height: real): (r: Outcome)
    requires sid !in sp.stages
    ensures r.sp.stages.Keys == sp.stages.Keys + {sid} && r.sp.ents.Keys == sp.ents.Keys
    ensures var st := r.sp.stages[sid];
            var o := if scene.Some? then scene.value.opts else NoOpts;
            && st.paused == o.paused.GetOr(false)
            && st.isVisible == o.isVisible.GetOr(true)
            && st.sort == SortModeOf(o.sort.GetOr(SortFlag(true)))
            && st.centerX == width / 2.0 && st.centerY == height / 2.0
            && st.self == FreshSelf(sid)
    ensures scene.None? ==>
              r.effects == [] && r.sp.ents == sp.ents &&
              r.sp.stages == sp.stages[sid := r.sp.stages[sid]] &&
              r.sp.stages[sid].items == [] && r.sp.stages[sid].removeList == [] && r.sp.stages[sid].index == map[]
    ensures NoSteps(r.effects)
  {
    var o := if scene.Some? then scene.value.opts else NoOpts;
    var st := Stage(FreshSelf(sid), [], map[], [], o.paused.GetOr(false), SortModeOf(o.sort.GetOr(SortFlag(true))),
                    o.isVisible.GetOr(true), width / 2.0, height / 2.0);
    var sp0 := sp.(stages := sp.stages[sid := st]);
    if scene.Some? then ApplyRequests(sp0, sid, scene.value.setup) else Outcome(sp0, [])
  }

  // ---------------------------------------------------------------------
  // Removal before drawing

  /** User comparators reorder the items without adding or dropping any. */
  ghost predicate Permutes(reorder: Reorder)
  {
    forall f: nat, s: seq<ObjId> :: multiset(reorder(f, s)) == multiset(s)
  }

  /** An entity queued for removal at least as often as it is listed is gone
      by the end of the step, so the draw that follows in the same frame
      never reaches it. */
  lemma RemovedNotDrawn(sp: Space, sid: ObjId, dt: real, react: Reactor, ctx: Payload, reorder: Reorder, x: ObjId)
    requires sid in sp.stages && !sp.stages[sid].paused
    requires forall c :: react(c) == []
    requires Permutes(reorder)
    requires Count(sp.stages[sid].removeList, x) >= Count(sp.stages[sid].items, x)
    ensures var s := StepStage(sp, sid, dt, react).sp;
            var d := Draw(s, sid, ctx, reorder);
            x !in Drawn(d.effects) && Count(d.sp.stages[sid].items, x) == 0
  {
    QuietStep(sp, sid, dt, react);
    var s := StepStage(sp, sid, dt, react).sp;
    var items := s.stages[sid].items;
    assert Count(items, x) == 0;
    var d := Draw(s, sid, ctx, reorder);
    var items1 := d.sp.stages[sid].items;
    assert multiset(items1) == multiset(items) by {
      match s.stages[sid].sort
      case NoSort =>
      case ZSort =>
      case CustomSort(f) =>
        assert items1 == reorder(f, items);
    }
    assert x !in items1 by {
      assert Count(items1, x) == 0;
    }
  }

  // ---------------------------------------------------------------------
  // What a stage's step does to the other stages

  /** `b` differs from `a` only in removal queues, each grown at its end. */
  ghost predicate Queues(a: map<ObjId, Stage>, b: map<ObjId, Stage>)
  {
    QueuesOnly(a, b) && forall s :: s in a ==> Prefix(a[s].removeList, b[s].removeList)
  }

  lemma QueuesRefl(a: map<ObjId, Stage>)
    ensures Queues(a, a)
  {
    forall s | s in a
      ensures a[s].(removeList := a[s].removeList) == a[s] && Prefix(a[s].removeList, a[s].removeList)
    {
    }
  }

  lemma QueuesTrans(a: map<ObjId, Stage>, b: map<ObjId, Stage>, c: map<ObjId, Stage>)
    requires Queues(a, b) && Queues(b, c)
    ensures Queues(a, c)
  {
    QueuesOnlyTrans(a, b, c);
    forall s | s in a
      ensures Prefix(a[s].removeList, c[s].removeList)
    {
      PrefixTrans(a[s].removeList, b[s].removeList, c[s].removeList);
    }
  }

  /** Growing queues stay grown when one stage is set back in both. */
  lemma DropOne(a: map<ObjId, Stage>, b: map<ObjId, Stage>, sid: ObjId, st: Stage)
    requires Queues(a, b) && sid in a
    ensures Queues(a[sid := st], b[sid := st])
  {
    var a1 := a[sid := st];
    var b1 := b[sid := st];
    forall s | s in a1
      ensures b1[s].(removeList := a1[s].removeList) == a1[s] && Prefix(a1[s].removeList, b1[s].removeList)
    {
      if s != sid {
        assert b1[s] == b[s] && a1[s] == a[s];
      }
    }
  }

  /** Every stage other than `sid` changes at most by its removal queue growing. */
  ghost predicate OthersQueue(a: Space, b: Space, sid: ObjId)
  {
    b.stages.Keys == a.stages.Keys &&
    forall s :: s in a.stages && s != sid ==>
      b.stages[s].(removeList := a.stages[s].removeList) == a.stages[s] &&
      Prefix(a.stages[s].removeList, b.stages[s].removeList)
  }

  /** Queues that grow once stage `sid` is set back on the right are queues
      that grow on every other stage. */
  lemma OthersQueueFrom(a: Space, b: Space, sid: ObjId)
    requires sid in a.stages && sid in b.stages && Queues(a.stages, b.stages[sid := a.stages[sid]])
    ensures OthersQueue(a, b, sid)
  {
    var b1 := b.stages[sid := a.stages[sid]];
    assert b1.Keys == b.stages.Keys;
    forall s | s in a.stages && s != sid
      ensures b.stages[s].(removeList := a.stages[s].removeList) == a.stages[s] &&
              Prefix(a.stages[s].removeList, b.stages[s].removeList)
    {
      assert b1[s] == b.stages[s];
    }
  }

  lemma OthersQueueRefl(a: Space, sid: ObjId)
    ensures OthersQueue(a, a, sid)
  {
    forall s | s in a.stages && s != sid
      ensures a.stages[s].(removeList := a.stages[s].removeList) == a.stages[s] &&
              Prefix(a.stages[s].removeList, a.stages[s].removeList)
    {
      assert a.stages[s].removeList[..|a.stages[s].removeList|] == a.stages[s].removeList;
    }
  }

  /** Only stage `sid` tells `b` and `c` apart. */
  lemma OthersQueueSetBack(a: Space, b: Space, c: Space, sid: ObjId, st: Stage)
    requires OthersQueue(a, b, sid) && sid in b.stages && sid in c.stages
    requires c.stages[sid := st] == b.stages[sid := st]
    ensures OthersQueue(a, c, sid)
  {
    assert c.stages.Keys == c.stages[sid := st].Keys == b.stages[sid := st].Keys == b.stages.Keys;
    forall s | s in a.stages && s != sid
      ensures c.stages[s] == b.stages[s]
    {
      assert c.stages[s] == c.stages[sid := st][s];
    }
  }

  lemma OthersQueueTrans(a: Space, b: Space, c: Space, sid: ObjId)
    requires OthersQueue(a, b, sid) && OthersQueue(b, c, sid)
    ensures OthersQueue(a, c, sid)
  {
    forall s | s in a.stages && s != sid
      ensures c.stages[s].(removeList := a.stages[s].removeList) == a.stages[s] &&
              Prefix(a.stages[s].removeList, c.stages[s].removeList)
    {
      PrefixTrans(a.stages[s].removeList, b.stages[s].removeList, c.stages[s].removeList);
    }
  }

  lemma DestroyEntityQueues(sp: Space, eid: ObjId)
    requires eid in sp.ents
    ensures Queues(sp.stages, DestroyEntity(sp, eid).sp.stages)
  {
    DestroyEntityQueuesOnly(sp, eid);
  }

  /** Disposing of an entity grows at most removal queues, wherever stage
      `sid` is set back to `st` on both sides. */
  lemma DisposeOthers(sp: Space, sid: ObjId, eid: ObjId, st: Stage)
    requires sid in sp.stages
    ensures Queues(sp.stages[sid := st], Dispose(sp, sid, eid).sp.stages[sid := st])
  {
    if eid !in sp.ents {
      QueuesRefl(sp.stages[sid := st]);
    } else {
      var d := DestroyEntity(sp, eid);
      DestroyEntityQueues(sp, eid);
      DropOne(sp.stages, d.sp.stages, sid, st);
      var r := Dispose(sp, sid, eid).sp;
      assert r.stages[sid := st] == d.sp.stages[sid := st] by {
        assert r.stages == d.sp.stages[sid := r.stages[sid]];
      }
    }
  }

  /** A force-removal touches no other stage beyond queueing the entity with its parent. */
  lemma ForceRemoveOthers(sp: Space, sid: ObjId, eid: ObjId)
    requires sid in sp.stages
    ensures OthersQueue(sp, ForceRemove(sp, sid, eid).sp, sid)
  {
    var st := sp.stages[sid];
    if eid in st.items {
      var sp1 := SpliceOut(sp, sid, eid);
      assert sp1.stages[sid := st] == sp.stages by {
        assert sp1.stages == sp.stages[sid := sp1.stages[sid]];
      }
      DisposeOthers(sp1, sid, eid, st);
      OthersQueueFrom(sp, ForceRemove(sp, sid, eid).sp, sid);
    } else {
      OthersQueueRefl(sp, sid);
    }
  }

  /** A force-removal keeps the stage's own entity part and settings. */
  lemma ForceRemoveSettings(sp: Space, sid: ObjId, eid: ObjId)
    requires sid in sp.stages
    ensures SameSettings(sp.stages[sid], ForceRemove(sp, sid, eid).sp.stages[sid])
  {
    if eid in sp.stages[sid].items {
      var sp1 := SpliceOut(sp, sid, eid);
      if eid in sp1.ents {
        var d := DestroyEntity(sp1, eid);
        DestroyEntityQueuesOnly(sp1, eid);
        assert SameSettings(sp1.stages[sid], d.sp.stages[sid]) by {
          assert d.sp.stages[sid].(removeList := sp1.stages[sid].removeList) == sp1.stages[sid];
        }
      }
    }
  }

  /** A flush grows at most removal queues of the other stages. */
  lemma {:induction false} FlushOthers(sp: Space, sid: ObjId, i: nat, len: nat)
    requires sid in sp.stages && i <= len <= |sp.stages[sid].removeList|
    ensures OthersQueue(sp, Flush(sp, sid, i, len).sp, sid)
    decreases len - i
  {
    if i == len {
      OthersQueueRefl(sp, sid);
    } else {
      var eid := sp.stages[sid].removeList[i];
      var o1 := ForceRemove(sp, sid, eid).sp;
      assert sid in o1.stages && i + 1 <= len <= |o1.stages[sid].removeList|;
      FlushOthers(o1, sid, i + 1, len);
      ForceRemoveOthers(sp, sid, eid);
      OthersQueueTrans(sp, o1, Flush(sp, sid, i, len).sp, sid);
    }
  }

  /** A flush keeps the stage's own entity part and settings. */
  lemma {:induction false} FlushSettings(sp: Space, sid: ObjId, i: nat, len: nat)
    requires sid in sp.stages && i <= len <= |sp.stages[sid].removeList|
    ensures SameSettings(sp.stages[sid], Flush(sp, sid, i, len).sp.stages[sid])
    decreases len - i
  {
    if i < len {
      var o1 := ForceRemove(sp, sid, sp.stages[sid].removeList[i]);
      ForceRemoveSettings(sp, sid, sp.stages[sid].removeList[i]);
      FlushSettings(o1.sp, sid, i + 1, len);
    }
  }

  /** With game code asking for nothing, the callouts of a step change nothing. */
  lemma QuietCallouts(sp: Space, sid: ObjId, dt: real, react: Reactor)
    requires sid in sp.stages
    requires forall c :: react(c) == []
    ensures StepCallouts(sp, sid, dt, react).sp == sp
  {
    var items := sp.stages[sid].items;
    assert ApplyRequests(sp, sid, react(PreStep)) == Outcome(sp, []);
    QuietPassUnchanged(sp, sid, 0, |items|, dt, react);
    var o2 := StepPass(sp, sid, 0, |items|, dt, react);
    assert ApplyRequests(o2.sp, sid, react(PostStep)) == Outcome(o2.sp, []);
  }

  /** A step in which game code asks for nothing leaves every other stage as
      it was, except that entities it destroys are queued with their parents. */
  lemma QuietStepOthers(sp: Space, sid: ObjId, dt: real, react: Reactor)
    requires sid in sp.stages
    requires forall c :: react(c) == []
    ensures OthersQueue(sp, StepStage(sp, sid, dt, react).sp, sid)
    ensures SameSettings(sp.stages[sid], StepStage(sp, sid, dt, react).sp.stages[sid])
  {
    if sp.stages[sid].paused {
      OthersQueueRefl(sp, sid);
    } else {
      QuietCallouts(sp, sid, dt, react);
      assert StepStage(sp, sid, dt, react).sp == FlushQueue(sp, sid).sp;
      FlushQueueOthers(sp, sid);
    }
  }

  /** The end-of-step flush only queues removals on other stages and keeps
      the stage's own settings. */
  lemma FlushQueueOthers(sp: Space, sid: ObjId)
    requires sid in sp.stages
    ensures OthersQueue(sp, FlushQueue(sp, sid).sp, sid)
    ensures SameSettings(sp.stages[sid], FlushQueue(sp, sid).sp.stages[sid])
  {
    var rl := sp.stages[sid].removeList;
    var o := if |rl| > 0 then Flush(sp, sid, 0, |rl|) else Outcome(sp, []);
    if |rl| > 0 {
      FlushOthers(sp, sid, 0, |rl|);
      FlushSettings(sp, sid, 0, |rl|);
    } else {
      OthersQueueRefl(sp, sid);
    }
    var r := FlushQueue(sp, sid).sp;
    assert r.stages[sid := sp.stages[sid]] == o.sp.stages[sid := sp.stages[sid]];
    OthersQueueSetBack(sp, o.sp, r, sid, sp.stages[sid]);
  }

  /** A draw leaves every other stage as it was. */
  lemma DrawOthers(sp: Space, sid: ObjId, ctx: Payload, reorder: Reorder)
    requires sid in sp.stages
    ensures OthersQueue(sp, Draw(sp, sid, ctx, reorder).sp, sid)
  {
    var st := sp.stages[sid];
    var r := Draw(sp, sid, ctx, reorder).sp;
    assert r.stages[sid := st] == sp.stages[sid := st] by {
      assert r.stages == sp.stages[sid := st.(items := r.stages[sid].items)];
    }
    OthersQueueRefl(sp, sid);
    OthersQueueSetBack(sp, sp, r, sid, st);
  }
}
